=== FILE: README.md ===
# prisel-state, modelled in Dafny

prisel-state is a hook-based state-machine runtime. A *state* is a user
function that is re-run whenever it is *dirty*. During a run it calls hooks
(`useLocalState`, `useEffect`, `useEvent`, …), which read and update one
slot of the state's hook queue per call. The state function can return the
config of a successor state. The *machine* keeps the live states keyed by a
chain id and runs a *pass* over them whenever something scheduled one. The
repository holds three generations of this runtime, and this project models
all three:

- **The current runtime** (`src/`). Each module follows one source file:
  - `ImmutableMaps`: the persistent ambient overlay map (`src/immutableMap.ts`).
  - `Ambients`: ambient providers (`src/ambient.ts`).
  - `AmbientManagers`: the per-chain ambient store (`src/ambientManager.ts`).
  - `StateConfigs`: state configs (`src/stateConfig.ts`).
  - `Utils`: the dependency comparison and assertions (`src/utils.ts`).
  - `Events`: event pipelines (`src/event.ts`).
  - `MultiMaps`: the key-to-set multimap (`src/multiMap.ts`).
  - `Promises`: the settle-once flag of `CancellablePromise` (`src/promise.ts`).
  - One module per hook (`UseEffects`, `UseSideEffects`, `UseMemos`, `UseComputeds`, `UseStates`, `UseLocalStates`, `UseRefs`, `UseStoreds`, `UseEvents`).
  - `Runtime` holds the process record of `src/state.ts`, the subscription book of `src/eventManager.ts` and the scheduler of `src/stateMachine.ts` together. The three TypeScript modules refer to each other: a state schedules its machine, the machine owns the event manager, and the event manager triggers states. Dafny modules may not form a cycle, so they share one module.
  - `HookSlots` holds the slot-allocation step every hook shares.
  - `ChainIds` holds the `"state-" + n` id scheme.
- **The monolithic version** (`state.ts`):
  - `Monolith` models the machine, with named events, nested states and `sendAllForId`.
  - `MonolithHooks` models its hooks `useLocalState`, `useSideEffect`, `useEvent` and `useNested`.
- **The earliest version** (`restate.ts`): `Restate` models the machine. It gives every successor a fresh key and stores dependencies when a slot is created.

**How the model is built:**

- **Objects updated in place are classes.** Examples are a process record, a machine, the event manager, a multimap and a promise flag. Their methods state the new state, usually as a function of the old one.
- **User callbacks are opaque tokens.** These are state functions, effects, cleanups, filter predicates, map transforms and memo computations. A `Callbacks` parameter gives what they return. The model quantifies over every choice of `Callbacks`.
- **Effect, cleanup, memo and updater calls are recorded.** Each call of an effect, a cleanup, a memo computation or a state updater goes into a ghost trace (`calls`). Filter predicates and map transforms are not recorded: their results are read from `Callbacks` where they are used.
- **`console.warn` messages go into a ghost log** (`warnings`).
- **`Object.is` is Dafny equality on `Value`.**
- **Iteration order is a sequence.** A JavaScript `Map`'s iteration order is a `seq` of keys (`order`) kept beside the `map`. A pass is a cursor over that live order, so successors appended during the pass are visited in the same pass, as in JavaScript.
- **State functions are not executed.** A pass receives, in order, what the state functions of the dirty states return, as a sequence of outcomes.
- **A pass can stop early.** If it needs more outcomes than it was given, it stops and reports `exhausted`. In JavaScript a chain that always transitions keeps the pass going forever.
- **Chain ids are drawn twice in `restate.ts`.** `addStateFromConfig` draws the key from `genStateId()`, and the `State` constructor draws its own `id` from the same counter. Every state's `id` therefore differs from the key it is registered under. The model keeps both draws, and the counter advances by two per state. Nothing in `restate.ts` reads `id`.

## Model

| member | source | states |
|---|---|---|
| ChainIds.ParseNatToString | src/stateMachine.ts:97-102 | the rendering is lossless: reading the digits back gives the counter value |
| ChainIds.KeyNumberOfKey | src/stateMachine.ts:101 | the counter value can be read back from every `"state-" + n` id |
| ChainIds.KeyInjective | state.ts:151-154 | different counter values never give the same chain id |
| ChainIds.NextKeyFresh | state.ts:151-154 | an id handed out earlier is never the one the next `genChainId` returns, and stays handed out |
| Utils.Assert | src/utils.ts:1-5 | throws a plain error carrying the message exactly when the condition is false |
| Utils.AssertNonNull | src/utils.ts:7-13 | returns its argument unchanged unless it is `null` or `undefined`, and otherwise fails with the `assert` error naming the label |
| Utils.EveryFromIff | src/utils.ts:37 | the `every` walk from index `i` holds exactly when every later pair is equal |
| Utils.UnchangedDeps | src/utils.ts:24-38 | false when either list is `undefined` or the lengths differ; otherwise true exactly when the lists agree element by element |
| Utils.UnchangedDepsIsEquality | src/utils.ts:24-38 | unchanged exactly when both lists are defined and equal |
| Utils.UnchangedDepsReflexive | src/utils.ts:28-33 | a defined list is unchanged against itself; `undefined` is never unchanged, not even against itself |
| Utils.UnchangedDepsSymmetric | src/utils.ts:24-38 | the comparison is symmetric |
| ImmutableMaps.Reverse | src/immutableMap.ts:49-52 | reversal keeps the length |
| ImmutableMaps.ReverseIndex | src/immutableMap.ts:49-52 | reversal puts element `i` at the mirrored position |
| ImmutableMaps.ReverseAppend | src/immutableMap.ts:37-52 | reversing a concatenation reverses the order of the parts |
| ImmutableMaps.ToMapAppend | src/immutableMap.ts:58 | building a map from concatenated entries is the later part overriding the earlier one |
| ImmutableMaps.ToMapReverseAppend | src/immutableMap.ts:37-58 | the map of a reversed concatenation lets the first part override the second |
| ImmutableMaps.ToMapOfReversedParts | src/immutableMap.ts:37-58 | flattening own entry, previous chain and parent chain lets the own entry override the previous chain, which overrides the parent chain |
| ImmutableMaps.ChainMap | src/immutableMap.ts:37-58 | a builder node's map is its parent chain's map, overridden by its previous chain's, overridden by its own entry |
| ImmutableMaps.ToMapHas | src/immutableMap.ts:54-61 | a key is in the built map exactly when some entry carries it |
| ImmutableMaps.ToMapLast | src/immutableMap.ts:54-61 | the built map holds the value of the last entry carrying a key |
| ImmutableMaps.ImmutableMapBuilder.constructor | src/immutableMap.ts:7-15 | stores entry, previous and parent as given, with no memo |
| ImmutableMaps.ImmutableMapBuilder.ContentsUnfold | src/immutableMap.ts:37-58 | the map a node builds is its parent's map, overridden by its previous chain's, overridden by its own entry |
| ImmutableMaps.ImmutableMapBuilder.Set | src/immutableMap.ts:23-28 | a new node holding the pair; it chains onto the receiver unless that is empty; the receiver is not modified |
| ImmutableMaps.ImmutableMapBuilder.SetParent | src/immutableMap.ts:30-35 | on an empty builder returns the parent itself, otherwise a new node linking this chain over the parent |
| ImmutableMaps.ImmutableMapBuilder.Build | src/immutableMap.ts:54-61 | returns the memo if one exists, otherwise builds the flattened map once and memoizes it; the result is the chain's contents |
| ImmutableMaps.ImmutableMap.constructor | src/immutableMap.ts:68-70 | the map holds exactly the given data |
| ImmutableMaps.ImmutableMap.Builder | src/immutableMap.ts:72-74 | `builder()` is an empty builder whose map is empty |
| ImmutableMaps.ImmutableMap.Get | src/immutableMap.ts:76-78 | the stored value, or none for an absent key |
| ImmutableMaps.BuiltLookup | src/immutableMap.ts:76-82 | on a built map, `has(k)` holds exactly when some entry of the chain has key `k`, and `get(k)` is the last such entry's value |
| ImmutableMaps.ToMapLookup | src/immutableMap.ts:76-82 | lookups in a map built from entries: presence is "some entry has the key", and the value is that of the last such entry |
| ImmutableMaps.LastSetWins | src/immutableMap.ts:23-28 | on any builder `b`, `b.set(k, v1).set(k, v2).build()` gives `v2` for `k` and `b`'s value for every other key |
| ImmutableMaps.BuilderIsImmutable | src/immutableMap.ts:23-28 | on any builder `b`, after `a = b.set(k, v1)` and `a.set(k, v2)`, building `a` still gives exactly `b`'s map with `k` bound to `v1` |
| ImmutableMaps.SetParentOverrides | src/immutableMap.ts:30-35 | for any builders `b` and `p`, `b.setParent(p).build()` gives `b`'s value for keys of `b`, `p`'s value for keys only in `p`, and nothing else |
| StateConfigs.AmbientRef.constructor | src/ambient.ts:105 | the ambient identity carries the given name |
| StateConfigs.ChooseLabel | src/stateConfig.ts:45 | the label is the given one when non-empty, otherwise the state function's name |
| StateConfigs.ChooseLabelKeeps | src/stateConfig.ts:45 | a given label survives exactly when it is non-empty or the function's name is empty |
| StateConfigs.StateConfig.constructor | src/stateConfig.ts:41-50 | stores function, props, ambient and label as given |
| StateConfigs.StateConfig.SetLabel | src/stateConfig.ts:46-49 | overwrites the label and returns the very same config |
| StateConfigs.CreateStateConfig | src/stateConfig.ts:35-52 | a fresh config with function, props and ambient as given and the label chosen by the fallback rule |
| Ambients.NewAmbient | src/ambient.ts:102-109 | a fresh identity named `name`, shared by the ambient and its provider |
| Ambients.ProvideWith | src/ambient.ts:120-127 | a new config with the same function, props and label, whose ambient is the input builder plus one entry; the input is not modified |
| Ambients.Provide | src/ambient.ts:116-127 | the two-argument form: the input's ambient map with the provided value added on top |
| Ambients.Curry | src/ambient.ts:129-136 | the curried form yields a wrapper for the provider's identity and value |
| Ambients.ApplyWrapper | src/ambient.ts:129-136 | applying the wrapper adds the same entry as the two-argument form |
| Ambients.CurriedAgrees | src/ambient.ts:116-137 | `provideAmbient(v)(cfg)` and `provideAmbient(v, cfg)` agree on every field and on the map they build |
| Ambients.NestedProvidersOuterWins | src/ambient.ts:120-127 | of two nested providers for the same ambient, the outer one, applied last, decides the value |
| Ambients.DistinctAmbientsCompose | src/ambient.ts:120-136 | providers of two distinct ambients compose, and both values are visible |
| AmbientManagers.AmbientManager.constructor | src/ambientManager.ts:11-13 | starts with nothing stored |
| AmbientManagers.AmbientManager.StoreWrappedAmbient | src/ambientManager.ts:15-31 | no change when the state provides nothing and continues its chain; otherwise the state's ambient is re-parented onto the previous state's, built, and stored under the chain id, replacing an earlier map; the builder's memo is the stored map, so it stays sound |
| AmbientManagers.AmbientManager.GetAmbient | src/ambientManager.ts:37-46 | the "cannot get" error when nothing is stored for the chain, the "not provided" error when the ref is absent, and otherwise the stored value; success exactly when `hasAmbient` holds |
| AmbientManagers.AmbientManager.ClearAmbientForChainId | src/ambientManager.ts:48-50 | removes only that chain's map; afterwards `hasAmbient` is false and `getAmbient` fails for every ref |
| AmbientManagers.StoredAmbientsVisible | src/ambientManager.ts:33-46 | after a store, exactly the refs of the combined builders are visible, and the state's own values win over the previous state's |
| Events.EventRef.constructor | src/event.ts:36 | the identity object carries the event's name |
| Events.ProcessSpecMeaning | src/event.ts:59-70 | a pipeline accepts exactly when every step passes, then yields the composition of the maps; a rejection yields `undefined` |
| Events.ProcessEmpty | src/event.ts:59-70 | with no steps the payload is accepted unchanged |
| Events.FirstFailingFilter | src/event.ts:61-64 | the first filter whose predicate fails on the current value rejects with `[false, undefined]` |
| Events.AllFiltersPass | src/event.ts:65-69 | when every filter passes, the result is `[true, x]` with `x` the maps applied in order |
| Events.RejectionIsFinal | src/event.ts:61-64 | appending steps to a rejecting pipeline still rejects |
| Events.EventImpl.constructor | src/event.ts:33-41 | name, pipeline and identity as given |
| Events.EventImpl.Named | src/event.ts:33-41 | the defaults: an empty pipeline and a fresh identity named after the event |
| Events.EventImpl.Filter | src/event.ts:43-49 | a fresh event with the same name and identity and one more filter step; the receiver is not modified |
| Events.EventImpl.Map | src/event.ts:51-57 | a fresh event with the same name and identity and one more map step; the receiver is not modified |
| Events.EventImpl.Process | src/event.ts:59-70 | the loop returns the pipeline's specified result: early rejection at the first failing filter, or the composed maps |
| Events.NewEvent | src/event.ts:73-78 | an event with an empty pipeline and an emitter sharing one fresh identity named `name` |
| Events.DerivedEventsShareIdentity | src/event.ts:43-57 | for any event, `filter(p).map(t)` keeps its identity and name, and processes a payload as the original pipeline followed by the filter and then the map |
| MultiMaps.AddThenHas | src/multiMap.ts:4-17 | after `add(k, v)` both `has(k)` and `has(k, v)` hold, earlier values under `k` are kept, and other keys are untouched |
| MultiMaps.DeleteRemoves | src/multiMap.ts:19-34 | `delete(k)` removes the key; `delete(k, v)` leaves no `v` under `k`; other keys are untouched |
| MultiMaps.DeleteAbsent | src/multiMap.ts:21-23 | deleting from an absent key changes nothing |
| MultiMaps.AddKeepsSetsNonEmpty | src/multiMap.ts:4-9 | `add` keeps every stored set non-empty |
| MultiMaps.DeleteKeepsSetsNonEmpty | src/multiMap.ts:27-33 | `delete` keeps every stored set non-empty, since emptying a set deletes its key |
| MultiMaps.HasKeyIffSomeValue | src/multiMap.ts:11-17 | under that invariant, `has(k)` holds exactly when `k` has a value |
| MultiMaps.MultiMap.constructor | src/multiMap.ts:2 | starts empty |
| MultiMaps.MultiMap.Add | src/multiMap.ts:4-9 | adds the value to the key's set, creating the set if needed |
| MultiMaps.MultiMap.Has | src/multiMap.ts:11-17 | the key is present, or the value is in the key's set |
| MultiMaps.MultiMap.Delete | src/multiMap.ts:19-34 | both forms of `delete`, keeping every stored set non-empty |
| MultiMaps.MultiMap.Get | src/multiMap.ts:36-38 | the stored set, or an empty set for an absent key, without inserting it |
| Promises.EndedIsFinal | src/promise.ts:41-73 | once the flag left INITIALIZED, no resolve, reject or cancel changes it |
| Promises.FirstAttemptWins | src/promise.ts:41-73 | only the first of resolve, reject and cancel decides the final flag |
| Promises.EndedIffSettled | src/promise.ts:33-39 | `isEnded()` holds exactly when the flag is FULFILLED, FAILED or CANCELLED |
| Promises.CancellablePromise.constructor | src/promise.ts:15-31 | starts INITIALIZED with nothing delivered, the executor having run (as intended; as written it never runs) |
| Promises.CancellablePromise.IsEnded | src/promise.ts:33-39 | true exactly when the flag left INITIALIZED |
| Promises.CancellablePromise.Resolve | src/promise.ts:41-50 | INITIALIZED becomes FULFILLED and the value is delivered; in any other state nothing happens (the intended wrapper; as written it is never reached) |
| Promises.CancellablePromise.Reject | src/promise.ts:52-61 | INITIALIZED becomes FAILED and the reason is delivered; in any other state nothing happens (the intended wrapper; as written it is never reached) |
| Promises.CancellablePromise.Cancel | src/promise.ts:63-73 | acts only from INITIALIZED: sets CANCELLED and rejects with the reason or with a new cancellation (as intended; as written the rejection goes to a no-op) |
| HookSlots.Allocate | src/state.ts:138-146 | after the index advance, the slot at the index is kept if present and created otherwise; no other slot changes |
| HookSlots.FirstCallReadsInitial | src/state.ts:138-175 | on a hook's first call, the slot it reads is the one it creates |
| HookSlots.LaterCallReadsExisting | src/state.ts:138-175 | on a later call the queue is unchanged, and the hook reads the existing slot or fails on a type mismatch |
| HookSlots.EnterHook | src/state.ts:138-175 | advances the index by one, creates the slot if missing, and returns it or the mismatch error |
| Runtime.TriggerQueue | src/state.ts:176-193 | the loop triggers exactly the slots listening to the ref whose pipeline accepts the data, and reports whether any did |
| Runtime.TriggerOnlyMatching | src/state.ts:176-193 | only matching slots change, and each ends up triggered with the data its pipeline produced |
| Runtime.EffectCallsArePending | src/state.ts:266-278 | every call `runEffects` makes is of an effect pending in the queue; with none pending it calls nothing |
| Runtime.CleanupCallsAreStored | src/state.ts:283-290 | every call `runCleanup` makes is of a stored cleanup; with none stored it calls nothing |
| Runtime.RunEffectsTwiceCallsNothing | src/state.ts:266-278 | after `runEffects` no effect is pending, so a second run calls nothing; slot types never change |
| Runtime.RunCleanupTwiceCallsNothing | src/state.ts:283-290 | after `runCleanup` no cleanup is stored, so a second run calls nothing |
| Runtime.RunEffectsLoop | src/state.ts:266-278 | runs each pending effect once in queue order, stores a returned cleanup and clears the effect |
| Runtime.RunCleanupLoop | src/state.ts:283-290 | calls each stored cleanup once in queue order and clears it |
| Runtime.ConsistentIff | src/eventManager.ts:6-7 | the two maps are consistent exactly when state `s` is in the state set of `r` if and only if `r` is in the event set of `s` |
| Runtime.SubscribeRecordsBoth | src/eventManager.ts:13-18 | subscribing records both directions |
| Runtime.SubscribeIdempotent | src/eventManager.ts:13-18 | subscribing twice is subscribing once |
| Runtime.SubscribeKeepsConsistent | src/eventManager.ts:13-18 | subscribing preserves the two-way consistency |
| Runtime.UnsubscribeClears | src/eventManager.ts:20-26 | afterwards every event's state set is the old one without the state, the state listens to no event, and every other state listens to the same events as before |
| Runtime.UnsubscribeKeepsConsistent | src/eventManager.ts:20-26 | unsubscribing preserves the two-way consistency |
| Runtime.StateConfig.constructor | src/state.ts:44-60 | the config of `src/state.ts`: fields as given, label `null` |
| Runtime.StateConfig.SetLabel | src/state.ts:54-57 | sets the label and returns the same config |
| Runtime.CreateStateConfig | src/state.ts:44-60 | a fresh config with fields as given and no label |
| Runtime.State.constructor | src/state.ts:119-133 | a dirty, active, IDLE process with an empty queue and index -1; its ambient map is the ambient state's overridden by the config's when an ambient state is given, else the config's builder itself |
| Runtime.State.SetHook | src/state.ts:141-143 | writes only the slot at the current index, appending when it is one past the end |
| Runtime.State.IncrementHookId | src/state.ts:144-146 | the index goes up by one and nothing else changes |
| Runtime.State.RecordOrCompareHookId | src/state.ts:154-159 | the first call records the index and returns true; later calls return whether the index equals the recorded one |
| Runtime.State.GetHook | src/state.ts:160-175 | the missing-slot error, the mismatch error, or the current slot |
| Runtime.State.MaybeTriggerEvent | src/state.ts:176-193 | triggers exactly the accepting slots listening to the ref, marks dirty and schedules if any matched, and returns that flag |
| Runtime.State.BeginRun | src/state.ts:244-246 | the index is reset to -1 and the dirty flag cleared before the state function runs |
| Runtime.State.ProcessHookFunc | src/state.ts:195-212 | returns the config unchanged, logging a warning when the state was marked dirty during the call or the hook count differs from the recorded one |
| Runtime.State.Run | src/state.ts:244-264 | the non-generator `run()`: reset, then the returned config with the same warnings |
| Runtime.State.RunEffects | src/state.ts:266-278 | the queue and trace after running every pending effect once |
| Runtime.State.RunCleanup | src/state.ts:283-290 | the queue and trace after calling every stored cleanup once |
| Runtime.State.AddCleanup | src/useEffect.ts:56 | the released cleanup is queued for later, not called |
| Runtime.State.MarkInactive | src/state.ts:291-293 | the process is inactive and nothing else changes |
| Runtime.State.MarkDirty | src/state.ts:300-303 | the process is dirty and its machine has a pass pending |
| Runtime.State.GetDebugInfo | src/state.ts:304-317 | chain id, dirty flag and props; hook count is recorded index + 1 when recorded; label when set |
| Runtime.StateBuilder.constructor | src/state.ts:62-66 | nothing set yet |
| Runtime.StateBuilder.BuildError | src/state.ts:84-91 | the error for the first missing part among machine, config and id |
| Runtime.StateBuilder.Build | src/state.ts:84-91 | fails with the first missing part's error, otherwise a new state for the config under the id, with the ambient rule of the constructor |
| Runtime.EventManager.constructor | src/eventManager.ts:9-11 | both maps start empty |
| Runtime.EventManager.GetStateSet | src/eventManager.ts:40-45 | the ref's state set; an unseen ref first gets an empty set |
| Runtime.EventManager.GetEventSet | src/eventManager.ts:47-52 | the state's event set; an unseen state first gets an empty set |
| Runtime.EventManager.Subscribe | src/eventManager.ts:13-18 | records the subscription in both maps and keeps them consistent |
| Runtime.EventManager.Unsubscribe | src/eventManager.ts:20-26 | removes the state from each of its events' sets, then drops its event set |
| Runtime.EventManager.Send | src/eventManager.ts:28-38 | offers the data to exactly the states subscribed to the ref, calling their `maybeTriggerEvent` directly, and returns true iff one of them was triggered; of those states only the hook queue and the dirty flag change |
| Runtime.MachineImpl.constructor | src/stateMachine.ts:20-28 | counter 0, nothing registered, no pass pending |
| Runtime.MachineImpl.AddState | src/stateMachine.ts:30-32 | registers the state under its chain id, replacing an earlier entry in place; `getStateByChainId` then returns it |
| Runtime.MachineImpl.GetStateByChainId | src/stateMachine.ts:126-128 | the state registered under the id, if any |
| Runtime.MachineImpl.GetProcessingState | src/stateMachine.ts:104-106 | the state registered under the id being processed, if still registered |
| Runtime.MachineImpl.RemoveState | src/stateMachine.ts:121-124 | marks the state inactive and drops its chain id |
| Runtime.MachineImpl.Schedule | src/stateMachine.ts:108-115 | a pass is pending afterwards; a second call changes nothing |
| Runtime.MachineImpl.Send | src/stateMachine.ts:34-38 | schedules a pass iff the event manager reports a trigger; of the subscribed states only the hook queue and the dirty flag change |
| Runtime.MachineImpl.Subscribe | src/stateMachine.ts:86-95 | subscribes the processing state, or only logs a warning when there is none |
| Runtime.MachineImpl.GenChainId | src/stateMachine.ts:97-102 | the counter goes up at least once, every id it skips is registered, and the returned id is free |
| Runtime.MachineImpl.Retire | src/stateMachine.ts:69-73 | the state is marked inactive, unsubscribed and dropped from the registry and the order |
| Runtime.MachineImpl.RunIfDirty | src/stateMachine.ts:51-65 | a dirty state runs as the processing state and hands back its outcome; a clean one is untouched |
| Runtime.MachineImpl.Replace | src/stateMachine.ts:66-82 | cleanups run, the state is retired, and a successor, if any, is registered under the same chain id with the same parent |
| Runtime.MachineImpl.Reinstate | src/stateMachine.ts:74-82 | a fresh dirty state for the config is registered under the free id with the given parent, at the end of the order |
| Runtime.MachineImpl.Visit | src/stateMachine.ts:50-82 | one pass step: it leaves iff it returned a config or its parent transitioned, is replaced only in the first case, and is otherwise left untouched |
| Runtime.MachineImpl.Step | src/stateMachine.ts:50-82 | the step keeps the visited prefix clean, shrinks or keeps the registry's keys, and only adds fresh states |
| Runtime.MachineImpl.RunPass | src/stateMachine.ts:47-84 | the pending flag is cleared first; no new chain id appears; unless it ran out of outcomes, no registered state is left dirty (this holds only in the model, where effects, cleanups and hooks called during the pass cannot reach the machine) |
| UseEffects.UnchangedDepsKeepSlot | src/useEffect.ts:50-53 | unchanged dependencies leave the slot exactly as it was and release nothing |
| UseEffects.ChangedDepsReplaceEffect | src/useEffect.ts:54-61 | changed dependencies store the new effect and dependencies, clear the cleanup, and release the old cleanup exactly once |
| UseEffects.FirstCallSchedules | src/useEffect.ts:40-53 | a first call always leaves its effect pending, whatever the dependencies |
| UseEffects.EmptyDepsRunOnce | src/useEffect.ts:28-61 | an effect declared with `[]` runs once: a second call leaves nothing pending |
| UseEffects.ChangedDepRerunsAndReleasesOnce | src/useEffect.ts:50-61 | with `[d]`, a change of `d` reruns the effect and releases the first run's cleanup exactly once |
| UseEffects.UseEffect | src/useEffect.ts:28-62 | the outside-scope error; otherwise one slot step, the slot updated by the dependency rule and the old cleanup handed to `addCleanup` |
| UseSideEffects.NoDepsAlwaysReruns | src/useSideEffect.ts:38-51 | without dependencies the effect is pending again after every call, and a stored cleanup is called before each rerun |
| UseSideEffects.SameDepNoRerun | src/useSideEffect.ts:38-41 | an equal dependency causes no rerun and no cleanup call |
| UseSideEffects.UseSideEffect | src/useSideEffect.ts:19-52 | the outside-scope error; otherwise one slot step, the slot updated by the dependency rule and the old cleanup called on the spot |
| UseMemos.CacheRule | src/useMemo.ts:42-47 | unchanged dependencies return the cache without computing; otherwise the value is computed once and stored with the new dependencies |
| UseMemos.UndefinedDepsRecompute | src/useMemo.ts:34-46 | a first call, and any call without dependencies, computes |
| UseMemos.Replay | src/useMemo.ts:22-48 | a run of calls yields the final slot and every computation made |
| UseMemos.ComputeOncePerChange | src/useMemo.ts:22-48 | the computation runs once per dependency change and never on an equal rerun; the slot keeps the last list |
| UseMemos.CachedValue | src/useMemo.ts:33-47 | one slot step, then the cached value, recomputed exactly when the dependencies changed |
| UseMemos.UseMemo | src/useMemo.ts:22-48 | the outside-scope assertion error, or the cached-value rule on a memo slot |
| UseComputeds.UseComputed | src/useComputed.ts:20-43 | the outside-scope error, or the cached-value rule on a computed slot |
| UseStates.SetterRule | src/useState.ts:55-69 | an enabled setter computes the new value (applying an updater to the current value), stores it and marks dirty iff it differs; otherwise nothing changes |
| UseStates.SetterIdempotent | src/useState.ts:60-67 | setting the same value twice: the second call changes nothing |
| UseStates.SetState | src/useState.ts:55-69 | the setter acts only in IDLE, SIDE_EFFECT or CLEANING_UP without a pending cancel, and then follows the setter rule |
| UseStates.ValueAndSetter | src/useState.ts:49-76 | one slot step, then the stored value and the slot's setter |
| UseStates.UseState | src/useState.ts:41-77 | the outside-scope assertion error, or the value and setter of a state slot |
| UseStates.SeededOnce | src/useState.ts:49-76 | the first call returns the initial state; a later call returns the stored value and the same setter, whatever its argument |
| UseLocalStates.UseLocalState | src/useLocalState.ts:41-79 | the outside-scope assertion error, or the value and setter of a local-state slot |
| UseRefs.SeededCell | src/useRef.ts:26-35 | a first call seeds a fresh cell; later calls return the same cell and ignore the argument; nothing is marked dirty |
| UseRefs.UseRef | src/useRef.ts:18-36 | the outside-scope assertion error, or the slot's cell |
| UseStoreds.UseStored | src/useStored.ts:17-32 | the outside-scope error, or the slot's cell, seeded once |
| UseEvents.DeliveredOnce | src/useEvent.ts:57-68 | a triggered slot reports the processed data on the next call and nothing on the call after |
| UseEvents.UntriggeredReportsNothing | src/useEvent.ts:57-68 | an untriggered slot reports nothing; every call rebinds the slot to its argument |
| UseEvents.UseEvent | src/useEvent.ts:30-69 | the two assertion errors; otherwise one slot step, the slot rebound and consumed, the processing state subscribed, and the delivery returned |
| Monolith.OnlyEndStateEnds | state.ts:528-546 | only `endState` builds a config whose function is the end marker; both keep the props |
| Monolith.TriggerNamedIdempotent | state.ts:251-263 | triggering twice with the same data changes nothing more |
| Monolith.State.constructor | state.ts:215-225 | a dirty, active process with an empty queue, under the given chain id and parent |
| Monolith.State.SetHook | state.ts:229-231 | writes only the slot at the current index |
| Monolith.State.IncrementHookId | state.ts:232-234 | the index goes up by one |
| Monolith.State.GetHook | state.ts:235-250 | the missing-slot error, the mismatch error, or the current slot |
| Monolith.State.MaybeTriggerEvent | state.ts:251-263 | every slot listening to the name takes the data; marks dirty and schedules iff one did, and returns that |
| Monolith.State.BeginRun | state.ts:264-266 | index -1 and dirty cleared before the state function runs |
| Monolith.State.FinishRun | state.ts:267-288 | warns when marked dirty during the call, then runs every pending effect once in queue order |
| Monolith.State.Run | state.ts:264-288 | `run()`: reset, the returned config, and the effects run once |
| Monolith.State.Cleanup | state.ts:293-300 | every stored cleanup is called once and cleared |
| Monolith.State.MarkInactive | state.ts:301-303 | the process is inactive |
| Monolith.State.MarkDirty | state.ts:310-313 | the process is dirty and a pass is pending |
| Monolith.State.IsDescendantOf | state.ts:314-323 | true exactly when some state on the parent chain has the chain id |
| Monolith.Machine.constructor | state.ts:95-98 | counter 0, nothing registered, no pass pending |
| Monolith.Machine.GenChainId | state.ts:151-154 | the next counter value's id, never handed out before and registered nowhere |
| Monolith.Machine.AddStateFromConfig | state.ts:100-108 | registers a new state under the given chain id or a fresh one |
| Monolith.Machine.GetStateByChainId | state.ts:189-191 | the state registered under the id, if any |
| Monolith.Machine.GetProcessingState | state.ts:155-157 | the state registered under the id being processed, if any |
| Monolith.Machine.Schedule | state.ts:159-166 | a pass is pending; a second call changes nothing |
| Monolith.Machine.SendAt | state.ts:179-185 | one state takes the event iff the event reaches it, and a pass is scheduled iff it listened |
| Monolith.Machine.SendTo | state.ts:168-187 | every registered state the event reaches takes it, whatever the visiting order; a pass is scheduled iff one listened |
| Monolith.Machine.SendAll | state.ts:168-176 | every registered state's listening slots take the data; a pass is scheduled iff one listened |
| Monolith.Machine.SendAllForId | state.ts:178-187 | only the chain's state and its descendants take the event |
| Monolith.Machine.RunIfDirty | state.ts:121-136 | a dirty state runs as the processing state; a clean one is untouched |
| Monolith.Machine.Retire | state.ts:140-143 | marked inactive and dropped from the registry |
| Monolith.Machine.Replace | state.ts:137-147 | cleanups run, the state is retired, and a successor, if any, keeps its chain id and parent |
| Monolith.Machine.Visit | state.ts:120-148 | one pass step: leaves iff it returned a config or its parent transitioned, replaced only in the first case |
| Monolith.Machine.Step | state.ts:120-148 | the step keeps the visited prefix clean and only adds fresh states |
| Monolith.Machine.RunPass | state.ts:117-149 | the pending flag is cleared; no new chain id appears; unless out of outcomes, no state is left dirty (this holds only in the model, where effects, cleanups and hooks called during the pass cannot reach the machine) |
| MonolithHooks.EnterHook | state.ts:226-250 | one slot step: index + 1, slot created if missing, then read with the type check |
| MonolithHooks.UseLocalState | state.ts:338-371 | the outside-scope error, or the stored value and the slot's setter; the argument only seeds a new slot |
| MonolithHooks.SetLocalState | state.ts:349-361 | inert once the state is inactive; otherwise the setter rule |
| MonolithHooks.InactiveSetterInert | state.ts:350-354 | a setter of a state that left the machine changes nothing |
| MonolithHooks.UseSideEffect | state.ts:399-432 | the outside-scope error; otherwise the dependency rule, calling the old cleanup on the spot |
| MonolithHooks.NamedDeliveredOnce | state.ts:434-463 | a triggered slot reports `[true, data]` once, then `[false, undefined]` |
| MonolithHooks.RenameTakesEffectNext | state.ts:434-463 | a changed event name takes effect from the next delivery on |
| MonolithHooks.UseEvent | state.ts:434-463 | the outside-scope error, or the slot's delivery, consumed, listening to the given name |
| MonolithHooks.NestedOutcome | state.ts:520-525 | `[true, props]` exactly when the child's chain is at `endState(props)`, else `[false, undefined]` |
| MonolithHooks.NestedStartsAtMostOnce | state.ts:497-519 | a slot starts its child at most once, and never while the condition is false |
| MonolithHooks.NestedDoneAtEndState | state.ts:520-525 | done with the end props once the child reached `endState`, not while it runs a user function |
| MonolithHooks.UseNested | state.ts:478-526 | starts the child under a fresh chain id, nested under the caller, at most once; reports the child's outcome |
| MonolithHooks.Run | state.ts:557-566 | registers the state under a fresh chain id, dirty and with no parent, and schedules a pass |
| Restate.TransitionReleasesEverything | restate.ts:155-174 | after a transitioning run no slot holds a pending effect or a stored cleanup (slot types kept), so nothing can be released twice; a run without a transition keeps every stored cleanup |
| Restate.State.constructor | restate.ts:113-118 | a dirty, active process with an empty queue; its `id` is a new draw from the counter |
| Restate.State.SetNext | restate.ts:122-125 | advances the index and writes that slot |
| Restate.State.GetNext | restate.ts:126-142 | advances the index, then fails if the slot is missing or of another type, else returns it |
| Restate.State.BeginRun | restate.ts:143-145 | index -1 and dirty cleared |
| Restate.State.FinishRun | restate.ts:147-176 | warns if marked dirty during the call, runs the pending effects, and on a transition calls and clears every cleanup |
| Restate.State.Run | restate.ts:143-176 | `run()`: reset, effects, and on a transition all cleanups |
| Restate.State.MarkInactive | restate.ts:177-179 | the process is inactive |
| Restate.State.MarkDirty | restate.ts:183-186 | dirty, and a pass is pending |
| Restate.Machine.constructor | restate.ts:47-51 | counter 0, nothing registered, no pass pending |
| Restate.Machine.GenStateId | restate.ts:84-87 | the next counter value's id, never handed out before |
| Restate.Machine.AddStateFromConfig | restate.ts:53-59 | registers a new state under a fresh key; the counter advances by two and the state's `id` differs from its key |
| Restate.Machine.GetProcessingState | restate.ts:88-90 | the state registered under the key being processed, if any |
| Restate.Machine.Schedule | restate.ts:92-99 | a pass is pending; a second call changes nothing |
| Restate.Machine.RunIfDirty | restate.ts:72-74 | a dirty state runs as the processing state; a clean one is untouched |
| Restate.Machine.Replace | restate.ts:75-79 | the state is marked inactive, the successor gets a fresh key at the end of the order, and the old key is deleted |
| Restate.Machine.Delete | restate.ts:78 | only that key leaves the registry and the order |
| Restate.Machine.Visit | restate.ts:71-81 | one pass step: a dirty state runs, and a returned config replaces it under a fresh key |
| Restate.Machine.Step | restate.ts:71-81 | the step keeps the visited prefix clean and only adds fresh states |
| Restate.Machine.RunPass | restate.ts:68-82 | the pending flag is cleared; unless out of outcomes, no state is left dirty (this holds only in the model, where effects, cleanups and hooks called during the pass cannot reach the machine) |
| Restate.UseLocalState | restate.ts:200-234 | the outside-scope error; an existing slot is read (ignoring the argument), otherwise a slot seeded with it is appended |
| Restate.SetLocalState | restate.ts:218-229 | inert once the state is inactive; otherwise the setter rule |
| Restate.CreationStoresDeps | restate.ts:287-294 | a slot stores its dependencies when created, so an equal second call does not rerun the effect |
| Restate.UseSideEffect | restate.ts:262-295 | the outside-scope error; a new slot stores effect and dependencies; later calls follow the dependency rule, calling the old cleanup on the spot |
| Restate.Run | restate.ts:309-312 | registers the state under a fresh key and schedules a pass |

## Left out

- Promise and microtask scheduling: `schedule()` sets a `scheduled` flag, and a pass is the explicit call `RunPass`. The deferred `then` is not modelled.
- Executing state functions: they are opaque. A pass receives what the dirty states return as a sequence of outcomes, and stops early (`exhausted`) if it needs more. A chain that transitions forever therefore has no modelled counterpart.
- Hook calls made inside a state function during a pass: each hook is modelled by its own method, and the pass does not replay them.
- The generator path of `src/state.ts` (`processGenerator` and the generator branch of `run()`, lines 214-264), together with `src/onCleanup.ts`. Native coroutines have no Dafny counterpart.
- The lifecycle state machine of `src/stateLifecycle.ts`: no code in the repository moves a process between lifecycles. `lifecycle` and `pendingCancel` are plain fields that the state setters read; the next line says why they exist at all.
- UseStates.SetState / Runtime.State.constructor: the `State` class of `src/state.ts` has neither a `lifecycle` nor a `pendingCancel` field. As written, `processingState.lifecycle` is `undefined` in the setters of `src/useState.ts:56-67` and `src/useLocalState.ts:56-67`. In `useState` no `case` matches, so its setter never updates anything. `src/useLocalState.ts:5` imports `StateLifecycle` from `./state`, which does not export it, so its setter throws when it evaluates the first `case`. The model adds both fields to the process record and starts it in IDLE with no pending cancel, which is the state the setters are written to accept; `UseStates.SetState` and `UseLocalStates.UseLocalState` therefore update the slot where the shown code does not.
- Runtime.MachineImpl.Reinstate: `src/stateMachine.ts:79` calls `StateBuilder.parent(...)`, which the builder at `src/state.ts:62-92` does not define, so as written every transition in `src/` throws at that call. `Runtime.MachineImpl.Replace` and `Runtime.MachineImpl.Reinstate` instead complete the transition and give the successor the old state's parent, as the call is evidently meant to.
- Runtime.EventManager.Send: `src/eventManager.ts:32` wraps each trigger in `machine.runWithState(state.chainId, …)`, which no class in the repository defines, so as written every `send` to a ref with a subscriber throws a TypeError. The model calls `maybeTriggerEvent` on each subscribed state directly and makes no switch of the processing state around the call.
- Runtime.State.GetHook: `src/hook.ts:6-12` declares only `LOCAL_STATE`, `EFFECT`, `EVENT`, `COMPUTED` and `STORED`, so `HookType.STATE`, `HookType.MEMO` and `HookType.REF` are all `undefined` in the source. Slots of `useState`, `useMemo` and `useRef` then carry the same tag, and `getHook` raises no mismatch error when one of them is read as another. The model gives each its own tag, so it reports that mismatch where the source does not.
- `src/useNested.ts`: it calls a `StateBuilder.parent` and a `machine.addState` that the shown classes lack. The coherent `useNested` of `state.ts` is modelled instead.
- `src/sequence.ts`, `src/endState.ts` and `src/scope.ts`: they rest on members that are not part of this model (`runOnCompletes`, `State.cancel`, an unshown ambient) or are unfinished. The end state of `state.ts` is a tag on the config (`EndStateFunc`).
- `src/errors.ts`: only the error kind and message are modelled, not formatting or stack capture.
- Thin wrappers and declarations: `src/run.ts`, `src/getAmbient.ts`, `src/setLabel.ts`, `src/withInspector.ts`, `src/useInspector.ts`, `src/machine.ts`, `src/newState.ts`, `src/inspector.ts` and the index files. Neither are `debugStates` or the inspector object.
- `console.warn` output: it is a ghost `warnings` log.
- `src/stateMachine.ts` calls `state.cleanup()`, which `src/state.ts` does not define. The pass calls `runCleanup()`, the method with that behaviour.
- `src/stateMachine.ts` reads `state.parentState`, and `src/ambientManager.ts` reads `state.config.ambient`. Neither is a field of the shown `State`. The process record has a `parentState` field, and the ambient manager uses the state's `ambient` field.
- `src/useEffect.ts` calls `addCleanup`, which `src/state.ts` does not define. `Runtime.State.AddCleanup` queues the cleanup in a `pendingCleanups` field; nothing in the shown code drains it.
- Monolith.Machine.AddStateFromConfig: takes the parent as an argument. In `state.ts` the caller assigns `parentState` right after construction (line 146).
- Monolith.Machine.SendTo: visits the states as an unordered set, not in `Map` order. A visit changes only the visited state and the `scheduled` flag, so the order does not affect the outcome.
- Monolith.Machine.RunPass: the per-state effect of the pass is stated by `Visit` and `Step`. `RunPass` itself promises only the invariants of the whole pass. Effects and cleanups are modelled as unable to call a setter, `markDirty`, `send` or `schedule`: they only return values and are recorded in the trace. In the source they run inside the pass and may do all of these, which sets a state dirty again and schedules another pass. The END_STATE_FUNC effect at `state.ts:6-13` does exactly this: it marks the parent dirty so that the next pass sees the child has ended. That parent-marking is lost in the model, and the end-of-pass claims "no state is left dirty" and "no pass is pending" hold only in the model, not in the source. Likewise, hooks called by a state function during the pass are not replayed, so a `useNested` that starts a child there (`state.ts:478-526`) adds no chain id in the model, and "no new chain id appears" also holds only in the model.
- Runtime.MachineImpl.RunPass: the per-state effect is stated by `Visit` and `Step`. `RunPass` itself promises only the invariants of the whole pass. Effects and cleanups are modelled as unable to call a setter, `markDirty`, `send` or `schedule`: they only return values and are recorded in the trace. In the source they run inside the pass and may do all of these, which sets a state dirty again and schedules another pass. The `src/` setters are written to fire in the SIDE_EFFECT and CLEANING_UP lifecycles (`src/useState.ts:56-59`), that is, from effects and cleanups. The end-of-pass claims "no state is left dirty" and "no pass is pending" hold only in the model, not in the source.
- Restate.Machine.RunPass: the per-state effect is stated by `Visit` and `Step`. `RunPass` itself promises only the invariants of the whole pass. Effects and cleanups are modelled as unable to call a setter, `markDirty`, `send` or `schedule`: they only return values and are recorded in the trace. In the source they run inside the pass and may do all of these, which sets a state dirty again and schedules another pass. An effect that calls a `restate.ts` setter (lines 156-164) is one example. The end-of-pass claims "no state is left dirty" and "no pass is pending" hold only in the model, not in the source.
- The body of `END_STATE_FUNC` (`state.ts:6-13`): it is never run by the modelled code and is only compared by identity.
- JavaScript values are a small datatype: no NaN or -0, so `Object.is` is plain equality. Objects are compared by identity token.
- ImmutableMaps.ImmutableMap.Builder: returns a fresh empty builder on each call, not the shared `EMPTY_BUILDER` object. Builders are never modified after construction except for the memo, so callers cannot tell the two apart.
- MultiMaps.MultiMap.Get: returns the stored set as a value. In `src/multiMap.ts` the caller receives the live `Set`, and changing it changes the multimap; that aliasing is not modelled.
- Promises.CancellablePromise.constructor: the arrow function passed to `super(...)` at `src/promise.ts:23-30` assigns to `this` before `super` has returned, which a derived class does not allow. As written, the `Promise` constructor catches the resulting ReferenceError and rejects the promise with it at once, the user `executor` never runs, and the field initializers at lines 11-15 then reset `resolve`, `reject`, `originalReject` and `cancelCallback` to `noop`. The model follows the evident intent: the executor runs, and its `resolve` and `reject` are the methods below.
- Promises.CancellablePromise.Resolve: as written no executor ever receives the wrapped `resolve`, so no value is ever delivered. The model delivers it, as the wrapper at lines 41-50 is written to.
- Promises.CancellablePromise.Reject: as written no executor ever receives the wrapped `reject`, so no reason is ever delivered. The model delivers it, as the wrapper at lines 52-61 is written to.
- Promises.CancellablePromise.Cancel: as written `originalReject` is still the `noop` of the field initializer, so `cancel()` sets CANCELLED and delivers no rejection. The model delivers the reason or a new `Cancellation`, as lines 63-73 are written to.
- Integer widths: the id counters are unbounded. JavaScript numbers lose precision only past 2^53 allocations.

=== FILE: ambient.dfy ===
/**
 * src/ambient.ts: `newAmbient(name)` makes an ambient identity and a
 * provider. Providing a value wraps a state config in a new config whose
 * ambient builder has one more entry; the curried form builds the same
 * config in two steps.
 */
module Ambients {
  import opened Values
  import opened ImmutableMaps
  import opened StateConfigs

  /** The `{ ref }` object handed to `getAmbient`. */
  datatype Ambient = Ambient(ref: AmbientRef)

  /** `provideAmbient`, a closure over the ambient's `ref`. */
  datatype Provider = Provider(ref: AmbientRef)

  /** The closure `provideAmbient(value)` returns in the curried form. */
  datatype Wrapper = Wrapper(ref: AmbientRef, value: Value)

  /** `newAmbient(name)`: a fresh identity named `name`, shared by the
      ambient and its provider. */
  method NewAmbient(name: string) returns (ambient: Ambient, provider: Provider)
    ensures fresh(ambient.ref) && ambient.ref.name == name
    ensures provider.ref == ambient.ref
  {
    var ref := new AmbientRef(name);
    ambient := Ambient(ref);
    provider := Provider(ref);
  }

  /** The body both forms share: a new config with the same function,
      props and label and one more ambient entry. */
  method ProvideWith(ref: AmbientRef, value: Value, config: StateConfig) returns (c: StateConfig)
    requires config.Valid()
    ensures fresh(c) && fresh(c.ambient) && c.ambient.built == null && c.Valid()
    ensures c.stateFunc == config.stateFunc && c.props == config.props
    ensures c.labelText == ChooseLabel(Some(config.labelText), config.stateFunc)
    ensures c.ambient.Contents() == config.ambient.Contents()[ref := AmbientValueRef(value)]
  {
    var ambient := config.ambient.Set(ref, AmbientValueRef(value));
    c := CreateStateConfig(config.stateFunc, config.props, ambient, Some(config.labelText));
  }

  /** `provideAmbient(value, stateConfig)`. The input config and its
      builder are not modified (no `modifies` clause). */
  method Provide(provider: Provider, value: Value, config: StateConfig) returns (c: StateConfig)
    requires config.Valid()
    ensures fresh(c) && fresh(c.ambient) && c.ambient.built == null && c.Valid()
    ensures c.stateFunc == config.stateFunc && c.props == config.props
    ensures c.labelText == ChooseLabel(Some(config.labelText), config.stateFunc)
    ensures c.ambient.Contents() == config.ambient.Contents()[provider.ref := AmbientValueRef(value)]
  {
    c := ProvideWith(provider.ref, value, config);
  }

  /** `provideAmbient(value)`: the curried form. */
  function Curry(provider: Provider, value: Value): (w: Wrapper)
    ensures w.ref == provider.ref && w.value == value
  {
    Wrapper(provider.ref, value)
  }

  /** Applying the wrapper `provideAmbient(value)` to a config. */
  method ApplyWrapper(w: Wrapper, config: StateConfig) returns (c: StateConfig)
    requires config.Valid()
    ensures fresh(c) && fresh(c.ambient) && c.ambient.built == null && c.Valid()
    ensures c.stateFunc == config.stateFunc && c.props == config.props
    ensures c.labelText == ChooseLabel(Some(config.labelText), config.stateFunc)
    ensures c.ambient.Contents() == config.ambient.Contents()[w.ref := AmbientValueRef(w.value)]
  {
    c := ProvideWith(w.ref, w.value, config);
  }

  /** `provideAmbient(v)(cfg)` and `provideAmbient(v, cfg)` produce configs
      that agree on every field and on the ambient map they build. */
  method CurriedAgrees(provider: Provider, value: Value, config: StateConfig)
    returns (direct: StateConfig, curried: StateConfig)
    requires config.Valid()
    ensures direct.Valid() && curried.Valid() && direct != curried
    ensures direct.stateFunc == curried.stateFunc && direct.props == curried.props
    ensures direct.labelText == curried.labelText
    ensures direct.ambient.Contents() == curried.ambient.Contents()
  {
    direct := Provide(provider, value, config);
    curried := ApplyWrapper(Curry(provider, value), config);
  }

  /** `provideAmbient(outer, provideAmbient(inner, cfg))`: the outermost
      provider, applied last, decides the value. */
  method NestedProvidersOuterWins(provider: Provider, inner: Value, outer: Value, config: StateConfig)
    returns (c: StateConfig, m: ImmutableMap<AmbientRef, AmbientValueRef>)
    requires config.Valid()
    ensures m.Get(provider.ref) == Some(AmbientValueRef(outer))
  {
    var c1 := Provide(provider, inner, config);
    c := Provide(provider, outer, c1);
    m := c.ambient.Build();
  }

  /** Providers of two distinct ambients compose; both values are visible. */
  method DistinctAmbientsCompose(a: Value, b: Value, config: StateConfig)
    returns (first: Ambient, second: Ambient, m: ImmutableMap<AmbientRef, AmbientValueRef>)
    requires config.Valid()
    ensures m.Get(first.ref) == Some(AmbientValueRef(a))
    ensures m.Get(second.ref) == Some(AmbientValueRef(b))
  {
    var provideFirst, provideSecond;
    first, provideFirst := NewAmbient("first");
    second, provideSecond := NewAmbient("second");
    var c1 := Provide(provideFirst, a, config);
    var c2 := Provide(provideSecond, b, c1);
    m := c2.ambient.Build();
  }
}

=== FILE: ambient_manager.dfy ===
/**
 * src/ambientManager.ts: the per-chain store of built ambient maps. A
 * state that provides ambients (or that continues another state's chain)
 * has its builder re-parented onto the previous state's builder, built,
 * and the result stored under its chain id.
 *
 * The store reads and reassigns the ambient builder of the state; in the
 * model that builder is the state's `ambient` field (the source reaches it
 * as `state.config.ambient`).
 */
module AmbientManagers {
  import opened Values
  import opened ImmutableMaps
  import opened StateConfigs
  import Runtime

  type AmbientMap = ImmutableMap<AmbientRef, AmbientValueRef>

  /** Whether `storeWrappedAmbient(state, previousState)` returns early: the
      state provides nothing and continues its own chain (or starts one). */
  predicate SkipsStore(stateIsEmpty: bool, previousChainId: Option<string>, chainId: string)
  {
    stateIsEmpty && (previousChainId.None? || previousChainId.value == chainId)
  }

  /** The message of the first `getAmbient` error. */
  function NoAmbientMessage(chainId: string): string
  {
    "Cannot get ambient for state " + chainId
  }

  /** The message of the second `getAmbient` error. */
  function NotProvidedMessage(name: string): string
  {
    "Ambient " + name + " is not provided"
  }

  class AmbientManager {
    var stateIdToAmbientMap: map<string, AmbientMap>

    /** `AmbientManager.create()`. */
    constructor ()
      ensures stateIdToAmbientMap == map[]
    {
      stateIdToAmbientMap := map[];
    }

    /** `storeWrappedAmbient(state, previousState?)`. The builders' memos
        must be sound, as `build()` relies on them. */
    method StoreWrappedAmbient(state: Runtime.State, previousState: Runtime.State?)
      requires state.ambient.Valid() && state.ambient.MemoValid()
      requires previousState != null ==> previousState.ambient.Valid() && previousState.ambient.MemoValid()
      modifies this`stateIdToAmbientMap, state`ambient, state.ambient`built
      modifies if previousState != null then {previousState.ambient} else {}
      ensures SkipsStore(old(state.ambient.IsEmpty()),
                         if previousState != null then Some(previousState.chainId) else None, state.chainId) ==>
                stateIdToAmbientMap == old(stateIdToAmbientMap) && state.ambient == old(state.ambient)
      ensures state.ambient.Valid() && state.ambient.MemoValid()
      ensures !SkipsStore(old(state.ambient.IsEmpty()),
                          if previousState != null then Some(previousState.chainId) else None, state.chainId) ==>
                && state.ambient.Valid() && state.ambient.MemoValid()
                && state.chainId in stateIdToAmbientMap
                && state.ambient.built == stateIdToAmbientMap[state.chainId]
                && stateIdToAmbientMap == old(stateIdToAmbientMap)[state.chainId := stateIdToAmbientMap[state.chainId]]
                && stateIdToAmbientMap[state.chainId].data == state.ambient.Contents()
                && state.ambient.Contents() ==
                     if previousState != null then old(previousState.ambient.Contents()) + old(state.ambient.Contents())
                     else old(state.ambient.Contents())
    {
      if state.ambient.IsEmpty() && (previousState == null || previousState.chainId == state.chainId) {
        return;
      }
      if previousState != null {
        state.ambient := state.ambient.SetParent(previousState.ambient);
        assert state.ambient == previousState.ambient || fresh(state.ambient);
      }
      var ambientMap := state.ambient.Build();
      stateIdToAmbientMap := stateIdToAmbientMap[state.chainId := ambientMap];
    }

    /** `hasAmbient(chainId, ref)`: false when nothing is stored for the
        chain. */
    predicate HasAmbient(chainId: string, ref: AmbientRef)
      reads this
    {
      chainId in stateIdToAmbientMap && stateIdToAmbientMap[chainId].Has(ref)
    }

    /** `getAmbient(chainId, ref)`: the stored `.value`, or one of the two
        errors. */
    function GetAmbient(chainId: string, ref: AmbientRef): (r: Result<Value>)
      reads this
      ensures chainId !in stateIdToAmbientMap ==> r == Err(PlainError(NoAmbientMessage(chainId)))
      ensures chainId in stateIdToAmbientMap && !HasAmbient(chainId, ref) ==>
                r == Err(PlainError(NotProvidedMessage(ref.name)))
      ensures r.Ok? <==> HasAmbient(chainId, ref)
      ensures r.Ok? ==> r.value == stateIdToAmbientMap[chainId].data[ref].value
    {
      if chainId !in stateIdToAmbientMap then
        Err(PlainError(NoAmbientMessage(chainId)))
      else if !stateIdToAmbientMap[chainId].Has(ref) then
        Err(PlainError(NotProvidedMessage(ref.name)))
      else
        Ok(stateIdToAmbientMap[chainId].data[ref].value)
    }

    /** `clearAmbientForChainId(chainId)`. */
    method ClearAmbientForChainId(chainId: string)
      modifies this`stateIdToAmbientMap
      ensures stateIdToAmbientMap == old(stateIdToAmbientMap) - {chainId}
      ensures forall ref :: !HasAmbient(chainId, ref)
      ensures forall ref :: GetAmbient(chainId, ref) == Err(PlainError(NoAmbientMessage(chainId)))
    {
      stateIdToAmbientMap := stateIdToAmbientMap - {chainId};
    }
  }

  /** After a store that did not return early, the chain sees exactly the
      ambients of the stored map: `hasAmbient` holds for the refs of the
      combined builders, and `getAmbient` yields their values, the state's
      own entries winning over the previous state's. */
  lemma StoredAmbientsVisible(m: AmbientManager, chainId: string, own: map<AmbientRef, AmbientValueRef>,
                              inherited: map<AmbientRef, AmbientValueRef>, ref: AmbientRef)
    requires chainId in m.stateIdToAmbientMap && m.stateIdToAmbientMap[chainId].data == inherited + own
    ensures m.HasAmbient(chainId, ref) <==> ref in own || ref in inherited
    ensures ref in own ==> m.GetAmbient(chainId, ref) == Ok(own[ref].value)
    ensures ref !in own && ref in inherited ==> m.GetAmbient(chainId, ref) == Ok(inherited[ref].value)
    ensures ref !in own && ref !in inherited ==> m.GetAmbient(chainId, ref) == Err(PlainError(NotProvidedMessage(ref.name)))
  {
  }
}

=== FILE: chain_ids.dfy ===
/**
 * The chain ids the three scheduler generations hand out: `"state-" + n`,
 * with `n` printed in decimal. Distinct counters give distinct ids, which
 * is what lets `genChainId` skip the ids already in use and stop.
 */
module ChainIds {

  function Digit(d: nat): char
    requires d < 10
  {
    (d + '0' as int) as char
  }

  function DigitValue(c: char): nat
  {
    if '0' <= c <= '9' then c as int - '0' as int else 0
  }

  /** JavaScript's decimal rendering of a non-negative integer. */
  function NatToString(n: nat): (s: string)
    ensures |s| >= 1
    decreases n
  {
    if n < 10 then [Digit(n)] else NatToString(n / 10) + [Digit(n % 10)]
  }

  /** Reads a string of decimal digits back as a number. */
  function ParseDecimal(s: string): nat
    decreases |s|
  {
    if s == [] then 0 else ParseDecimal(s[..|s| - 1]) * 10 + DigitValue(s[|s| - 1])
  }

  lemma {:induction false} ParseNatToString(n: nat)
    ensures ParseDecimal(NatToString(n)) == n
    decreases n
  {
    var s := NatToString(n);
    if n >= 10 {
      ParseNatToString(n / 10);
      assert s[..|s| - 1] == NatToString(n / 10);
    }
  }

  /** The chain id built from counter value `n`. */
  function Key(n: nat): string
  {
    "state-" + NatToString(n)
  }

  /** The counter value a chain id was built from. */
  function KeyNumber(k: string): nat
  {
    if |k| >= 6 then ParseDecimal(k[6..]) else 0
  }

  /** `KeyNumber` reads back the counter value of every chain id. */
  lemma KeyNumberOfKey(n: nat)
    ensures KeyNumber(Key(n)) == n
  {
    assert Key(n)[6..] == NatToString(n);
    ParseNatToString(n);
  }

  /** Different counter values never produce the same chain id. */
  lemma KeyInjective(m: nat, n: nat)
    ensures Key(m) == Key(n) ==> m == n
  {
    KeyNumberOfKey(m);
    KeyNumberOfKey(n);
  }

  /** `id` is a chain id a generator has handed out by the time the
      counter reached `n`. */
  ghost predicate Issued(id: string, n: nat)
  {
    exists k :: 1 <= k <= n && id == Key(k)
  }

  /** A chain id handed out is never the one the next call produces. */
  lemma NextKeyFresh(id: string, n: nat)
    requires Issued(id, n)
    ensures id != Key(n + 1) && Issued(id, n + 1)
  {
    var k :| 1 <= k <= n && id == Key(k);
    KeyInjective(k, n + 1);
  }
}

=== FILE: event.dfy ===
/**
 * src/event.ts: an event is a name, a shared identity (`ref`) and a
 * pipeline of filters and maps. `filter` and `map` return a new event
 * with one more step and the same identity; `process` runs the pipeline
 * on a payload.
 */
module Events {
  import opened Values

  /** The identity object `{ name }` shared by an event, its derived
      events and its emitter. Compared by reference. */
  class EventRef {
    const name: string

    constructor (name: string)
      ensures this.name == name
    {
      this.name := name;
    }
  }

  /** One pipeline step: `{type: "filter", predicate}` or
      `{type: "map", transform}`. */
  datatype Processor =
    | FilterStep(test: Callback)
    | MapStep(transform: Callback)

  /** The value the map steps of `ps` compute from `data`, in order;
      filters do not change the value. */
  function Apply(cbs: Callbacks, ps: seq<Processor>, data: Value): Value
    decreases |ps|
  {
    if ps == [] then data
    else
      var before := Apply(cbs, ps[..|ps| - 1], data);
      match ps[|ps| - 1]
      case FilterStep(_) => before
      case MapStep(t) => cbs.Transform(t, before)
  }

  /** Step `i` of `ps` lets the payload through: it is a map, or a filter
      whose predicate holds on the value the earlier steps computed. */
  predicate PassesAt(cbs: Callbacks, ps: seq<Processor>, data: Value, i: nat)
    requires i < |ps|
  {
    ps[i].FilterStep? ==> cbs.Test(ps[i].test, Apply(cbs, ps[..i], data))
  }

  /** The result of processing `data` through `ps`: a pipeline is its
      prefix followed by its last step, which sees the prefix's value
      unless the prefix already rejected the payload. */
  function ProcessSpec(cbs: Callbacks, ps: seq<Processor>, data: Value): (bool, Value)
    decreases |ps|
  {
    if ps == [] then (true, data)
    else
      var (ok, current) := ProcessSpec(cbs, ps[..|ps| - 1], data);
      if !ok then (false, Undefined)
      else match ps[|ps| - 1]
        case FilterStep(p) => if cbs.Test(p, current) then (true, current) else (false, Undefined)
        case MapStep(t) => (true, cbs.Transform(t, current))
  }

  /** A pipeline accepts exactly when every step passes, and then yields
      the composition of its maps; a rejection yields `undefined`. */
  lemma {:induction false} ProcessSpecMeaning(cbs: Callbacks, ps: seq<Processor>, data: Value)
    ensures ProcessSpec(cbs, ps, data).0 <==> forall i :: 0 <= i < |ps| ==> PassesAt(cbs, ps, data, i)
    ensures ProcessSpec(cbs, ps, data).0 ==> ProcessSpec(cbs, ps, data).1 == Apply(cbs, ps, data)
    ensures !ProcessSpec(cbs, ps, data).0 ==> ProcessSpec(cbs, ps, data).1 == Undefined
    decreases |ps|
  {
    if ps != [] {
      var front := ps[..|ps| - 1];
      ProcessSpecMeaning(cbs, front, data);
      assert forall i :: 0 <= i < |front| ==> ps[..i] == front[..i];
      assert forall i :: 0 <= i < |front| ==> (PassesAt(cbs, ps, data, i) <==> PassesAt(cbs, front, data, i));
      var last := |ps| - 1;
      assert ps[..last] == front;
      assert (forall i :: 0 <= i < |ps| ==> PassesAt(cbs, ps, data, i)) <==>
             (forall i :: 0 <= i < |front| ==> PassesAt(cbs, front, data, i)) && PassesAt(cbs, ps, data, last);
    }
  }

  /** With no steps, the payload is accepted unchanged. */
  lemma ProcessEmpty(cbs: Callbacks, data: Value)
    ensures ProcessSpec(cbs, [], data) == (true, data)
  {
  }

  /** The first filter whose predicate fails rejects the payload with
      `undefined`, whatever follows it. */
  lemma FirstFailingFilter(cbs: Callbacks, ps: seq<Processor>, data: Value, i: nat)
    requires i < |ps| && ps[i].FilterStep?
    requires !cbs.Test(ps[i].test, Apply(cbs, ps[..i], data))
    ensures ProcessSpec(cbs, ps, data) == (false, Undefined)
  {
    ProcessSpecMeaning(cbs, ps, data);
    assert !PassesAt(cbs, ps, data, i);
  }

  /** When every filter passes, the result is the composition of the maps. */
  lemma AllFiltersPass(cbs: Callbacks, ps: seq<Processor>, data: Value)
    requires forall i :: 0 <= i < |ps| ==> PassesAt(cbs, ps, data, i)
    ensures ProcessSpec(cbs, ps, data) == (true, Apply(cbs, ps, data))
  {
    ProcessSpecMeaning(cbs, ps, data);
  }

  /** A rejection is final: extending a rejecting pipeline still rejects. */
  lemma {:induction false} RejectionIsFinal(cbs: Callbacks, ps: seq<Processor>, data: Value, j: nat)
    requires j <= |ps|
    requires !ProcessSpec(cbs, ps[..j], data).0
    ensures ProcessSpec(cbs, ps, data) == (false, Undefined)
    decreases |ps| - j
  {
    if j < |ps| {
      assert ps[..j + 1][..j] == ps[..j];
      RejectionIsFinal(cbs, ps, data, j + 1);
    } else {
      assert ps[..j] == ps;
    }
  }

  class EventImpl {
    const name: string
    const ref: EventRef
    const processors: seq<Processor>

    /** `new EventImpl(eventName, processors, ref)`. */
    constructor (eventName: string, processors: seq<Processor>, ref: EventRef)
      ensures name == eventName && this.processors == processors && this.ref == ref
    {
      name := eventName;
      this.processors := processors;
      this.ref := ref;
    }

    /** `new EventImpl(eventName)`: the defaults, an empty pipeline and a
        fresh `{ name: eventName }` identity. */
    constructor Named(eventName: string)
      ensures name == eventName && processors == []
      ensures fresh(ref) && ref.name == eventName
    {
      name := eventName;
      processors := [];
      ref := new EventRef(eventName);
    }

    /** `filter(predicate)`: a new event with the same name and identity and
        one more filter step; the receiver's pipeline is untouched. */
    method Filter(test: Callback) returns (e: EventImpl)
      ensures fresh(e) && e.name == name && e.ref == ref
      ensures e.processors == processors + [FilterStep(test)]
    {
      e := new EventImpl(name, processors + [FilterStep(test)], ref);
    }

    /** `map(transform)`: a new event with the same name and identity and
        one more map step; the receiver's pipeline is untouched. */
    method Map(transform: Callback) returns (e: EventImpl)
      ensures fresh(e) && e.name == name && e.ref == ref
      ensures e.processors == processors + [MapStep(transform)]
    {
      e := new EventImpl(name, processors + [MapStep(transform)], ref);
    }

    /** `process(eventData)`: runs the steps in order, stopping at the first
        filter that rejects the current value. */
    method Process(cbs: Callbacks, eventData: Value) returns (accepted: bool, result: Value)
      ensures (accepted, result) == ProcessSpec(cbs, processors, eventData)
    {
      var current := eventData;
      var i := 0;
      while i < |processors|
        invariant 0 <= i <= |processors|
        invariant ProcessSpec(cbs, processors[..i], eventData) == (true, current)
      {
        var step := processors[i];
        assert processors[..i + 1][..i] == processors[..i];
        if step.FilterStep? && !cbs.Test(step.test, current) {
          RejectionIsFinal(cbs, processors, eventData, i + 1);
          return false, Undefined;
        }
        if step.MapStep? {
          current := cbs.Transform(step.transform, current);
        }
        i := i + 1;
      }
      assert processors[..i] == processors;
      return true, current;
    }
  }

  /** `{ ref }`: what `send` is called with. */
  datatype Emitter = Emitter(ref: EventRef)

  /** `newEvent(eventName)`: an event with an empty pipeline and an emitter
      sharing its fresh identity. */
  method NewEvent(eventName: string) returns (event: EventImpl, emitter: Emitter)
    ensures fresh(event) && fresh(event.ref)
    ensures event.name == eventName && event.ref.name == eventName && event.processors == []
    ensures emitter.ref == event.ref
  {
    event := new EventImpl.Named(eventName);
    emitter := Emitter(event.ref);
  }

  /** Deriving events never changes which emitter reaches them: for any
      event, the event derived by `filter(p).map(t)` shares its `ref`, and
      its pipeline processes a payload as the original pipeline followed
      by the filter and then the map. */
  method DerivedEventsShareIdentity(cbs: Callbacks, event: EventImpl, p: Callback, t: Callback, data: Value)
    returns (derived: EventImpl)
    ensures derived.ref == event.ref && derived.name == event.name
    ensures derived.processors == event.processors + [FilterStep(p), MapStep(t)]
    ensures ProcessSpec(cbs, derived.processors, data) ==
            var (ok, current) := ProcessSpec(cbs, event.processors, data);
            if ok && cbs.Test(p, current) then (true, cbs.Transform(t, current)) else (false, Undefined)
  {
    var filtered := event.Filter(p);
    derived := filtered.Map(t);
    assert derived.processors[..|derived.processors| - 1] == filtered.processors;
    assert filtered.processors[..|filtered.processors| - 1] == event.processors;
  }
}

=== FILE: hook_slots.dfy ===
/**
 * The steps every hook of src/use*.ts begins with: look up the processing
 * state, advance its hook index with `incrementHookId()`, create the slot
 * with `setHook` on the first call (`isHookAdded()` false) and read it back
 * with `getHook(type)`.
 */
module HookSlots {
  import opened Values
  import opened Runtime

  /** The objects a hook call may change: the processing state, if any. */
  function ProcessingFrame(m: MachineImpl): set<State>
    reads m
  {
    if m.currentProcessingState in m.states then {m.states[m.currentProcessingState]} else {}
  }

  /** The queue once the hook index has moved to `id`: the slot at `id` is
      kept when it exists and is `initial` otherwise. */
  function Allocate(q: seq<Hook>, id: int, initial: Hook): (r: seq<Hook>)
    requires 0 <= id <= |q|
    ensures id < |r| && |q| <= |r| && r[..|q|] == q
    ensures id == |q| ==> r[id] == initial
    ensures id < |q| ==> r == q
  {
    if id < |q| then q else q + [initial]
  }

  /** What `getHook(type)` yields in the allocated queue: the slot at `id`
      when it has the type of `initial`, the mismatch error otherwise. */
  function Slot(q: seq<Hook>, id: int, initial: Hook): Result<Hook>
    requires 0 <= id <= |q|
  {
    var r := Allocate(q, id, initial);
    if r[id].Type() == initial.Type() then Ok(r[id]) else Err(PlainError(MismatchedHookMessage))
  }

  /** On a hook's first call the slot it reads is the one it creates. */
  lemma FirstCallReadsInitial(q: seq<Hook>, initial: Hook)
    ensures Slot(q, |q|, initial) == Ok(initial)
    ensures Allocate(q, |q|, initial) == q + [initial]
  {
  }

  /** On a later call the queue is left as it is, and the hook reads the
      existing slot or fails when that slot has another type. */
  lemma LaterCallReadsExisting(q: seq<Hook>, id: int, initial: Hook)
    requires 0 <= id < |q|
    ensures Allocate(q, id, initial) == q
    ensures Slot(q, id, initial).Ok? <==> q[id].Type() == initial.Type()
    ensures Slot(q, id, initial).Ok? ==> Slot(q, id, initial).value == q[id]
    ensures Slot(q, id, initial).Err? ==> Slot(q, id, initial).error == PlainError(MismatchedHookMessage)
  {
  }

  /** `incrementHookId()`, `setHook(initial)` unless `isHookAdded()`, then
      `getHook(initial's type)`. */
  method EnterHook(p: State, initial: Hook) returns (slot: Result<Hook>)
    requires p.Valid()
    modifies p`currentId, p`queue
    ensures p.Valid()
    ensures p.currentId == old(p.currentId) + 1
    ensures p.queue == Allocate(old(p.queue), p.currentId, initial)
    ensures slot == Slot(old(p.queue), p.currentId, initial)
  {
    p.IncrementHookId();
    if !p.IsHookAdded() {
      p.SetHook(initial);
    }
    slot := p.GetHook(initial.Type());
  }
}

=== FILE: immutable_map.dfy ===
/**
 * src/immutableMap.ts: the persistent overlay map behind ambients. A
 * builder is an immutable node holding at most one entry, a link to the
 * builder it was `set` on (`previous`) and a link to a parent chain
 * (`parent`). `build()` flattens the chain into a map in which newer
 * entries override older ones and the node's own chain overrides its
 * parent's, and memoizes the result in the node.
 */
module ImmutableMaps {
  import opened Values

  /** `new Map(entries)`: pairs are inserted in order, so a later pair
      overwrites an earlier pair with the same key. */
  ghost function ToMap<K, V>(entries: seq<(K, V)>): map<K, V>
    decreases |entries|
  {
    if entries == [] then map[]
    else
      var last := entries[|entries| - 1];
      ToMap(entries[..|entries| - 1])[last.0 := last.1]
  }

  function Reverse<T>(s: seq<T>): (r: seq<T>)
    ensures |r| == |s|
  {
    if s == [] then [] else Reverse(s[1..]) + [s[0]]
  }

  /** `Reverse` puts the element at `i` at the mirrored position. */
  lemma {:induction false} ReverseIndex<T>(s: seq<T>)
    ensures forall i :: 0 <= i < |s| ==> Reverse(s)[i] == s[|s| - 1 - i]
  {
    if s != [] {
      ReverseIndex(s[1..]);
    }
  }

  lemma ReverseAppend<T>(a: seq<T>, b: seq<T>)
    ensures Reverse(a + b) == Reverse(b) + Reverse(a)
  {
    ReverseIndex(a + b);
    ReverseIndex(a);
    ReverseIndex(b);
    var l, r := Reverse(a + b), Reverse(b) + Reverse(a);
    assert |l| == |r|;
    forall i | 0 <= i < |l| ensures l[i] == r[i] {
      if i < |b| {
        assert l[i] == (a + b)[|a| + |b| - 1 - i];
      } else {
        assert l[i] == (a + b)[|a| + |b| - 1 - i];
      }
    }
  }

  /** Flattening a concatenation is the union of the flattenings, the
      right-hand part winning on shared keys. */
  lemma {:induction false} ToMapAppend<K, V>(a: seq<(K, V)>, b: seq<(K, V)>)
    ensures ToMap(a + b) == ToMap(a) + ToMap(b)
    decreases |b|
  {
    if b == [] {
      assert a + b == a;
    } else {
      var last := b[|b| - 1];
      var front := b[..|b| - 1];
      assert (a + b)[..|a + b| - 1] == a + front;
      ToMapAppend(a, front);
      assert ToMap(a + b) == (ToMap(a) + ToMap(front))[last.0 := last.1];
    }
  }

  lemma ToMapReverseAppend<K, V>(a: seq<(K, V)>, b: seq<(K, V)>)
    ensures ToMap(Reverse(a + b)) == ToMap(Reverse(b)) + ToMap(Reverse(a))
  {
    ReverseAppend(a, b);
    ToMapAppend(Reverse(b), Reverse(a));
  }

  /** Flattening the reverse of `own + (prev + par)`: `par`'s pairs are
      overridden by `prev`'s, which are overridden by `own`'s. */
  lemma ToMapOfReversedParts<K, V>(own: seq<(K, V)>, prev: seq<(K, V)>, par: seq<(K, V)>)
    ensures ToMap(Reverse(own + (prev + par))) == (ToMap(Reverse(par)) + ToMap(Reverse(prev))) + ToMap(Reverse(own))
  {
    ReverseAppend(own, prev + par);
    ReverseAppend(prev, par);
    ToMapAppend(Reverse(prev + par), Reverse(own));
    ToMapAppend(Reverse(par), Reverse(prev));
  }

  lemma MapPlusSingle<K, V>(a: map<K, V>, k: K, v: V)
    ensures a + map[k := v] == a[k := v]
  {
  }

  lemma MapPlusEmpty<K, V>(a: map<K, V>)
    ensures a + map[] == a
  {
  }

  /** The flattening of one builder node, on plain sequences: `par` is the
      parent chain's reversed entries and flattens to `pc`, `prev` the
      previous chain's and flattens to `vc`, `own` the node's own entry. */
  lemma ChainMap<K, V>(own: seq<(K, V)>, prev: seq<(K, V)>, par: seq<(K, V)>, pc: map<K, V>, vc: map<K, V>)
    requires |own| <= 1
    requires ToMap(Reverse(par)) == pc && ToMap(Reverse(prev)) == vc
    ensures ToMap(Reverse(own + (prev + par))) ==
              if own == [] then pc + vc else (pc + vc)[own[0].0 := own[0].1]
  {
    ToMapOfReversedParts(own, prev, par);
    if own == [] {
      MapPlusEmpty(pc + vc);
    } else {
      assert own == [own[0]];
      ToMapSingle(own[0]);
      MapPlusSingle(pc + vc, own[0].0, own[0].1);
    }
  }

  /** A single pair flattens to the one-entry map. */
  lemma ToMapSingle<K, V>(x: (K, V))
    ensures ToMap(Reverse([x])) == map[x.0 := x.1]
  {
    assert [x][1..] == [];
    assert Reverse([x]) == [x];
    assert [x][..0] == [];
  }

  /** A key is in the flattened map exactly when some pair carries it. */
  lemma {:induction false} ToMapHas<K, V>(entries: seq<(K, V)>, key: K)
    ensures key in ToMap(entries) <==> exists i :: 0 <= i < |entries| && entries[i].0 == key
    decreases |entries|
  {
    if entries != [] {
      var front := entries[..|entries| - 1];
      ToMapHas(front, key);
      if key in ToMap(front) {
        var i :| 0 <= i < |front| && front[i].0 == key;
        assert entries[i].0 == key;
      }
      if exists i :: 0 <= i < |entries| && entries[i].0 == key {
        var i :| 0 <= i < |entries| && entries[i].0 == key;
        if i < |front| {
          assert front[i].0 == key;
        }
      }
    }
  }

  /** The flattened map holds the value of the last pair carrying the key. */
  lemma {:induction false} ToMapLast<K, V>(entries: seq<(K, V)>, i: nat)
    requires i < |entries|
    requires forall j :: i < j < |entries| ==> entries[j].0 != entries[i].0
    ensures entries[i].0 in ToMap(entries) && ToMap(entries)[entries[i].0] == entries[i].1
    decreases |entries|
  {
    var front := entries[..|entries| - 1];
    if i < |entries| - 1 {
      assert front[i] == entries[i];
      ToMapLast(front, i);
    }
  }

  class ImmutableMapBuilder<K(==), V> {
    const entry: Option<(K, V)>
    const previous: ImmutableMapBuilder?<K, V>
    const parent: ImmutableMapBuilder?<K, V>
    /** Bounds the depth of the chain below this node. */
    ghost const height: nat
    /** The memo written by `build()`. */
    var built: ImmutableMap?<K, V>

    /** The chain below this node is finite and acyclic. */
    ghost predicate Valid()
      decreases height
    {
      && (previous != null ==> previous.height < height && previous.Valid())
      && (parent != null ==> parent.height < height && parent.Valid())
    }

    /** A memo, once written, holds the flattening of this chain. */
    ghost predicate MemoValid()
      requires Valid()
      reads this
    {
      built != null ==> built.data == Contents()
    }

    constructor (entry: Option<(K, V)>, previous: ImmutableMapBuilder?<K, V>, parent: ImmutableMapBuilder?<K, V>)
      requires previous != null ==> previous.Valid()
      requires parent != null ==> parent.Valid()
      ensures this.entry == entry && this.previous == previous && this.parent == parent
      ensures Valid() && built == null
    {
      this.entry := entry;
      this.previous := previous;
      this.parent := parent;
      this.height := 1 + (if previous != null then previous.height else 0)
                       + (if parent != null then parent.height else 0);
      this.built := null;
    }

    predicate IsEmpty()
    {
      entry.None? && previous == null && parent == null
    }

    /** `getEntriesReverse()`: the own entry, then the `previous` chain,
        then the `parent` chain. */
    function EntriesReverse(): seq<(K, V)>
      requires Valid()
      decreases height, 1
    {
      OwnEntry() + (PreviousEntriesReverse() + ParentEntriesReverse())
    }

    function OwnEntry(): seq<(K, V)>
    {
      if entry.Some? then [entry.value] else []
    }

    function PreviousEntriesReverse(): seq<(K, V)>
      requires Valid()
      decreases height, 0
    {
      if previous != null then previous.EntriesReverse() else []
    }

    function ParentEntriesReverse(): seq<(K, V)>
      requires Valid()
      decreases height, 0
    {
      if parent != null then parent.EntriesReverse() else []
    }

    /** `getEntries()`: exactly the reverse of `getEntriesReverse()`, so the
        oldest parent entries come first and this node's entry last. */
    function GetEntries(): seq<(K, V)>
      requires Valid()
    {
      Reverse(EntriesReverse())
    }

    /** The map `build()` produces. */
    ghost function Contents(): map<K, V>
      requires Valid()
    {
      ToMap(GetEntries())
    }

    /** The flattened map of a node is its parent chain's map, overridden
        by its previous chain's map, overridden by its own entry. */
    lemma ContentsUnfold()
      requires Valid()
      ensures Contents() ==
        var below := (if parent != null then parent.Contents() else map[])
                     + (if previous != null then previous.Contents() else map[]);
        if entry.Some? then below[entry.value.0 := entry.value.1] else below
    {
      var pc := if parent != null then parent.Contents() else map[];
      var vc := if previous != null then previous.Contents() else map[];
      assert ToMap(Reverse(ParentEntriesReverse())) == pc;
      assert ToMap(Reverse(PreviousEntriesReverse())) == vc;
      ChainMap(OwnEntry(), PreviousEntriesReverse(), ParentEntriesReverse(), pc, vc);
    }

    /** `set(key, value)`: a new node on top of this one; the receiver is
        not modified (the method has no `modifies` clause). */
    method Set(key: K, value: V) returns (b: ImmutableMapBuilder<K, V>)
      requires Valid()
      ensures fresh(b) && b.Valid() && b.built == null
      ensures b.entry == Some((key, value)) && b.parent == null
      ensures b.previous == (if IsEmpty() then null else this)
      ensures b.Contents() == Contents()[key := value]
    {
      if IsEmpty() {
        b := new ImmutableMapBuilder(Some((key, value)), null, null);
        ContentsUnfold();
        assert Contents() == map[];
      } else {
        b := new ImmutableMapBuilder(Some((key, value)), this, null);
      }
      b.ContentsUnfold();
    }

    /** `setParent(parent)`: relinks this chain onto `p`; keys of this chain
        override the same keys of `p`, and keys only in `p` stay visible. An
        empty builder returns `p` itself. */
    method SetParent(p: ImmutableMapBuilder<K, V>) returns (b: ImmutableMapBuilder<K, V>)
      requires Valid() && p.Valid()
      ensures b.Valid()
      ensures IsEmpty() ==> b == p
      ensures !IsEmpty() ==> fresh(b) && b.built == null && b.entry.None? && b.previous == this && b.parent == p
      ensures b.Contents() == p.Contents() + Contents()
    {
      ContentsUnfold();
      if IsEmpty() {
        assert Contents() == map[];
        assert p.Contents() + Contents() == p.Contents();
        return p;
      }
      b := new ImmutableMapBuilder(None, this, p);
      b.ContentsUnfold();
    }

    /** `build()`: flattens the chain once, then hands back the memo. */
    method Build() returns (m: ImmutableMap<K, V>)
      requires Valid() && MemoValid()
      modifies this`built
      ensures MemoValid() && built == m
      ensures old(built) != null ==> m == old(built)
      ensures old(built) == null ==> fresh(m)
      ensures m.data == Contents()
    {
      if built != null {
        return built;
      }
      var entries := GetEntries();
      var data: map<K, V> := map[];
      var i := 0;
      while i < |entries|
        invariant 0 <= i <= |entries|
        invariant data == ToMap(entries[..i])
      {
        assert entries[..i + 1][..i] == entries[..i];
        data := data[entries[i].0 := entries[i].1];
        i := i + 1;
      }
      assert entries[..i] == entries;
      m := new ImmutableMap(data);
      built := m;
    }
  }

  class ImmutableMap<K(==), V> {
    /** The private `map` field; written only while constructing. */
    const data: map<K, V>

    /** `new ImmutableMap(data)`: `copyFromData` merges `data` into the
        empty map the field starts with. */
    constructor (data: map<K, V>)
      ensures this.data == data
    {
      this.data := map[] + data;
    }

    /** `ImmutableMap.builder()`: an empty builder, whose map is empty. */
    static method Builder() returns (b: ImmutableMapBuilder<K, V>)
      ensures b.Valid() && b.IsEmpty() && b.built == null
      ensures b.Contents() == map[]
    {
      b := new ImmutableMapBuilder(None, null, null);
      b.ContentsUnfold();
    }

    function Get(key: K): (r: Option<V>)
      ensures r.Some? <==> key in data
      ensures r.Some? ==> r.value == data[key]
    {
      if key in data then Some(data[key]) else None
    }

    predicate Has(key: K)
    {
      key in data
    }
  }

  /** On a built map, `has(k)` holds exactly when some entry of the chain
      carries `k`, and `get(k)` is the value of the last such entry in
      `getEntries()` order. */
  lemma BuiltLookup<K, V>(b: ImmutableMapBuilder<K, V>, m: ImmutableMap<K, V>, key: K)
    requires b.Valid() && m.data == b.Contents()
    ensures var es := b.GetEntries();
            && (m.Has(key) <==> exists i :: 0 <= i < |es| && es[i].0 == key)
            && forall i :: 0 <= i < |es| && es[i].0 == key && (forall j :: i < j < |es| ==> es[j].0 != key)
                 ==> m.Get(key) == Some(es[i].1)
  {
    ToMapLookup(b.GetEntries(), key);
  }

  /** `ToMap` lookups on a plain entry sequence. */
  lemma ToMapLookup<K, V>(es: seq<(K, V)>, key: K)
    ensures key in ToMap(es) <==> exists i :: 0 <= i < |es| && es[i].0 == key
    ensures forall i :: 0 <= i < |es| && es[i].0 == key && (forall j :: i < j < |es| ==> es[j].0 != key)
              ==> key in ToMap(es) && ToMap(es)[key] == es[i].1
  {
    ToMapHas(es, key);
    forall i | 0 <= i < |es| && es[i].0 == key && (forall j :: i < j < |es| ==> es[j].0 != key)
      ensures key in ToMap(es) && ToMap(es)[key] == es[i].1
    {
      ToMapLast(es, i);
    }
  }

  /** On any builder `b`, `b.set(k, v1).set(k, v2).build()` maps `k` to
      `v2`, and every other key as `b` does: the last set wins. */
  method LastSetWins<K, V>(b: ImmutableMapBuilder<K, V>, key: K, v1: V, v2: V) returns (m: ImmutableMap<K, V>)
    requires b.Valid()
    ensures m.Get(key) == Some(v2)
    ensures forall k :: k != key ==> m.Get(k) == (if k in b.Contents() then Some(b.Contents()[k]) else None)
  {
    var a := b.Set(key, v1);
    var c := a.Set(key, v2);
    m := c.Build();
  }

  /** Calling `set` on a builder does not change it: after
      `a := b.set(k, v1)` and `a.set(k, v2)`, building `a` still gives
      `b`'s map with `k` bound to `v1`. */
  method BuilderIsImmutable<K, V>(b: ImmutableMapBuilder<K, V>, key: K, v1: V, v2: V) returns (m: ImmutableMap<K, V>)
    requires b.Valid()
    ensures m.Get(key) == Some(v1)
    ensures m.data == b.Contents()[key := v1]
  {
    var a := b.Set(key, v1);
    var ignored := a.Set(key, v2);
    m := a.Build();
  }

  /** `b.setParent(p).build()` for any builders `b` and `p`: a key of `b`
      has `b`'s value, a key only in `p` has `p`'s, and no other key is
      present. */
  method SetParentOverrides<K, V>(b: ImmutableMapBuilder<K, V>, p: ImmutableMapBuilder<K, V>) returns (m: ImmutableMap<K, V>)
    requires b.Valid() && p.Valid() && p.MemoValid()
    modifies p`built
    ensures forall k :: m.Get(k) ==
              if k in b.Contents() then Some(b.Contents()[k])
              else if k in p.Contents() then Some(p.Contents()[k])
              else None
  {
    var joined := b.SetParent(p);
    m := joined.Build();
  }
}

=== FILE: monolith.dfy ===
/**
 * The second generation, state.ts: one self-contained file with its own
 * machine, process record and hooks. States are identified by chain ids
 * handed on to successors; a state may be nested under a parent, and
 * events are matched by name. The slot vocabulary (`Runtime.Hook`) and
 * the effect and cleanup loops are shared with the current runtime.
 */
module Monolith {
  import opened Values
  import opened Utils
  import opened ChainIds
  import Runtime
  import HookSlots

  type Hook = Runtime.Hook

  /** The state function of a config: `END_STATE_FUNC`, the one `endState`
      uses, or a user function. */
  datatype Func = EndStateFunc | UserFunc(f: StateFunc)

  datatype StateConfig = StateConfig(stateFunc: Func, props: Value)

  /** `newState(nextState, props)`. */
  function NewState(nextState: StateFunc, props: Value): StateConfig
  {
    StateConfig(UserFunc(nextState), props)
  }

  /** `endState(props)`. */
  function EndState(props: Value): StateConfig
  {
    StateConfig(EndStateFunc, props)
  }

  /** Only `endState` builds a config that ends a chain. */
  lemma OnlyEndStateEnds(f: StateFunc, props: Value)
    ensures EndState(props).stateFunc == EndStateFunc && EndState(props).props == props
    ensures NewState(f, props).stateFunc != EndStateFunc && NewState(f, props).props == props
  {
  }

  /** The parent links of `s` reach the top in finitely many steps: every
      parent is strictly shallower. */
  ghost predicate ChainLinked(s: State)
    decreases s.depth
  {
    s.parentState != null ==> s.parentState.depth < s.depth && ChainLinked(s.parentState)
  }

  /** Some state on the parent chain of `s` has chain id `id` (the chain
      is followed while it gets shallower, which `ChainLinked` makes all
      of it). */
  ghost predicate DescendsFrom(s: State, id: string)
    decreases s.depth
  {
    && s.parentState != null && s.parentState.depth < s.depth
    && (s.parentState.chainId == id || DescendsFrom(s.parentState, id))
  }

  /** Whether an event sent to `target` reaches `s`: every state when
      there is no target, else the state of that chain and its nested
      descendants. */
  ghost predicate Reaches(s: State, target: Option<string>)
  {
    target.None? || s.chainId == target.value || DescendsFrom(s, target.value)
  }

  /** What sending event `name` with `data` does to a state with queue
      `q0` and dirty flag `d0`: nothing unless the event reaches it; else
      every listening slot records the data and the state turns dirty iff
      one listened. */
  function Delivery(reached: bool, q0: seq<Hook>, d0: bool, name: string, data: Value): (r: (seq<Hook>, bool))
    ensures !reached ==> r == (q0, d0)
    ensures reached ==> r.0 == TriggerAllNamed(q0, name, data) && (r.1 <==> d0 || Listens(q0, name))
  {
    if reached then (TriggerAllNamed(q0, name, data), d0 || Listens(q0, name)) else (q0, d0)
  }

  // ---------------------------------------------------------------------
  // Events by name

  /** `maybeTriggerEvent` on one slot: a slot listening to `name` takes the
      data and the trigger flag. */
  function TriggerNamed(h: Hook, name: string, data: Value): Hook
  {
    if h.NamedEventHook? && h.eventName == name then Runtime.NamedEventHook(name, data, true) else h
  }

  function TriggerAllNamed(q: seq<Hook>, name: string, data: Value): (r: seq<Hook>)
    ensures |r| == |q|
    ensures forall i :: 0 <= i < |q| ==> r[i] == TriggerNamed(q[i], name, data)
  {
    seq(|q|, i requires 0 <= i < |q| => TriggerNamed(q[i], name, data))
  }

  predicate Listens(q: seq<Hook>, name: string)
  {
    exists i :: 0 <= i < |q| && q[i].NamedEventHook? && q[i].eventName == name
  }

  /** Triggering twice with the same data changes nothing more. */
  lemma TriggerNamedIdempotent(q: seq<Hook>, name: string, data: Value)
    ensures TriggerAllNamed(TriggerAllNamed(q, name, data), name, data) == TriggerAllNamed(q, name, data)
  {
  }

  // ---------------------------------------------------------------------
  // The process record

  class State {
    const config: StateConfig
    const chainId: string
    /** Set once, right after the state is registered; the model passes
        it to the constructor. */
    const parentState: State?
    /** The length of the parent chain, which keeps that chain finite. */
    ghost const depth: nat
    var queue: seq<Hook>
    var currentId: int
    const machine: Machine
    var dirty: bool
    var active: bool
    ghost var calls: seq<Call>
    ghost var warnings: seq<Runtime.Warning>

    ghost predicate Valid()
      reads this`currentId, this`queue
    {
      -1 <= currentId < |queue|
    }

    constructor (machine: Machine, config: StateConfig, stateKey: string, parentState: State?)
      requires parentState != null ==> ChainLinked(parentState)
      ensures this.machine == machine && this.config == config && chainId == stateKey
      ensures this.parentState == parentState && ChainLinked(this)
      ensures queue == [] && currentId == -1 && dirty && active && calls == [] && warnings == []
    {
      this.machine := machine;
      this.config := config;
      chainId := stateKey;
      this.parentState := parentState;
      depth := if parentState == null then 0 else parentState.depth + 1;
      queue := [];
      currentId := -1;
      dirty := true;
      active := true;
      calls := [];
      warnings := [];
    }

    predicate IsHookAdded()
      reads this
    {
      0 <= currentId < |queue|
    }

    method SetHook(hook: Hook)
      requires 0 <= currentId <= |queue|
      modifies this`queue
      ensures queue == if old(currentId) < old(|queue|) then old(queue)[currentId := hook] else old(queue) + [hook]
    {
      if currentId < |queue| {
        queue := queue[currentId := hook];
      } else {
        queue := queue + [hook];
      }
    }

    method IncrementHookId()
      modifies this`currentId
      ensures currentId == old(currentId) + 1
    {
      currentId := currentId + 1;
    }

    /** `getHook(hookType)`, with the same two errors as the current
        runtime. */
    function GetHook(t: Runtime.HookType): (r: Result<Hook>)
      reads this
      ensures r.Ok? <==> IsHookAdded() && queue[currentId].Type() == t
      ensures r.Ok? ==> r.value == queue[currentId]
      ensures !IsHookAdded() ==> r == Err(PlainError(Runtime.MissingHookMessage))
      ensures IsHookAdded() && queue[currentId].Type() != t ==> r == Err(PlainError(Runtime.MismatchedHookMessage))
    {
      if !IsHookAdded() then Err(PlainError(Runtime.MissingHookMessage))
      else if queue[currentId].Type() != t then Err(PlainError(Runtime.MismatchedHookMessage))
      else Ok(queue[currentId])
    }

    /** `maybeTriggerEvent(event, eventData)`: every slot listening to the
        name records the data and marks the process dirty; reports whether
        one did. */
    method MaybeTriggerEvent(name: string, data: Value) returns (triggered: bool)
      modifies this`queue, this`dirty, machine`scheduled
      ensures queue == TriggerAllNamed(old(queue), name, data)
      ensures triggered <==> Listens(old(queue), name)
      ensures dirty == (old(dirty) || triggered)
      ensures machine.scheduled == (old(machine.scheduled) || triggered)
    {
      triggered := false;
      var i := 0;
      while i < |queue|
        invariant 0 <= i <= |queue| == old(|queue|)
        invariant forall j :: 0 <= j < i ==> queue[j] == TriggerNamed(old(queue[j]), name, data)
        invariant forall j :: i <= j < |queue| ==> queue[j] == old(queue[j])
        invariant triggered <==> exists j :: 0 <= j < i && old(queue[j]).NamedEventHook? && old(queue[j]).eventName == name
        invariant dirty == (old(dirty) || triggered)
        invariant machine.scheduled == (old(machine.scheduled) || triggered)
      {
        var hook := queue[i];
        if hook.NamedEventHook? && hook.eventName == name {
          triggered := true;
          MarkDirty();
          queue := queue[i := Runtime.NamedEventHook(name, data, true)];
        }
        i := i + 1;
      }
    }

    /** The start of `run()`: the hook index and dirty flag are reset
        before the state function is called. */
    method BeginRun()
      modifies this`currentId, this`dirty
      ensures currentId == -1 && !dirty
    {
      currentId := -1;
      dirty := false;
    }

    /** The rest of `run()` once the state function returned
        `transitionConfig`: a warning if the state was marked dirty during
        the call, then every pending effect runs once, in queue order. */
    method FinishRun(cbs: Callbacks, transitionConfig: Option<StateConfig>) returns (r: Option<StateConfig>)
      modifies this`queue, this`calls, this`warnings
      ensures r == transitionConfig
      ensures warnings == old(warnings) + (if dirty then [Runtime.DirtyDuringRun] else [])
      ensures queue == Runtime.AfterEffects(cbs, old(queue))
      ensures calls == old(calls) + Runtime.EffectCalls(old(queue))
    {
      if dirty {
        warnings := warnings + [Runtime.DirtyDuringRun];
      }
      var q, made := Runtime.RunEffectsLoop(cbs, queue);
      queue := q;
      calls := calls + made;
      r := transitionConfig;
    }

    /** `run()` for a state function that returned `transitionConfig`
        without calling hooks in between. */
    method Run(cbs: Callbacks, transitionConfig: Option<StateConfig>) returns (r: Option<StateConfig>)
      modifies this`currentId, this`dirty, this`queue, this`calls, this`warnings
      ensures r == transitionConfig && currentId == -1 && !dirty && warnings == old(warnings)
      ensures queue == Runtime.AfterEffects(cbs, old(queue))
      ensures calls == old(calls) + Runtime.EffectCalls(old(queue))
    {
      BeginRun();
      r := FinishRun(cbs, transitionConfig);
    }

    /** `cleanup()`: every stored cleanup is called once and cleared. */
    method Cleanup()
      modifies this`queue, this`calls
      ensures queue == Runtime.AfterCleanups(old(queue))
      ensures calls == old(calls) + Runtime.CleanupCalls(old(queue))
    {
      var q, made := Runtime.RunCleanupLoop(queue);
      queue := q;
      calls := calls + made;
    }

    method MarkInactive()
      modifies this`active
      ensures !active
    {
      active := false;
    }

    method MarkDirty()
      modifies this`dirty, machine`scheduled
      ensures dirty && machine.scheduled
    {
      dirty := true;
      machine.Schedule();
    }

    /** `isDescendantOf(chainId)`: walks the parent links. */
    method IsDescendantOf(id: string) returns (r: bool)
      requires ChainLinked(this)
      ensures r == DescendsFrom(this, id)
    {
      var parent := parentState;
      while parent != null
        invariant parent != null ==> ChainLinked(parent)
        invariant DescendsFrom(this, id) == (parent != null && (parent.chainId == id || DescendsFrom(parent, id)))
        decreases if parent == null then 0 else parent.depth + 1
      {
        if parent.chainId == id {
          return true;
        }
        parent := parent.parentState;
      }
      return false;
    }
  }

  // ---------------------------------------------------------------------
  // The machine

  class Machine {
    var allocatedStateId: nat
    var currentProcessingState: string
    var states: map<string, State>
    /** The insertion order of `states`, which a JS `Map` iterates in. */
    var order: seq<string>
    /** Whether a pass is pending (the `scheduled` promise is set). */
    var scheduled: bool
    /** The chain ids `genChainId` has handed out. */
    ghost var issued: set<string>

    /** `order` lists the registered ids once each; every state sits under
        its own chain id, which `genChainId` handed out, belongs to this
        machine and has a finite parent chain. */
    ghost predicate Valid()
      reads this`order, this`states, this`issued
    {
      && Runtime.NoDuplicates(order)
      && (forall id :: id in states <==> id in order)
      && (forall id :: id in states ==>
            && states[id].chainId == id && id != "" && id in issued
            && states[id].machine == this && ChainLinked(states[id]))
    }

    /** Every chain id handed out was built from a counter value the
        counter has reached. */
    ghost predicate Counted()
      reads this`issued, this`allocatedStateId
    {
      forall id :: id in issued ==> Issued(id, allocatedStateId)
    }

    constructor ()
      ensures allocatedStateId == 0 && currentProcessingState == "" && states == map[] && order == []
      ensures !scheduled && issued == {} && Valid() && Counted()
    {
      allocatedStateId := 0;
      issued := {};
      currentProcessingState := "";
      states := map[];
      order := [];
      scheduled := false;
    }

    /** `genChainId()`: the next counter value. Ids are never reused, so
        the new one is registered nowhere. */
    method GenChainId() returns (r: string)
      requires Valid() && Counted()
      modifies this`allocatedStateId, this`issued
      ensures Valid() && Counted()
      ensures allocatedStateId == old(allocatedStateId) + 1 && r == Key(allocatedStateId)
      ensures r !in old(issued) && r !in states && r != "" && issued == old(issued) + {r}
    {
      forall id | id in issued ensures id != Key(allocatedStateId + 1) && Issued(id, allocatedStateId + 1) {
        NextKeyFresh(id, allocatedStateId);
      }
      allocatedStateId := allocatedStateId + 1;
      r := Key(allocatedStateId);
      issued := issued + {r};
      assert r[0] == 's';
    }

    /** `addStateFromConfig(config, chainId?)`: the given chain id unless it
        is missing or empty (both falsy), else a fresh one; the new state is
        registered under it, replacing any entry there. The parent link the
        callers set right afterwards is passed in. */
    method AddStateFromConfig(config: StateConfig, chainId: Option<string>, parentState: State?)
      returns (state: State)
      requires Valid() && (parentState != null ==> ChainLinked(parentState))
      requires if chainId.Some? && chainId.value != "" then chainId.value in issued else Counted()
      modifies this`states, this`order, this`allocatedStateId, this`issued
      ensures Valid() && (old(Counted()) ==> Counted()) && fresh(state)
      ensures chainId.Some? && chainId.value != "" ==>
                && state.chainId == chainId.value
                && allocatedStateId == old(allocatedStateId) && issued == old(issued)
      ensures !(chainId.Some? && chainId.value != "") ==>
                && allocatedStateId == old(allocatedStateId) + 1 && state.chainId == Key(allocatedStateId)
                && state.chainId !in old(states)
      ensures states == old(states)[state.chainId := state]
      ensures order == if state.chainId in old(states) then old(order) else old(order) + [state.chainId]
      ensures state.config == config && state.parentState == parentState && state.machine == this
      ensures state.queue == [] && state.currentId == -1 && state.dirty && state.active
    {
      var stateKey;
      if chainId.Some? && chainId.value != "" {
        stateKey := chainId.value;
      } else {
        stateKey := GenChainId();
      }
      state := new State(this, config, stateKey, parentState);
      if stateKey !in states {
        order := order + [stateKey];
      }
      states := states[stateKey := state];
    }

    function GetStateByChainId(id: string): (r: Option<State>)
      reads this`states
      ensures r.Some? <==> id in states
      ensures r.Some? ==> r.value == states[id]
    {
      if id in states then Some(states[id]) else None
    }

    function GetProcessingState(): (r: Option<State>)
      reads this`states, this`currentProcessingState
      ensures r.Some? <==> currentProcessingState in states
      ensures r.Some? ==> r.value == states[currentProcessingState]
    {
      GetStateByChainId(currentProcessingState)
    }

    /** `schedule()`: a pass becomes pending; a second call while one is
        pending changes nothing. */
    method Schedule()
      modifies this`scheduled
      ensures scheduled
    {
      if scheduled {
        return;
      }
      scheduled := true;
    }

    /** The registered states. */
    function Registered(): set<State>
      reads this`states
    {
      set id | id in states :: states[id]
    }

    /** One iteration of the send loop: `st` takes the event if the event
        reaches it. */
    method SendAt(st: State, target: Option<string>, name: string, data: Value) returns (hit: bool)
      requires ChainLinked(st) && st.machine == this
      modifies st`queue, st`dirty, this`scheduled
      ensures (st.queue, st.dirty) == Delivery(Reaches(st, target), old(st.queue), old(st.dirty), name, data)
      ensures hit == (Reaches(st, target) && Listens(old(st.queue), name))
      ensures scheduled == (old(scheduled) || hit)
    {
      var reached := true;
      if target.Some? && st.chainId != target.value {
        reached := st.IsDescendantOf(target.value);
      }
      hit := false;
      if reached {
        hit := st.MaybeTriggerEvent(name, data);
        if hit {
          Schedule();
        }
      }
    }

    /** The loop of `sendAll` (no target) and `sendAllForId` (a target):
        every registered state the event reaches takes it, and a pass is
        scheduled iff one of them listened for it. States are independent
        of each other here, so the order of the visits does not matter. */
    method SendTo(target: Option<string>, name: string, data: Value)
      requires forall s :: s in Registered() ==> ChainLinked(s) && s.machine == this
      modifies Registered(), this`scheduled
      ensures forall s :: s in Registered() ==>
                (s.queue, s.dirty) == Delivery(Reaches(s, target), old(s.queue), old(s.dirty), name, data)
      ensures scheduled == (old(scheduled) || exists s :: s in Registered() && Reaches(s, target) && Listens(old(s.queue), name))
    {
      var rest := Registered();
      ghost var all := rest;
      ghost var visited: set<State> := {};
      while rest != {}
        invariant rest + visited == all && rest !! visited
        invariant forall s :: s in visited ==>
                    (s.queue, s.dirty) == Delivery(Reaches(s, target), old(s.queue), old(s.dirty), name, data)
        invariant forall s :: s in rest ==> s.queue == old(s.queue) && s.dirty == old(s.dirty)
        invariant scheduled == (old(scheduled) || exists s :: s in visited && Reaches(s, target) && Listens(old(s.queue), name))
        decreases rest
      {
        var state :| state in rest;
        var hit := SendAt(state, target, name, data);
        rest := rest - {state};
        visited := visited + {state};
      }
    }

    /** `sendAll(event, eventData)`: every registered state takes the
        event. */
    method SendAll(name: string, data: Value)
      requires Valid()
      modifies Registered(), this`scheduled
      ensures forall s :: s in Registered() ==>
                && s.queue == TriggerAllNamed(old(s.queue), name, data)
                && s.dirty == (old(s.dirty) || Listens(old(s.queue), name))
      ensures scheduled == (old(scheduled) || exists s :: s in Registered() && Listens(old(s.queue), name))
    {
      SendTo(None, name, data);
    }

    /** `sendAllForId(chainId, event, eventData)`: only the state of chain
        `chainId` and the states nested under it take the event. */
    method SendAllForId(chainId: string, name: string, data: Value)
      requires Valid()
      modifies Registered(), this`scheduled
      ensures forall s :: s in Registered() ==>
                (s.queue, s.dirty) == Delivery(Reaches(s, Some(chainId)), old(s.queue), old(s.dirty), name, data)
      ensures scheduled == (old(scheduled) || exists s :: s in Registered() && Reaches(s, Some(chainId)) && Listens(old(s.queue), name))
    {
      SendTo(Some(chainId), name, data);
    }

    // -------------------------------------------------------------------
    // The pass

    /** Whether `s` was nested under a state that is no longer the one
        registered under that state's chain id. */
    predicate ParentTransitioned(s: State)
      reads this`states
    {
      s.parentState != null &&
      (s.parentState.chainId !in states || states[s.parentState.chainId] != s.parentState)
    }

    /** The first half of a pass step: a dirty state is run as the
        processing state and hands back `outcome`; a clean one is left
        alone. */
    method RunIfDirty(cbs: Callbacks, st: State, outcome: Option<StateConfig>) returns (ran: bool, next: Option<StateConfig>)
      modifies this`currentProcessingState, st`currentId, st`dirty, st`queue, st`calls, st`warnings
      ensures ran == old(st.dirty) && next == (if ran then outcome else None)
      ensures ran ==> && currentProcessingState == st.chainId && st.currentId == -1 && !st.dirty
                      && st.queue == Runtime.AfterEffects(cbs, old(st.queue))
                      && st.calls == old(st.calls) + Runtime.EffectCalls(old(st.queue))
                      && st.warnings == old(st.warnings)
      ensures !ran ==> unchanged(this) && unchanged(st)
    {
      ran := st.dirty;
      next := None;
      if ran {
        currentProcessingState := st.chainId;
        next := st.Run(cbs, outcome);
      }
    }

    /** The deletion branch of a pass step: the state at position `i` is
        marked inactive and dropped from the registry. */
    method Retire(i: nat, st: State)
      requires Valid() && i < |order| && states[order[i]] == st
      modifies this`states, this`order, st`active
      ensures Valid() && !st.active
      ensures states == old(states) - {st.chainId} && order == Runtime.RemoveAt(old(order), i)
    {
      st.MarkInactive();
      Runtime.RemoveAtMembers(order, i);
      states := states - {order[i]};
      order := Runtime.RemoveAt(order, i);
    }

    /** The second half of a pass step for a state that is leaving: its
        cleanups run, it is retired, and a `successor` config, if given,
        is registered under the same chain id with the same parent. */
    method Replace(i: nat, st: State, successor: Option<StateConfig>)
      requires Valid() && i < |order| && states[order[i]] == st
      modifies this`states, this`order, this`allocatedStateId, this`issued, st`queue, st`calls, st`active
      ensures Valid() && allocatedStateId == old(allocatedStateId) && issued == old(issued)
      ensures i <= |order| && forall k :: 0 <= k < i ==> order[k] == old(order[k]) && states[order[k]] == old(states[order[k]])
      ensures !st.active && st.queue == Runtime.AfterCleanups(old(st.queue))
      ensures st.calls == old(st.calls) + Runtime.CleanupCalls(old(st.queue))
      ensures successor.None? ==> states == old(states) - {st.chainId} && order == Runtime.RemoveAt(old(order), i)
      ensures successor.Some? ==>
                && st.chainId in states && fresh(states[st.chainId])
                && states == old(states)[st.chainId := states[st.chainId]]
                && order == Runtime.RemoveAt(old(order), i) + [st.chainId]
      ensures successor.Some? ==>
                var s := states[st.chainId];
                s.parentState == st.parentState && s.config == successor.value && s.dirty && s.active && s.queue == []
    {
      st.Cleanup();
      Retire(i, st);
      if successor.Some? {
        var s := AddStateFromConfig(successor.value, Some(st.chainId), st.parentState);
      }
    }

    /** One step of the `forEach` in `run()`, on the state `st` at position
        `i` of the iteration order. `outcome` is what its state function
        returns if the state is dirty and runs. A state leaves when it
        returned a config or its parent transitioned; it is replaced only in
        the first case and only if its parent did not transition. */
    method Visit(cbs: Callbacks, i: nat, st: State, outcome: Option<StateConfig>) returns (ran: bool, deleted: bool)
      requires Valid() && i < |order| && states[order[i]] == st
      modifies this`currentProcessingState, this`states, this`order, this`allocatedStateId, this`issued, st
      ensures Valid() && allocatedStateId == old(allocatedStateId) && issued == old(issued)
      ensures i <= |order| && forall k :: 0 <= k < i ==> order[k] == old(order[k]) && states[order[k]] == old(states[order[k]])
      ensures ran == old(st.dirty)
      ensures ran ==> currentProcessingState == st.chainId && st.currentId == -1 && !st.dirty
      ensures deleted == (old(ParentTransitioned(st)) || (ran && outcome.Some?))
      ensures !deleted ==> states == old(states) && order == old(order) && st.active == old(st.active)
      ensures !ran && !deleted ==> unchanged(st)
      ensures ran && !deleted ==> st.queue == Runtime.AfterEffects(cbs, old(st.queue))
      ensures deleted && !ran ==> st.queue == Runtime.AfterCleanups(old(st.queue))
      ensures deleted && ran ==> st.queue == Runtime.AfterCleanups(Runtime.AfterEffects(cbs, old(st.queue)))
      ensures deleted ==> !st.active
      ensures deleted && !(ran && outcome.Some? && !old(ParentTransitioned(st))) ==>
                states == old(states) - {st.chainId} && order == Runtime.RemoveAt(old(order), i)
      ensures ran && outcome.Some? && !old(ParentTransitioned(st)) ==>
                && st.chainId in states && fresh(states[st.chainId])
                && states == old(states)[st.chainId := states[st.chainId]]
                && order == Runtime.RemoveAt(old(order), i) + [st.chainId]
      ensures ran && outcome.Some? && !old(ParentTransitioned(st)) ==>
                var s := states[st.chainId];
                s.parentState == st.parentState && s.config == outcome.value && s.dirty && s.active && s.queue == []
    {
      var parentTransitioned := ParentTransitioned(st);
      var next;
      ran, next := RunIfDirty(cbs, st, outcome);
      deleted := parentTransitioned || next.Some?;
      if deleted {
        Replace(i, st, if parentTransitioned then None else next);
      }
    }

    /** A pass step as the pass loop sees it. */
    method Step(cbs: Callbacks, i: nat, st: State, outcome: Option<StateConfig>) returns (deleted: bool)
      requires Valid() && i < |order| && states[order[i]] == st
      requires forall k :: 0 <= k < i ==> !states[order[k]].dirty
      modifies this`currentProcessingState, this`states, this`order, this`allocatedStateId, this`issued, st
      ensures Valid() && allocatedStateId == old(allocatedStateId) && issued == old(issued)
      ensures states.Keys <= old(states.Keys)
      ensures (if deleted then i else i + 1) <= |order|
      ensures forall k :: 0 <= k < (if deleted then i else i + 1) ==> !states[order[k]].dirty
      ensures !deleted ==> order == old(order)
      ensures forall id :: id in states ==> (id in old(states) && states[id] == old(states)[id]) || fresh(states[id])
      ensures deleted && !old(st.dirty) ==> |order| < old(|order|)
    {
      var ran;
      ran, deleted := Visit(cbs, i, st, outcome);
      if deleted {
        Runtime.RemoveAtMembers(old(order), i);
      }
      forall k | 0 <= k < i ensures states[order[k]] != st {
        assert states[order[k]].chainId == old(order[k]) != old(order[i]);
      }
    }

    /** `run()`: one pass over the registered states in insertion order,
        successors included. `outcomes` lists, in order, what the state
        functions of the dirty states return; the pass stops early
        (`exhausted`) if it needs more of them. Otherwise no registered
        state is left dirty. */
    method RunPass(cbs: Callbacks, outcomes: seq<Option<StateConfig>>) returns (exhausted: bool)
      requires Valid()
      modifies this`scheduled, this`currentProcessingState, this`states, this`order, this`allocatedStateId, this`issued
      modifies Registered()
      ensures Valid() && !scheduled && allocatedStateId == old(allocatedStateId) && issued == old(issued)
      ensures states.Keys <= old(states.Keys)
      ensures !exhausted ==> forall id :: id in states ==> !states[id].dirty
    {
      scheduled := false;
      exhausted := false;
      var i := 0;
      var used := 0;
      while i < |order|
        invariant Valid() && !scheduled && i <= |order| && used <= |outcomes|
        invariant allocatedStateId == old(allocatedStateId) && issued == old(issued)
        invariant states.Keys <= old(states.Keys)
        invariant forall k :: 0 <= k < i ==> !states[order[k]].dirty
        invariant forall id :: id in states ==> (id in old(states) && states[id] == old(states)[id]) || fresh(states[id])
        decreases |outcomes| - used, |order| - i
      {
        var state := states[order[i]];
        var outcome: Option<StateConfig> := None;
        if state.dirty {
          if used == |outcomes| {
            exhausted := true;
            return;
          }
          outcome := outcomes[used];
          used := used + 1;
        }
        var deleted := Step(cbs, i, state, outcome);
        if !deleted {
          i := i + 1;
        }
      }
      forall id | id in states ensures !states[id].dirty {
        var k :| 0 <= k < |order| && order[k] == id;
      }
    }
  }
}

=== FILE: monolith_hooks.dfy ===
/**
 * The hooks of state.ts and its `run` entry point, on the machine and
 * process record of module Monolith. Each hook reads one slot of the
 * processing state, created on the first call; every "outside of state
 * machine scope" error is a plain `Error`.
 */
module MonolithHooks {
  import opened Values
  import opened Utils
  import opened ChainIds
  import opened Monolith
  import Runtime
  import HookSlots
  import UseStates
  import UseEffects
  import UseSideEffects

  const LocalStateOutsideMessage := "Cannot useLocalState outside of state machine scope"
  const SideEffectOutsideMessage := "Cannot useState outside of state machine scope"
  const EventOutsideMessage := "Cannot useState outside of state machine scope"
  const NestedOutsideMessage := "Cannot useNested outside of state machine scope"

  /** The objects a hook call may change: the processing state, if any. */
  function ProcessingFrame(m: Machine): set<State>
    reads m`states, m`currentProcessingState
  {
    if m.currentProcessingState in m.states then {m.states[m.currentProcessingState]} else {}
  }

  /** `incrementHookId()`, `setHook(initial)` unless `isHookAdded()`, then
      `getHook(initial's type)`. */
  method EnterHook(p: State, initial: Hook) returns (slot: Result<Hook>)
    requires p.Valid()
    modifies p`currentId, p`queue
    ensures p.Valid() && p.currentId == old(p.currentId) + 1 && 0 <= p.currentId <= old(|p.queue|)
    ensures p.queue == HookSlots.Allocate(old(p.queue), p.currentId, initial)
    ensures slot == HookSlots.Slot(old(p.queue), p.currentId, initial)
  {
    p.IncrementHookId();
    if !p.IsHookAdded() {
      p.SetHook(initial);
    }
    slot := p.GetHook(initial.Type());
  }

  // ---------------------------------------------------------------------
  // useLocalState

  /** The setter closure: the process and its slot index. */
  datatype LocalSetter = LocalSetter(state: State, slot: nat)

  /** `useLocalState(initialState)`: the stored value and the slot's
      setter; the argument only seeds a new slot. */
  method UseLocalState(m: Machine, initialState: Value) returns (r: Result<(Value, LocalSetter)>)
    requires forall p | p in ProcessingFrame(m) :: p.Valid()
    modifies ProcessingFrame(m)`currentId, ProcessingFrame(m)`queue
    ensures m.GetProcessingState().None? ==> r == Err(PlainError(LocalStateOutsideMessage))
    ensures m.GetProcessingState().Some? ==>
              var p := m.GetProcessingState().value;
              && p.Valid() && p.currentId == old(p.currentId) + 1 && 0 <= p.currentId <= old(|p.queue|)
              && p.queue == HookSlots.Allocate(old(p.queue), p.currentId, Runtime.LocalStateHook(initialState))
              && var slot := HookSlots.Slot(old(p.queue), p.currentId, Runtime.LocalStateHook(initialState));
              && (slot.Err? ==> r == Err(slot.error))
              && (slot.Ok? ==> slot.value.LocalStateHook? && r == Ok((slot.value.value, LocalSetter(p, p.currentId))))
  {
    var current := m.GetProcessingState();
    if current.None? {
      return Err(PlainError(LocalStateOutsideMessage));
    }
    var p := current.value;
    var slot := EnterHook(p, Runtime.LocalStateHook(initialState));
    if slot.Err? {
      return Err(slot.error);
    }
    r := Ok((slot.value.value, LocalSetter(p, p.currentId)));
  }

  /** Calling the setter: nothing once the state is inactive (it
      transitioned); otherwise the new value, computed from the current one
      for an updater, is stored and the state marked dirty iff it differs.
      The rule itself is `UseStates.SetterRule` with `active` as the gate. */
  method SetLocalState(cbs: Callbacks, s: LocalSetter, arg: UseStates.SetArgument)
    requires s.slot < |s.state.queue| && s.state.queue[s.slot].LocalStateHook?
    modifies s.state`queue, s.state`dirty, s.state.machine`scheduled, s.state`calls
    ensures var (h, dirtied) := UseStates.SetResult(cbs, old(s.state.queue[s.slot]), arg, s.state.active);
            && s.state.queue == old(s.state.queue)[s.slot := h]
            && s.state.dirty == (old(s.state.dirty) || dirtied)
            && s.state.machine.scheduled == (old(s.state.machine.scheduled) || dirtied)
            && s.state.calls == old(s.state.calls) + (if s.state.active && arg.Updater? then [Updated(arg.f)] else [])
  {
    var st := s.state;
    if !st.active {
      return;
    }
    var h := st.queue[s.slot];
    if arg.Updater? {
      st.calls := st.calls + [Updated(arg.f)];
    }
    var v := UseStates.NextValue(cbs, arg, h.value);
    if v != h.value {
      st.MarkDirty();
      st.queue := st.queue[s.slot := Runtime.LocalStateHook(v)];
    }
  }

  /** A setter of a state that has left the machine does nothing. */
  lemma InactiveSetterInert(cbs: Callbacks, h: Hook, arg: UseStates.SetArgument)
    requires h.LocalStateHook?
    ensures UseStates.SetResult(cbs, h, arg, false) == (h, false)
  {
  }

  // ---------------------------------------------------------------------
  // useSideEffect

  /** `useSideEffect(effectFunc, deps)`: the effect slot update of the
      current runtime's `useSideEffect`; changed dependencies call the old
      cleanup on the spot. */
  method UseSideEffect(m: Machine, effect: Effect, deps: Deps) returns (r: Result<()>)
    requires forall p | p in ProcessingFrame(m) :: p.Valid()
    modifies ProcessingFrame(m)`currentId, ProcessingFrame(m)`queue, ProcessingFrame(m)`calls
    ensures m.GetProcessingState().None? ==> r == Err(PlainError(SideEffectOutsideMessage))
    ensures m.GetProcessingState().Some? ==>
              var p := m.GetProcessingState().value;
              && p.Valid() && p.currentId == old(p.currentId) + 1 && 0 <= p.currentId <= old(|p.queue|)
              && var slot := HookSlots.Slot(old(p.queue), p.currentId, UseEffects.NewEffectSlot(effect));
              var grown := HookSlots.Allocate(old(p.queue), p.currentId, UseEffects.NewEffectSlot(effect));
              && (slot.Err? ==> r == Err(slot.error) && p.queue == grown && p.calls == old(p.calls))
              && (slot.Ok? ==> slot.value.EffectHook? && r == Ok(())
                               && p.queue == grown[p.currentId := UseEffects.EffectSlot(slot.value, effect, deps)]
                               && p.calls == old(p.calls) + UseSideEffects.CleanupCallsOf(slot.value, deps))
  {
    var current := m.GetProcessingState();
    if current.None? {
      return Err(PlainError(SideEffectOutsideMessage));
    }
    var p := current.value;
    var slot := EnterHook(p, UseEffects.NewEffectSlot(effect));
    if slot.Err? {
      return Err(slot.error);
    }
    var h := slot.value;
    if UnchangedDeps(h.deps, deps) {
      return Ok(());
    }
    if h.cleanupFunc.Some? {
      p.calls := p.calls + [RanCleanup(h.cleanupFunc.value)];
    }
    p.queue := p.queue[p.currentId := Runtime.EffectHook(Some(effect), None, deps)];
    r := Ok(());
  }

  // ---------------------------------------------------------------------
  // useEvent

  /** The slot a first call creates: listening to `name`, not triggered. */
  function NewNamedSlot(name: string): Hook
  {
    Runtime.NamedEventHook(name, Undefined, false)
  }

  /** What a call returns: `[true, data]` when the slot was triggered,
      `[false, undefined]` otherwise. */
  function NamedDelivered(h: Hook): (bool, Value)
    requires h.NamedEventHook?
  {
    if h.eventTriggered then (true, h.eventData) else (false, Undefined)
  }

  /** The slot after a call: listening to `name` from now on, with a
      delivery consumed. */
  function NamedConsumed(h: Hook, name: string): Hook
    requires h.NamedEventHook?
  {
    if h.eventTriggered then Runtime.NamedEventHook(name, Undefined, false)
    else Runtime.NamedEventHook(name, h.eventData, false)
  }

  /** A delivery is reported exactly once: the call after the state took
      event `name` returns its data, and the call after that returns
      nothing. */
  lemma NamedDeliveredOnce(h: Hook, name: string, data: Value, n1: string, n2: string)
    requires h.NamedEventHook? && h.eventName == name
    ensures NamedDelivered(TriggerNamed(h, name, data)) == (true, data)
    ensures NamedDelivered(NamedConsumed(TriggerNamed(h, name, data), n1)) == (false, Undefined)
    ensures NamedDelivered(NamedConsumed(NamedConsumed(TriggerNamed(h, name, data), n1), n2)) == (false, Undefined)
  {
  }

  /** A changed name takes effect from the next delivery on: after a call
      with `next`, event `next` is taken and the old name no longer is. */
  lemma RenameTakesEffectNext(h: Hook, next: string, data: Value)
    requires h.NamedEventHook? && h.eventName != next
    ensures TriggerNamed(h, h.eventName, data).eventTriggered
    ensures TriggerNamed(NamedConsumed(h, next), next, data).eventTriggered
    ensures !TriggerNamed(NamedConsumed(h, next), h.eventName, data).eventTriggered
  {
  }

  /** `useEvent(eventName)`. */
  method UseEvent(m: Machine, name: string) returns (r: Result<(bool, Value)>)
    requires forall p | p in ProcessingFrame(m) :: p.Valid()
    modifies ProcessingFrame(m)`currentId, ProcessingFrame(m)`queue
    ensures m.GetProcessingState().None? ==> r == Err(PlainError(EventOutsideMessage))
    ensures m.GetProcessingState().Some? ==>
              var p := m.GetProcessingState().value;
              && p.Valid() && p.currentId == old(p.currentId) + 1 && 0 <= p.currentId <= old(|p.queue|)
              && var slot := HookSlots.Slot(old(p.queue), p.currentId, NewNamedSlot(name));
              var grown := HookSlots.Allocate(old(p.queue), p.currentId, NewNamedSlot(name));
              && (slot.Err? ==> r == Err(slot.error) && p.queue == grown)
              && (slot.Ok? ==> slot.value.NamedEventHook? && r == Ok(NamedDelivered(slot.value))
                               && p.queue == grown[p.currentId := NamedConsumed(slot.value, name)])
  {
    var current := m.GetProcessingState();
    if current.None? {
      return Err(PlainError(EventOutsideMessage));
    }
    var p := current.value;
    var slot := EnterHook(p, NewNamedSlot(name));
    if slot.Err? {
      return Err(slot.error);
    }
    var h := slot.value;
    if h.eventTriggered {
      p.queue := p.queue[p.currentId := Runtime.NamedEventHook(name, Undefined, false)];
      return Ok((true, h.eventData));
    }
    p.queue := p.queue[p.currentId := Runtime.NamedEventHook(name, h.eventData, false)];
    r := Ok((false, Undefined));
  }

  // ---------------------------------------------------------------------
  // useNested

  /** The slot a first call creates: no child yet. */
  function NewNestedSlot(): Hook
  {
    Runtime.NestedStateHook(None)
  }

  /** Whether a call on slot `h` starts the child: none was started from
      this slot and the starting condition holds. */
  predicate Starts(h: Hook, startingCondition: bool)
    requires h.NestedStateHook?
  {
    h.chainId.None? && startingCondition
  }

  /** The slot after a call that may have started child `childId`. */
  function NestedSlot(h: Hook, startingCondition: bool, childId: string): Hook
    requires h.NestedStateHook?
  {
    if Starts(h, startingCondition) then Runtime.NestedStateHook(Some(childId)) else h
  }

  /** What a call returns when it does not start the child: `[true,
      props]` once the state registered under the child's chain id runs
      `END_STATE_FUNC`, `[false, undefined]` before. */
  function NestedOutcome(h: Hook, states: map<string, State>): (r: (bool, Value))
    requires h.NestedStateHook?
    ensures r.0 <==> h.chainId.Some? && h.chainId.value in states && states[h.chainId.value].config.stateFunc == EndStateFunc
    ensures r.0 ==> r.1 == states[h.chainId.value].config.props
    ensures !r.0 ==> r.1 == Undefined
  {
    if h.chainId.Some? && h.chainId.value in states && states[h.chainId.value].config.stateFunc == EndStateFunc then
      (true, states[h.chainId.value].config.props)
    else (false, Undefined)
  }

  /** A slot starts its child at most once, and never while the condition
      is false. */
  lemma NestedStartsAtMostOnce(h: Hook, c1: bool, c2: bool, childId: string)
    requires h.NestedStateHook?
    ensures !c1 ==> NestedSlot(h, c1, childId) == h
    ensures !Starts(NestedSlot(h, c1, childId), c2) || (!c1 && Starts(h, c2))
    ensures Starts(h, c1) ==> forall c :: !Starts(NestedSlot(h, c1, childId), c)
  {
  }

  /** The call reports done with the end props once the child's chain
      reached `endState(props)`, and not while it runs a user function. */
  lemma NestedDoneAtEndState(h: Hook, states: map<string, State>, child: State, f: StateFunc, props: Value)
    requires h.NestedStateHook? && h.chainId.Some?
    ensures child.config == EndState(props) ==> NestedOutcome(h, states[h.chainId.value := child]) == (true, props)
    ensures child.config == NewState(f, props) ==> NestedOutcome(h, states[h.chainId.value := child]) == (false, Undefined)
    ensures h.chainId.value !in states ==> NestedOutcome(h, states) == (false, Undefined)
  {
  }

  /** `useNested(startingCondition, stateFunc, props)`. On the call that
      starts the child, a state for `newState(stateFunc, props)` is
      registered under a fresh chain id with the processing state as its
      parent, and the slot remembers that id. */
  method UseNested(m: Machine, startingCondition: bool, f: StateFunc, props: Value) returns (r: Result<(bool, Value)>)
    requires m.Valid() && m.Counted()
    requires forall p | p in ProcessingFrame(m) :: p.Valid()
    modifies ProcessingFrame(m)`currentId, ProcessingFrame(m)`queue
    modifies m`states, m`order, m`allocatedStateId, m`issued
    ensures m.Valid() && m.Counted()
    ensures old(m.GetProcessingState()).None? ==>
              r == Err(PlainError(NestedOutsideMessage)) && m.states == old(m.states) && m.order == old(m.order)
    ensures old(m.GetProcessingState()).Some? ==>
              var p := old(m.GetProcessingState()).value;
              && p.Valid() && p.currentId == old(p.currentId) + 1 && 0 <= p.currentId <= old(|p.queue|)
              && var slot := HookSlots.Slot(old(p.queue), p.currentId, NewNestedSlot());
              var grown := HookSlots.Allocate(old(p.queue), p.currentId, NewNestedSlot());
              && (slot.Err? ==> r == Err(slot.error))
              && (slot.Err? || !Starts(slot.value, startingCondition) ==>
                    p.queue == grown && m.states == old(m.states) && m.order == old(m.order))
              && (slot.Ok? ==> slot.value.NestedStateHook?)
              && (slot.Ok? && !Starts(slot.value, startingCondition) ==>
                    r == Ok(NestedOutcome(slot.value, old(m.states))))
    ensures old(m.GetProcessingState()).Some? ==>
              var p := old(m.GetProcessingState()).value;
              var slot := HookSlots.Slot(old(p.queue), p.currentId, NewNestedSlot());
              slot.Ok? && Starts(slot.value, startingCondition) ==>
                && r == Ok((false, Undefined))
                && var id := Key(m.allocatedStateId);
                && m.allocatedStateId == old(m.allocatedStateId) + 1
                && id !in old(m.states) && id in m.states && fresh(m.states[id])
                && m.states == old(m.states)[id := m.states[id]] && m.order == old(m.order) + [id]
                && m.states[id].config == NewState(f, props) && m.states[id].parentState == p
                && p.queue == HookSlots.Allocate(old(p.queue), p.currentId, NewNestedSlot())[p.currentId := NestedSlot(slot.value, startingCondition, id)]
  {
    var current := m.GetProcessingState();
    if current.None? {
      return Err(PlainError(NestedOutsideMessage));
    }
    var p := current.value;
    var slot := EnterHook(p, NewNestedSlot());
    if slot.Err? {
      return Err(slot.error);
    }
    var h := slot.value;
    if h.chainId.None? {
      if !startingCondition {
        return Ok((false, Undefined));
      }
      var child := m.AddStateFromConfig(NewState(f, props), None, p);
      p.queue := p.queue[p.currentId := Runtime.NestedStateHook(Some(child.chainId))];
      return Ok((false, Undefined));
    }
    var state := m.GetStateByChainId(h.chainId.value);
    if state.Some? && state.value.config.stateFunc == EndStateFunc {
      return Ok((true, state.value.config.props));
    }
    r := Ok((false, Undefined));
  }

  // ---------------------------------------------------------------------
  // run

  /** `run(state, props)`: a new chain for `newState(state, props)` and a
      pending pass. The returned chain id is what the inspector's `send`
      targets with `sendAllForId`. */
  method Run(m: Machine, f: StateFunc, props: Value) returns (chainId: string)
    requires m.Valid() && m.Counted()
    modifies m`states, m`order, m`allocatedStateId, m`issued, m`scheduled
    ensures m.Valid() && m.Counted() && m.scheduled
    ensures m.allocatedStateId == old(m.allocatedStateId) + 1 && chainId == Key(m.allocatedStateId)
    ensures chainId !in old(m.states) && chainId in m.states && fresh(m.states[chainId])
    ensures m.states == old(m.states)[chainId := m.states[chainId]] && m.order == old(m.order) + [chainId]
    ensures m.states[chainId].config == NewState(f, props) && m.states[chainId].parentState == null
    ensures m.states[chainId].dirty && m.states[chainId].queue == []
  {
    var state := m.AddStateFromConfig(NewState(f, props), None, null);
    m.Schedule();
    chainId := state.chainId;
  }
}

=== FILE: multimap.dfy ===
/**
 * src/multiMap.ts: a key to set-of-values map mutated in place. A key is
 * only ever stored with a non-empty set: `add` creates the set together
 * with its first value, and `delete` drops a key whose set it empties.
 */
module MultiMaps {
  import opened Values

  /** No stored key maps to an empty set. */
  ghost predicate NoEmptySets<K, V>(m: map<K, set<V>>)
  {
    forall k :: k in m ==> m[k] != {}
  }

  /** The set stored under `k`, or the empty set for an absent key. */
  function SetOf<K, V>(m: map<K, set<V>>, k: K): set<V>
  {
    if k in m then m[k] else {}
  }

  /** The map after `add(k, v)`. */
  function AddSpec<K, V>(m: map<K, set<V>>, k: K, v: V): (r: map<K, set<V>>)
  {
    m[k := SetOf(m, k) + {v}]
  }

  /** The map after `delete(k)` (`value` is `None`) or `delete(k, v)`. */
  function DeleteSpec<K, V>(m: map<K, set<V>>, k: K, value: Option<V>): (r: map<K, set<V>>)
  {
    if k !in m then m
    else if value.None? then m - {k}
    else if value.value !in m[k] then m
    else if m[k] - {value.value} == {} then m - {k}
    else m[k := m[k] - {value.value}]
  }

  /** `has(k)` (`value` is `None`) and `has(k, v)`. */
  predicate HasSpec<K, V>(m: map<K, set<V>>, k: K, value: Option<V>)
  {
    if value.None? then k in m else k in m && value.value in m[k]
  }

  /** After `add(k, v)` both `has(k)` and `has(k, v)` hold, the values
      already under `k` are kept, and every other key is untouched. */
  lemma AddThenHas<K, V>(m: map<K, set<V>>, k: K, v: V)
    ensures HasSpec(AddSpec(m, k, v), k, None) && HasSpec(AddSpec(m, k, v), k, Some(v))
    ensures SetOf(AddSpec(m, k, v), k) == SetOf(m, k) + {v}
    ensures forall k' :: k' != k ==> SetOf(AddSpec(m, k, v), k') == SetOf(m, k')
  {
  }

  /** `delete(k)` removes the key entirely; `delete(k, v)` leaves no `v`
      under `k`; neither touches another key. */
  lemma DeleteRemoves<K, V>(m: map<K, set<V>>, k: K, value: Option<V>)
    ensures value.None? ==> !HasSpec(DeleteSpec(m, k, value), k, None)
    ensures value.Some? ==> !HasSpec(DeleteSpec(m, k, value), k, value)
    ensures value.Some? ==> SetOf(DeleteSpec(m, k, value), k) == SetOf(m, k) - {value.value}
    ensures forall k' :: k' != k ==> SetOf(DeleteSpec(m, k, value), k') == SetOf(m, k')
  {
  }

  /** Deleting from an absent key changes nothing. */
  lemma DeleteAbsent<K, V>(m: map<K, set<V>>, k: K, value: Option<V>)
    requires !HasSpec(m, k, None)
    ensures DeleteSpec(m, k, value) == m
  {
  }

  /** `add` keeps every stored set non-empty. */
  lemma AddKeepsSetsNonEmpty<K, V>(m: map<K, set<V>>, k: K, v: V)
    requires NoEmptySets(m)
    ensures NoEmptySets(AddSpec(m, k, v))
  {
    assert v in AddSpec(m, k, v)[k];
  }

  /** `delete` keeps every stored set non-empty. */
  lemma DeleteKeepsSetsNonEmpty<K, V>(m: map<K, set<V>>, k: K, value: Option<V>)
    requires NoEmptySets(m)
    ensures NoEmptySets(DeleteSpec(m, k, value))
  {
  }

  /** Under the invariant, `has(k)` holds exactly when `k` has some value. */
  lemma HasKeyIffSomeValue<K, V>(m: map<K, set<V>>, k: K)
    requires NoEmptySets(m)
    ensures HasSpec(m, k, None) <==> exists v :: HasSpec(m, k, Some(v))
  {
    if k in m {
      var v :| v in m[k];
      assert HasSpec(m, k, Some(v));
    }
  }

  class MultiMap<K(==), V(==)> {
    var entries: map<K, set<V>>

    ghost predicate Valid()
      reads this
    {
      NoEmptySets(entries)
    }

    /** Every set but possibly the one under `key` is non-empty: the state
        a nested `delete(key)` sees right after emptying that set. */
    ghost predicate ValidExcept(key: K)
      reads this
    {
      forall k :: k in entries && k != key ==> entries[k] != {}
    }

    constructor ()
      ensures entries == map[] && Valid()
    {
      entries := map[];
    }

    /** `add(key, value)`. */
    method Add(key: K, value: V)
      requires Valid()
      modifies this
      ensures entries == AddSpec(old(entries), key, value)
      ensures Valid()
    {
      if key !in entries {
        entries := entries[key := {}];
      }
      entries := entries[key := entries[key] + {value}];
      AddKeepsSetsNonEmpty(old(entries), key, value);
    }

    /** `has(key)` and `has(key, value)`. */
    function Has(key: K, value: Option<V>): (r: bool)
      reads this
      ensures r == HasSpec(entries, key, value)
    {
      if value.None? then key in entries
      else if key in entries then value.value in entries[key]
      else false
    }

    /** `delete(key)` and `delete(key, value)`; emptying a set deletes its
        key through a nested `delete(key)`. */
    method Delete(key: K, value: Option<V>)
      requires ValidExcept(key)
      modifies this
      ensures entries == DeleteSpec(old(entries), key, value)
      ensures old(Valid()) || value.None? ==> Valid()
      decreases if value.Some? then 1 else 0
    {
      if key !in entries {
        return;
      }
      if value.None? {
        entries := entries - {key};
      }
      if value.Some? && key in entries && value.value in entries[key] {
        var remaining := entries[key] - {value.value};
        entries := entries[key := remaining];
        if remaining == {} {
          Delete(key, None);
        }
      }
      if old(Valid()) {
        DeleteKeepsSetsNonEmpty(old(entries), key, value);
      }
    }

    /** `get(key)`: the stored set, or a new empty set for an absent key
        (which is not inserted). */
    function Get(key: K): (r: set<V>)
      reads this
      ensures key in entries ==> r == entries[key]
      ensures key !in entries ==> r == {}
      ensures Valid() ==> (r != {} <==> key in entries)
    {
      SetOf(entries, key)
    }
  }
}

=== FILE: promise.dfy ===
/**
 * src/promise.ts: the settle-once flag of `CancellablePromise`. The
 * wrapped `resolve` and `reject` and the `cancel` method act only while
 * the flag is INITIALIZED, so only the first of them reaches the
 * underlying promise.
 */
module Promises {
  import opened Values

  datatype PromiseState = Initialized | Fulfilled | Cancelled | Failed

  /** One attempt to settle: the wrapped `resolve(value)`, the wrapped
      `reject(reason)`, or `cancel(reason)`. */
  datatype Attempt =
    | Resolve(value: Value)
    | Reject(reason: Value)
    | Cancel(cancellation: Option<Value>)

  /** What reaches the underlying promise's own `resolve`/`reject`. A cancel
      rejects with the given cancellation, or with a new `Cancellation`
      that carries what the cancel callback threw, if it threw. */
  datatype Delivery =
    | DeliveredValue(value: Value)
    | DeliveredReason(reason: Value)
    | DeliveredNewCancellation(suppressed: Option<Value>)

  function Target(a: Attempt): PromiseState
  {
    match a
    case Resolve(_) => Fulfilled
    case Reject(_) => Failed
    case Cancel(_) => Cancelled
  }

  /** The flag after one attempt. */
  function Step(s: PromiseState, a: Attempt): PromiseState
  {
    if s == Initialized then Target(a) else s
  }

  /** The flag after a sequence of attempts, oldest first. */
  function Run(s: PromiseState, attempts: seq<Attempt>): PromiseState
    decreases |attempts|
  {
    if attempts == [] then s else Run(Step(s, attempts[0]), attempts[1..])
  }

  predicate Ended(s: PromiseState)
  {
    s == Fulfilled || s == Failed || s == Cancelled
  }

  /** Once the flag has left INITIALIZED, no attempt changes it. */
  lemma {:induction false} EndedIsFinal(s: PromiseState, attempts: seq<Attempt>)
    requires s != Initialized
    ensures Run(s, attempts) == s
    decreases |attempts|
  {
    if attempts != [] {
      EndedIsFinal(Step(s, attempts[0]), attempts[1..]);
    }
  }

  /** Only the first attempt decides the outcome. */
  lemma FirstAttemptWins(attempts: seq<Attempt>)
    ensures attempts == [] ==> Run(Initialized, attempts) == Initialized
    ensures attempts != [] ==> Run(Initialized, attempts) == Target(attempts[0])
  {
    if attempts != [] {
      EndedIsFinal(Target(attempts[0]), attempts[1..]);
    }
  }

  /** `isEnded()` holds exactly when the flag left INITIALIZED. */
  lemma EndedIffSettled(s: PromiseState)
    ensures Ended(s) <==> s != Initialized
  {
  }

  class CancellablePromise {
    var state: PromiseState
    /** What has reached the underlying promise, oldest first. */
    ghost var delivered: seq<Delivery>

    /** The flag is INITIALIZED exactly while nothing was delivered, and at
        most one delivery, matching the flag, ever happens. */
    ghost predicate Valid()
      reads this
    {
      && |delivered| <= 1
      && (state == Initialized <==> delivered == [])
      && (state == Fulfilled ==> delivered[0].DeliveredValue?)
      && (state == Failed ==> delivered[0].DeliveredReason?)
      && (state == Cancelled ==> !delivered[0].DeliveredValue?)
    }

    /** The executor is meant to run inside the constructor, with its
        calls to `resolve` and `reject` being the calls of the methods
        below; this is the behaviour modelled. */
    constructor ()
      ensures state == Initialized && delivered == [] && Valid()
    {
      state := Initialized;
      delivered := [];
    }

    function IsEnded(): (r: bool)
      reads this
      ensures r <==> state != Initialized
    {
      state == Fulfilled || state == Failed || state == Cancelled
    }

    /** The wrapped `resolve(value)`. */
    method Resolve(value: Value)
      requires Valid()
      modifies this
      ensures Valid()
      ensures state == Step(old(state), Attempt.Resolve(value))
      ensures delivered == old(delivered) + (if old(state) == Initialized then [DeliveredValue(value)] else [])
    {
      if state == Initialized {
        state := Fulfilled;
        delivered := delivered + [DeliveredValue(value)];
      }
    }

    /** The wrapped `reject(reason)`. */
    method Reject(reason: Value)
      requires Valid()
      modifies this
      ensures Valid()
      ensures state == Step(old(state), Attempt.Reject(reason))
      ensures delivered == old(delivered) + (if old(state) == Initialized then [DeliveredReason(reason)] else [])
    {
      if state == Initialized {
        state := Failed;
        delivered := delivered + [DeliveredReason(reason)];
      }
    }

    /** `cancel(reason)`: sets CANCELLED first, then awaits the cancel
        callback (whose thrown value, if any, is `callbackThrew`) and
        rejects the underlying promise with `reason`, or with a new
        `Cancellation` that suppresses what the callback threw. */
    method Cancel(reason: Option<Value>, callbackThrew: Option<Value>)
      requires Valid()
      modifies this
      ensures Valid()
      ensures state == Step(old(state), Attempt.Cancel(reason))
      ensures old(state) != Initialized ==> delivered == old(delivered)
      ensures old(state) == Initialized ==>
        delivered == [if reason.Some? then DeliveredReason(reason.value) else DeliveredNewCancellation(callbackThrew)]
    {
      if state == Initialized {
        state := Cancelled;
        if reason.Some? {
          delivered := delivered + [DeliveredReason(reason.value)];
        } else {
          delivered := delivered + [DeliveredNewCancellation(callbackThrew)];
        }
      }
    }
  }
}

=== FILE: restate.dfy ===
/**
 * The first generation, restate.ts: one file with a machine, a process
 * record and two hooks, `useLocalState` and `useSideEffect`. Every state,
 * successors included, is registered under a key drawn afresh from the
 * counter, so a chain has no stable id here. The hook index moves inside
 * `setNext` and `getNext`, and a transition releases the effect cleanups
 * inside `run()` itself.
 */
module Restate {
  import opened Values
  import opened Utils
  import opened ChainIds
  import Runtime
  import HookSlots
  import UseStates
  import UseEffects
  import UseSideEffects

  type Hook = Runtime.Hook

  datatype StateConfig = StateConfig(stateFunc: StateFunc, props: Value)

  /** `newState(nextState, props)`. */
  function NewState(nextState: StateFunc, props: Value): StateConfig
  {
    StateConfig(nextState, props)
  }

  const LocalStateOutsideMessage := "Cannot useLocalState outside of state machine scope"
  const SideEffectOutsideMessage := "Cannot useState outside of state machine scope"

  // ---------------------------------------------------------------------
  // What `run()` does to the queue

  /** The queue after `run()`: every pending effect has run, and on a
      transition every stored cleanup has been called and cleared. */
  function AfterRun(cbs: Callbacks, q: seq<Hook>, transitioning: bool): seq<Hook>
  {
    if transitioning then Runtime.AfterCleanups(Runtime.AfterEffects(cbs, q)) else Runtime.AfterEffects(cbs, q)
  }

  /** The callbacks `run()` calls, in order: the effects, then on a
      transition the cleanups they left stored. */
  function RunCalls(cbs: Callbacks, q: seq<Hook>, transitioning: bool): seq<Call>
  {
    Runtime.EffectCalls(q) + (if transitioning then Runtime.CleanupCalls(Runtime.AfterEffects(cbs, q)) else [])
  }

  /** A transitioning run leaves no effect pending and no cleanup stored,
      so nothing it started can be released twice, and a run without a
      transition leaves every stored cleanup in place. */
  lemma TransitionReleasesEverything(cbs: Callbacks, q: seq<Hook>)
    ensures forall i :: 0 <= i < |q| ==>
              && !Runtime.PendingEffect(AfterRun(cbs, q, true)[i])
              && !Runtime.StoredCleanup(AfterRun(cbs, q, true)[i])
              && AfterRun(cbs, q, true)[i].Type() == q[i].Type()
    ensures Runtime.EffectCalls(AfterRun(cbs, q, true)) == [] && Runtime.CleanupCalls(AfterRun(cbs, q, true)) == []
    ensures forall i :: 0 <= i < |q| && Runtime.StoredCleanup(q[i]) ==> Runtime.StoredCleanup(AfterRun(cbs, q, false)[i])
  {
    var effected := Runtime.AfterEffects(cbs, q);
    Runtime.RunEffectsTwiceCallsNothing(cbs, q);
    Runtime.RunCleanupTwiceCallsNothing(effected);
    var after := AfterRun(cbs, q, true);
    forall i | 0 <= i < |q| ensures !Runtime.PendingEffect(after[i]) {
      assert after[i] == Runtime.AfterCleanup(effected[i]);
    }
    Runtime.EffectCallsArePending(after);
  }

  /** Appending an id and then removing position `i` is removing it
      first and appending after. */
  lemma AppendThenRemove(s: seq<string>, i: nat, x: string)
    requires i < |s|
    ensures Runtime.RemoveAt(s + [x], i) == Runtime.RemoveAt(s, i) + [x]
  {
    assert (s + [x])[..i] == s[..i];
    assert (s + [x])[i + 1..] == s[i + 1..] + [x];
  }

  // ---------------------------------------------------------------------
  // The process record

  class State {
    const stateFunc: StateFunc
    const props: Value
    /** The id the constructor draws from the counter; the machine
        registers the state under the key drawn just before. */
    const id: string
    const machine: Machine
    var queue: seq<Hook>
    var currentId: int
    var dirty: bool
    var active: bool
    ghost var calls: seq<Call>
    ghost var warnings: seq<Runtime.Warning>

    ghost predicate Valid()
      reads this`currentId, this`queue
    {
      -1 <= currentId < |queue|
    }

    /** The constructor draws an id with `genStateId()`. */
    constructor (machine: Machine, stateFunc: StateFunc, props: Value)
      requires machine.Counted()
      modifies machine`allocatedStateId, machine`issued
      ensures this.machine == machine && this.stateFunc == stateFunc && this.props == props
      ensures machine.Counted() && machine.allocatedStateId == old(machine.allocatedStateId) + 1
      ensures id == Key(machine.allocatedStateId) && machine.issued == old(machine.issued) + {id}
      ensures queue == [] && currentId == -1 && dirty && active && calls == [] && warnings == []
    {
      this.machine := machine;
      this.stateFunc := stateFunc;
      this.props := props;
      var drawn := machine.GenStateId();
      id := drawn;
      queue := [];
      currentId := -1;
      dirty := true;
      active := true;
      calls := [];
      warnings := [];
    }

    /** `isNextAdded()`: the slot after the current one exists. */
    predicate IsNextAdded()
      reads this`currentId, this`queue
    {
      0 <= currentId + 1 < |queue|
    }

    /** `setNext(value)`: advance the index and write that slot. */
    method SetNext(value: Hook)
      requires Valid()
      modifies this`currentId, this`queue
      ensures Valid() && currentId == old(currentId) + 1
      ensures queue == if currentId < old(|queue|) then old(queue)[currentId := value] else old(queue) + [value]
    {
      currentId := currentId + 1;
      if currentId < |queue| {
        queue := queue[currentId := value];
      } else {
        queue := queue + [value];
      }
    }

    /** `getNext(hookType)`: advance the index and read that slot, failing
        when it is missing or has another type. */
    method GetNext(t: Runtime.HookType) returns (r: Result<Hook>)
      requires -1 <= currentId
      modifies this`currentId
      ensures currentId == old(currentId) + 1
      ensures currentId >= |queue| ==> r == Err(PlainError(Runtime.MissingHookMessage))
      ensures currentId < |queue| ==>
                r == if queue[currentId].Type() == t then Ok(queue[currentId]) else Err(PlainError(Runtime.MismatchedHookMessage))
    {
      currentId := currentId + 1;
      if currentId >= |queue| {
        return Err(PlainError(Runtime.MissingHookMessage));
      }
      if queue[currentId].Type() != t {
        return Err(PlainError(Runtime.MismatchedHookMessage));
      }
      r := Ok(queue[currentId]);
    }

    /** The start of `run()`: the hook index and dirty flag are reset
        before the state function is called. */
    method BeginRun()
      modifies this`currentId, this`dirty
      ensures currentId == -1 && !dirty
    {
      currentId := -1;
      dirty := false;
    }

    /** The rest of `run()` once the state function returned
        `transitionConfig`: a warning if the state was marked dirty during
        the call, every pending effect runs once, and on a transition every
        stored cleanup is called and cleared. */
    method FinishRun(cbs: Callbacks, transitionConfig: Option<StateConfig>) returns (r: Option<StateConfig>)
      modifies this`queue, this`calls, this`warnings
      ensures r == transitionConfig
      ensures warnings == old(warnings) + (if dirty then [Runtime.DirtyDuringRun] else [])
      ensures queue == AfterRun(cbs, old(queue), transitionConfig.Some?)
      ensures calls == old(calls) + RunCalls(cbs, old(queue), transitionConfig.Some?)
    {
      if dirty {
        warnings := warnings + [Runtime.DirtyDuringRun];
      }
      var q, made := Runtime.RunEffectsLoop(cbs, queue);
      if transitionConfig.Some? {
        var released, cleaned := Runtime.RunCleanupLoop(q);
        q, made := released, made + cleaned;
      }
      queue := q;
      calls := calls + made;
      r := transitionConfig;
    }

    /** `run()` for a state function that returned `transitionConfig`
        without calling hooks in between. */
    method Run(cbs: Callbacks, transitionConfig: Option<StateConfig>) returns (r: Option<StateConfig>)
      modifies this`currentId, this`dirty, this`queue, this`calls, this`warnings
      ensures r == transitionConfig && currentId == -1 && !dirty && warnings == old(warnings)
      ensures queue == AfterRun(cbs, old(queue), transitionConfig.Some?)
      ensures calls == old(calls) + RunCalls(cbs, old(queue), transitionConfig.Some?)
    {
      BeginRun();
      r := FinishRun(cbs, transitionConfig);
    }

    method MarkInactive()
      modifies this`active
      ensures !active
    {
      active := false;
    }

    method MarkDirty()
      modifies this`dirty, machine`scheduled
      ensures dirty && machine.scheduled
    {
      dirty := true;
      machine.Schedule();
    }
  }

  // ---------------------------------------------------------------------
  // The machine

  class Machine {
    var allocatedStateId: nat
    var currentProcessingState: string
    var states: map<string, State>
    /** The insertion order of `states`, which a JS `Map` iterates in. */
    var order: seq<string>
    /** Whether a pass is pending (the `scheduled` promise is set). */
    var scheduled: bool
    /** The ids `genStateId` has handed out. */
    ghost var issued: set<string>

    /** `order` lists the registered keys once each; every key was handed
        out by `genStateId` and its state belongs to this machine. */
    ghost predicate Valid()
      reads this`order, this`states, this`issued
    {
      && Runtime.NoDuplicates(order)
      && (forall key :: key in states <==> key in order)
      && (forall key :: key in states ==> key in issued && states[key].machine == this)
    }

    /** Every id handed out was built from a counter value the counter
        has reached. */
    ghost predicate Counted()
      reads this`issued, this`allocatedStateId
    {
      forall id :: id in issued ==> Issued(id, allocatedStateId)
    }

    constructor ()
      ensures allocatedStateId == 0 && currentProcessingState == "" && states == map[] && order == []
      ensures !scheduled && issued == {} && Valid() && Counted()
    {
      allocatedStateId := 0;
      issued := {};
      currentProcessingState := "";
      states := map[];
      order := [];
      scheduled := false;
    }

    /** `genStateId()`: the next counter value, an id never handed out
        before. */
    method GenStateId() returns (r: string)
      requires Counted()
      modifies this`allocatedStateId, this`issued
      ensures Counted() && allocatedStateId == old(allocatedStateId) + 1 && r == Key(allocatedStateId)
      ensures r !in old(issued) && issued == old(issued) + {r}
    {
      forall id | id in issued ensures id != Key(allocatedStateId + 1) && Issued(id, allocatedStateId + 1) {
        NextKeyFresh(id, allocatedStateId);
      }
      allocatedStateId := allocatedStateId + 1;
      r := Key(allocatedStateId);
      issued := issued + {r};
    }

    /** `addStateFromConfig(config)`: the state is registered under a
        fresh key. The key and the state's own `id` are two draws from the
        counter, so they always differ. */
    method AddStateFromConfig(config: StateConfig) returns (stateKey: string, state: State)
      requires Valid() && Counted()
      modifies this`states, this`order, this`allocatedStateId, this`issued
      ensures Valid() && Counted() && allocatedStateId == old(allocatedStateId) + 2
      ensures stateKey == Key(old(allocatedStateId) + 1) && stateKey !in old(states) && fresh(state)
      ensures states == old(states)[stateKey := state] && order == old(order) + [stateKey]
      ensures state.stateFunc == config.stateFunc && state.props == config.props
      ensures state.id == Key(allocatedStateId) && state.id != stateKey
      ensures state.queue == [] && state.currentId == -1 && state.dirty && state.active
    {
      stateKey := GenStateId();
      state := new State(this, config.stateFunc, config.props);
      KeyInjective(allocatedStateId - 1, allocatedStateId);
      order := order + [stateKey];
      states := states[stateKey := state];
    }

    function GetProcessingState(): (r: Option<State>)
      reads this`states, this`currentProcessingState
      ensures r.Some? <==> currentProcessingState in states
      ensures r.Some? ==> r.value == states[currentProcessingState]
    {
      if currentProcessingState in states then Some(states[currentProcessingState]) else None
    }

    /** `schedule()`: a pass becomes pending; a second call while one is
        pending changes nothing. */
    method Schedule()
      modifies this`scheduled
      ensures scheduled
    {
      if scheduled {
        return;
      }
      scheduled := true;
    }

    /** The registered states. */
    function Registered(): set<State>
      reads this`states
    {
      set key | key in states :: states[key]
    }

    // -------------------------------------------------------------------
    // The pass

    /** The first half of a pass step: a dirty state is run as the
        processing state under its key and hands back `outcome`; a clean
        one is left alone. */
    method RunIfDirty(cbs: Callbacks, key: string, st: State, outcome: Option<StateConfig>)
      returns (ran: bool, next: Option<StateConfig>)
      modifies this`currentProcessingState, st`currentId, st`dirty, st`queue, st`calls, st`warnings
      ensures ran == old(st.dirty) && next == (if ran then outcome else None)
      ensures ran ==> && currentProcessingState == key && st.currentId == -1 && !st.dirty
                      && st.queue == AfterRun(cbs, old(st.queue), outcome.Some?)
                      && st.calls == old(st.calls) + RunCalls(cbs, old(st.queue), outcome.Some?)
                      && st.warnings == old(st.warnings)
      ensures !ran ==> unchanged(this) && unchanged(st)
    {
      ran := st.dirty;
      next := None;
      if ran {
        currentProcessingState := key;
        next := st.Run(cbs, outcome);
      }
    }

    /** A transition of the state at position `i`: it is marked inactive,
        the successor is registered under a fresh key, and the old key is
        deleted. */
    method Replace(i: nat, st: State, successor: StateConfig) returns (key: string, s: State)
      requires Valid() && Counted() && i < |order| && states[order[i]] == st
      modifies this`states, this`order, this`allocatedStateId, this`issued, st`active
      ensures Valid() && Counted() && !st.active && allocatedStateId == old(allocatedStateId) + 2
      ensures i <= |order| && forall k :: 0 <= k < i ==> order[k] == old(order[k]) && states[order[k]] == old(states[order[k]])
      ensures key == Key(old(allocatedStateId) + 1) && key !in old(states) && fresh(s)
      ensures states == old(states)[key := s] - {old(order[i])} && order == Runtime.RemoveAt(old(order), i) + [key]
      ensures s.stateFunc == successor.stateFunc && s.props == successor.props && s.dirty && s.active && s.queue == []
    {
      st.MarkInactive();
      key, s := AddStateFromConfig(successor);
      AppendThenRemove(old(order), i, key);
      Delete(i);
    }

    /** `states.delete(key)` for the key at position `i` of the iteration
        order. */
    method Delete(i: nat)
      requires Valid() && i < |order|
      modifies this`states, this`order
      ensures Valid() && states == old(states) - {old(order[i])} && order == Runtime.RemoveAt(old(order), i)
      ensures i <= |order| && forall k :: 0 <= k < i ==> order[k] == old(order[k])
    {
      Runtime.RemoveAtMembers(order, i);
      states := states - {order[i]};
      order := Runtime.RemoveAt(order, i);
    }

    /** One step of the `forEach` in `run()`, on the state `st` at position
        `i`. `outcome` is what its state function returns if the state is
        dirty and runs; a returned config replaces the state. */
    method Visit(cbs: Callbacks, i: nat, st: State, outcome: Option<StateConfig>) returns (ran: bool, replaced: bool)
      requires Valid() && Counted() && i < |order| && states[order[i]] == st
      modifies this`currentProcessingState, this`states, this`order, this`allocatedStateId, this`issued, st
      ensures Valid() && Counted()
      ensures i <= |order| && forall k :: 0 <= k < i ==> order[k] == old(order[k]) && states[order[k]] == old(states[order[k]])
      ensures ran == old(st.dirty) && replaced == (ran && outcome.Some?)
      ensures ran ==> && currentProcessingState == old(order[i]) && st.currentId == -1 && !st.dirty
                      && st.queue == AfterRun(cbs, old(st.queue), outcome.Some?)
                      && st.calls == old(st.calls) + RunCalls(cbs, old(st.queue), outcome.Some?)
      ensures !ran ==> unchanged(st)
      ensures !replaced ==> states == old(states) && order == old(order) && allocatedStateId == old(allocatedStateId)
                            && issued == old(issued) && st.active == old(st.active)
      ensures replaced ==>
                var key := Key(old(allocatedStateId) + 1);
                && !st.active && allocatedStateId == old(allocatedStateId) + 2
                && key !in old(states) && key in states && fresh(states[key])
                && states == old(states)[key := states[key]] - {old(order[i])}
                && order == Runtime.RemoveAt(old(order), i) + [key]
                && states[key].stateFunc == outcome.value.stateFunc && states[key].props == outcome.value.props
                && states[key].dirty && states[key].active && states[key].queue == []
    {
      var next;
      ran, next := RunIfDirty(cbs, order[i], st, outcome);
      replaced := next.Some?;
      if replaced {
        var key, s := Replace(i, st, next.value);
      }
    }

    /** A pass step as the pass loop sees it. */
    method Step(cbs: Callbacks, i: nat, st: State, outcome: Option<StateConfig>) returns (replaced: bool)
      requires Valid() && Counted() && i < |order| && states[order[i]] == st
      requires forall k :: 0 <= k < i ==> !states[order[k]].dirty
      modifies this`currentProcessingState, this`states, this`order, this`allocatedStateId, this`issued, st
      ensures Valid() && Counted() && allocatedStateId >= old(allocatedStateId)
      ensures replaced ==> old(st.dirty)
      ensures (if replaced then i else i + 1) <= |order|
      ensures forall k :: 0 <= k < (if replaced then i else i + 1) ==> !states[order[k]].dirty
      ensures !replaced ==> order == old(order)
      ensures forall key :: key in states ==> (key in old(states) && states[key] == old(states)[key]) || fresh(states[key])
    {
      var ran;
      ran, replaced := Visit(cbs, i, st, outcome);
      if replaced {
        Runtime.RemoveAtMembers(old(order), i);
      }
    }

    /** `run()`: one pass over the registered states in insertion order,
        successors included. `outcomes` lists, in order, what the state
        functions of the dirty states return; the pass stops early
        (`exhausted`) if it needs more of them. Otherwise no registered
        state is left dirty. */
    method RunPass(cbs: Callbacks, outcomes: seq<Option<StateConfig>>) returns (exhausted: bool)
      requires Valid() && Counted()
      modifies this`scheduled, this`currentProcessingState, this`states, this`order, this`allocatedStateId, this`issued
      modifies Registered()
      ensures Valid() && Counted() && !scheduled && allocatedStateId >= old(allocatedStateId)
      ensures !exhausted ==> forall key :: key in states ==> !states[key].dirty
    {
      scheduled := false;
      exhausted := false;
      var i := 0;
      var used := 0;
      while i < |order|
        invariant Valid() && Counted() && !scheduled && i <= |order| && used <= |outcomes|
        invariant allocatedStateId >= old(allocatedStateId)
        invariant forall k :: 0 <= k < i ==> !states[order[k]].dirty
        invariant forall key :: key in states ==> (key in old(states) && states[key] == old(states)[key]) || fresh(states[key])
        decreases |outcomes| - used, |order| - i
      {
        var state := states[order[i]];
        var outcome: Option<StateConfig> := None;
        if state.dirty {
          if used == |outcomes| {
            exhausted := true;
            return;
          }
          outcome := outcomes[used];
          used := used + 1;
        }
        var replaced := Step(cbs, i, state, outcome);
        if !replaced {
          i := i + 1;
        }
      }
      forall key | key in states ensures !states[key].dirty {
        var k :| 0 <= k < |order| && order[k] == key;
      }
    }
  }

  // ---------------------------------------------------------------------
  // Hooks

  /** The objects a hook call may change: the processing state, if any. */
  function ProcessingFrame(m: Machine): set<State>
    reads m`states, m`currentProcessingState
  {
    if m.currentProcessingState in m.states then {m.states[m.currentProcessingState]} else {}
  }

  /** The setter closure: the process and its slot index. */
  datatype LocalSetter = LocalSetter(state: State, slot: nat)

  /** `useLocalState(value)`: `getNext` on a slot that exists (ignoring
      `value`), else `setNext` of a slot seeded with `value`. */
  method UseLocalState(m: Machine, value: Value) returns (r: Result<(Value, LocalSetter)>)
    requires forall p | p in ProcessingFrame(m) :: p.Valid()
    modifies ProcessingFrame(m)`currentId, ProcessingFrame(m)`queue
    ensures m.GetProcessingState().None? ==> r == Err(PlainError(LocalStateOutsideMessage))
    ensures m.GetProcessingState().Some? ==>
              var p := m.GetProcessingState().value;
              && p.Valid() && p.currentId == old(p.currentId) + 1 && 0 <= p.currentId <= old(|p.queue|)
              && p.queue == HookSlots.Allocate(old(p.queue), p.currentId, Runtime.LocalStateHook(value))
              && var slot := HookSlots.Slot(old(p.queue), p.currentId, Runtime.LocalStateHook(value));
              && (slot.Err? ==> r == Err(slot.error))
              && (slot.Ok? ==> slot.value.LocalStateHook? && r == Ok((slot.value.value, LocalSetter(p, p.currentId))))
  {
    var current := m.GetProcessingState();
    if current.None? {
      return Err(PlainError(LocalStateOutsideMessage));
    }
    var p := current.value;
    if p.IsNextAdded() {
      var slot := p.GetNext(Runtime.LOCAL_STATE);
      if slot.Err? {
        return Err(slot.error);
      }
      return Ok((slot.value.value, LocalSetter(p, p.currentId)));
    }
    p.SetNext(Runtime.LocalStateHook(value));
    r := Ok((value, LocalSetter(p, p.currentId)));
  }

  /** Calling the setter: nothing once the state is inactive; otherwise
      the new value, computed from the current one for an updater, is
      stored and the state marked dirty iff it differs
      (`UseStates.SetterRule` with `active` as the gate). */
  method SetLocalState(cbs: Callbacks, s: LocalSetter, arg: UseStates.SetArgument)
    requires s.slot < |s.state.queue| && s.state.queue[s.slot].LocalStateHook?
    modifies s.state`queue, s.state`dirty, s.state.machine`scheduled, s.state`calls
    ensures var (h, dirtied) := UseStates.SetResult(cbs, old(s.state.queue[s.slot]), arg, s.state.active);
            && s.state.queue == old(s.state.queue)[s.slot := h]
            && s.state.dirty == (old(s.state.dirty) || dirtied)
            && s.state.machine.scheduled == (old(s.state.machine.scheduled) || dirtied)
            && s.state.calls == old(s.state.calls) + (if s.state.active && arg.Updater? then [Updated(arg.f)] else [])
  {
    var st := s.state;
    if !st.active {
      return;
    }
    var h := st.queue[s.slot];
    if arg.Updater? {
      st.calls := st.calls + [Updated(arg.f)];
    }
    var v := UseStates.NextValue(cbs, arg, h.value);
    if v != h.value {
      st.MarkDirty();
      st.queue := st.queue[s.slot := Runtime.LocalStateHook(v)];
    }
  }

  /** The slot a first `useSideEffect` call creates: the effect pending
      and the dependencies stored at once. */
  function NewSideEffectSlot(effect: Effect, deps: Deps): Hook
  {
    Runtime.EffectHook(Some(effect), None, deps)
  }

  /** Storing the dependencies at creation: the first call always runs
      the effect, and a second call with an equal dependency list leaves
      the slot as the first run left it, so the effect does not rerun. */
  lemma {:induction false} CreationStoresDeps(cbs: Callbacks, effect: Effect, again: Effect, deps: seq<Value>)
    ensures Runtime.PendingEffect(NewSideEffectSlot(effect, Some(deps)))
    ensures var ran := Runtime.AfterEffect(cbs, NewSideEffectSlot(effect, Some(deps)));
            && UseEffects.EffectSlot(ran, again, Some(deps)) == ran
            && !Runtime.PendingEffect(UseEffects.EffectSlot(ran, again, Some(deps)))
            && UseSideEffects.CleanupCallsOf(ran, Some(deps)) == []
  {
    UnchangedDepsReflexive(Some(deps));
  }

  /** `useSideEffect(effectFunc, deps)`: a new slot stores the effect and
      the dependencies; on an existing slot unchanged dependencies change
      nothing, and changed ones store the new effect and dependencies and
      call the old cleanup on the spot. */
  method UseSideEffect(m: Machine, effect: Effect, deps: Deps) returns (r: Result<()>)
    requires forall p | p in ProcessingFrame(m) :: p.Valid()
    modifies ProcessingFrame(m)`currentId, ProcessingFrame(m)`queue, ProcessingFrame(m)`calls
    ensures m.GetProcessingState().None? ==> r == Err(PlainError(SideEffectOutsideMessage))
    ensures m.GetProcessingState().Some? ==>
              var p := m.GetProcessingState().value;
              && p.Valid() && p.currentId == old(p.currentId) + 1 && 0 <= p.currentId <= old(|p.queue|)
              && (p.currentId == old(|p.queue|) ==>
                    r == Ok(()) && p.queue == old(p.queue) + [NewSideEffectSlot(effect, deps)] && p.calls == old(p.calls))
              && (p.currentId < old(|p.queue|) && !old(p.queue)[p.currentId].EffectHook? ==>
                    r == Err(PlainError(Runtime.MismatchedHookMessage)) && p.queue == old(p.queue) && p.calls == old(p.calls))
              && (p.currentId < old(|p.queue|) && old(p.queue)[p.currentId].EffectHook? ==>
                    var h := old(p.queue)[p.currentId];
                    && r == Ok(())
                    && p.queue == old(p.queue)[p.currentId := UseEffects.EffectSlot(h, effect, deps)]
                    && p.calls == old(p.calls) + UseSideEffects.CleanupCallsOf(h, deps))
  {
    var current := m.GetProcessingState();
    if current.None? {
      return Err(PlainError(SideEffectOutsideMessage));
    }
    var p := current.value;
    if p.IsNextAdded() {
      var slot := p.GetNext(Runtime.EFFECT);
      if slot.Err? {
        return Err(slot.error);
      }
      var h := slot.value;
      if UnchangedDeps(h.deps, deps) {
        return Ok(());
      }
      if h.cleanupFunc.Some? {
        p.calls := p.calls + [RanCleanup(h.cleanupFunc.value)];
      }
      p.queue := p.queue[p.currentId := Runtime.EffectHook(Some(effect), None, deps)];
      return Ok(());
    }
    p.SetNext(NewSideEffectSlot(effect, deps));
    r := Ok(());
  }

  /** `run(state, props)`: the state is registered under a fresh key and
      a pass becomes pending. */
  method Run(m: Machine, f: StateFunc, props: Value)
    requires m.Valid() && m.Counted()
    modifies m`states, m`order, m`allocatedStateId, m`issued, m`scheduled
    ensures m.Valid() && m.Counted() && m.scheduled && m.allocatedStateId == old(m.allocatedStateId) + 2
    ensures var key := Key(old(m.allocatedStateId) + 1);
            && key !in old(m.states) && key in m.states && fresh(m.states[key])
            && m.states == old(m.states)[key := m.states[key]] && m.order == old(m.order) + [key]
            && m.states[key].stateFunc == f && m.states[key].props == props && m.states[key].dirty
  {
    var key, state := m.AddStateFromConfig(NewState(f, props));
    m.Schedule();
  }
}

=== FILE: runtime.dfy ===
/**
 * The current runtime: the process record of src/state.ts with its hook
 * slot queue, the subscription book of src/eventManager.ts and the
 * scheduler of src/stateMachine.ts. The three classes refer to one
 * another (a state marks its machine as scheduled, the machine owns the
 * event manager, the event manager triggers states), so they share one
 * module.
 */
module Runtime {
  import opened Values
  import opened Utils
  import opened ChainIds
  import opened ImmutableMaps
  import opened Events
  import StateConfigs

  // ---------------------------------------------------------------------
  // Hook slots

  /** The tag of a slot. `STATE`, `MEMO` and `REF` are used by the hook
      files but missing from the enum in src/hook.ts; each gets its own
      tag here. */
  datatype HookType = EFFECT | STATE | LOCAL_STATE | EVENT | MEMO | COMPUTED | REF | STORED | NAMED_EVENT | NESTED_STATE

  /** The mutable `{ current }` object `useRef` and `useStored` return. */
  class Cell {
    var current: Value

    constructor (initial: Value)
      ensures current == initial
    {
      current := initial;
    }

    /** Writing `ref.current`: only the cell changes. */
    method Write(v: Value)
      modifies this
      ensures current == v
    {
      current := v;
    }
  }

  /** The two errors of `getHook`. */
  const MissingHookMessage := "trying to access hooks that doesn't exist. This might be caused by hooks used inside conditionals or loops"
  const MismatchedHookMessage := "trying to access hook but got mismatched hook type. This might be caused by hooks used inside conditionals or loops"

  /** One slot of a process's hook queue. A state hook's setter is the
      pair (process, slot index) and is not stored. The last two kinds
      belong to the earlier generation in state.ts: an event slot keyed by
      the event's name, and the slot of `useNested`. */
  datatype Hook =
    | EffectHook(effectFunc: Option<Effect>, cleanupFunc: Option<Cleanup>, deps: Deps)
    | StateHook(value: Value)
    | LocalStateHook(value: Value)
    | EventHook(event: EventImpl, eventData: Value, eventTriggered: bool)
    | MemoHook(memo: Value, deps: Deps)
    | ComputedHook(memo: Value, deps: Deps)
    | RefHook(ref: Cell)
    | StoredHook(ref: Cell)
    | NamedEventHook(eventName: string, eventData: Value, eventTriggered: bool)
    | NestedStateHook(chainId: Option<string>)
  {
    function Type(): HookType
    {
      match this
      case EffectHook(_, _, _) => EFFECT
      case StateHook(_) => STATE
      case LocalStateHook(_) => LOCAL_STATE
      case EventHook(_, _, _) => EVENT
      case MemoHook(_, _) => MEMO
      case ComputedHook(_, _) => COMPUTED
      case RefHook(_) => REF
      case StoredHook(_) => STORED
      case NamedEventHook(_, _, _) => NAMED_EVENT
      case NestedStateHook(_) => NESTED_STATE
    }
  }

  /** The lifecycle values of src/stateLifecycle.ts. No shown code moves a
      process between them; the state setters only read the field. */
  datatype Lifecycle = Idle | Running | SideEffect | CleaningUp | Transitioning | Canceling | Ended

  /** The `console.warn` messages, kept as a ghost log. */
  datatype Warning = DirtyDuringRun | InconsistentHooks | SubscribeOutsideState

  /** `getDebugInfo()`. */
  datatype DebugInfo = DebugInfo(chainId: string, dirty: bool, props: Value,
                                 hookCount: Option<int>, labelName: Option<string>)

  // ---------------------------------------------------------------------
  // What the queue loops do, slot by slot

  /** An event slot listening to `ref` whose pipeline accepts `data`. */
  predicate SlotMatches(cbs: Callbacks, h: Hook, ref: EventRef, data: Value)
  {
    h.EventHook? && h.event.ref == ref && ProcessSpec(cbs, h.event.processors, data).0
  }

  /** `maybeTriggerEvent` on one slot: a matching slot records the
      processed data and the trigger flag; every other slot is kept. */
  function TriggerSlot(cbs: Callbacks, h: Hook, ref: EventRef, data: Value): Hook
  {
    if SlotMatches(cbs, h, ref, data)
    then EventHook(h.event, ProcessSpec(cbs, h.event.processors, data).1, true)
    else h
  }

  function TriggerAll(cbs: Callbacks, q: seq<Hook>, ref: EventRef, data: Value): (r: seq<Hook>)
    ensures |r| == |q|
    ensures forall i :: 0 <= i < |q| ==> r[i] == TriggerSlot(cbs, q[i], ref, data)
  {
    seq(|q|, i requires 0 <= i < |q| => TriggerSlot(cbs, q[i], ref, data))
  }

  predicate AnyMatches(cbs: Callbacks, q: seq<Hook>, ref: EventRef, data: Value)
  {
    exists i :: 0 <= i < |q| && SlotMatches(cbs, q[i], ref, data)
  }

  /** The loop of `maybeTriggerEvent` over a hook queue: every event slot
      listening to `ref` runs its pipeline on `data` and records the
      result if the pipeline accepts it. */
  method TriggerQueue(cbs: Callbacks, queue: seq<Hook>, ref: EventRef, data: Value)
    returns (q: seq<Hook>, triggered: bool)
    ensures q == TriggerAll(cbs, queue, ref, data)
    ensures triggered <==> AnyMatches(cbs, queue, ref, data)
  {
    triggered := false;
    q := queue;
    var i := 0;
    while i < |q|
      invariant 0 <= i <= |q| == |queue|
      invariant forall j :: 0 <= j < i ==> q[j] == TriggerSlot(cbs, queue[j], ref, data)
      invariant forall j :: i <= j < |q| ==> q[j] == queue[j]
      invariant triggered <==> exists j :: 0 <= j < i && SlotMatches(cbs, queue[j], ref, data)
    {
      var hook := q[i];
      if hook.EventHook? && hook.event.ref == ref {
        var matched, processed := hook.event.Process(cbs, data);
        triggered := triggered || matched;
        if matched {
          q := q[i := EventHook(hook.event, processed, true)];
        }
      }
      i := i + 1;
    }
  }

  /** Only matching slots change, and each of them ends up triggered with
      the data its pipeline produced. */
  lemma TriggerOnlyMatching(cbs: Callbacks, q: seq<Hook>, ref: EventRef, data: Value, i: nat)
    requires i < |q|
    ensures TriggerAll(cbs, q, ref, data)[i] != q[i] ==> SlotMatches(cbs, q[i], ref, data)
    ensures SlotMatches(cbs, q[i], ref, data) ==>
              TriggerAll(cbs, q, ref, data)[i].eventTriggered &&
              TriggerAll(cbs, q, ref, data)[i].eventData == ProcessSpec(cbs, q[i].event.processors, data).1 &&
              TriggerAll(cbs, q, ref, data)[i].event == q[i].event
    ensures TriggerAll(cbs, q, ref, data)[i].Type() == q[i].Type()
  {
  }

  predicate PendingEffect(h: Hook)
  {
    h.EffectHook? && h.effectFunc.Some?
  }

  predicate StoredCleanup(h: Hook)
  {
    h.EffectHook? && h.cleanupFunc.Some?
  }

  /** `runEffects` on one slot: a pending effect is run and cleared; a
      cleanup it returns replaces the stored one. */
  function AfterEffect(cbs: Callbacks, h: Hook): Hook
  {
    if !PendingEffect(h) then h
    else
      var returned := cbs.EffectResult(h.effectFunc.value);
      h.(effectFunc := None, cleanupFunc := if returned.Some? then returned else h.cleanupFunc)
  }

  function AfterEffects(cbs: Callbacks, q: seq<Hook>): (r: seq<Hook>)
    ensures |r| == |q|
    ensures forall i :: 0 <= i < |q| ==> r[i] == AfterEffect(cbs, q[i])
  {
    seq(|q|, i requires 0 <= i < |q| => AfterEffect(cbs, q[i]))
  }

  /** The effects `runEffects` calls, in queue order. */
  function EffectCalls(q: seq<Hook>): seq<Call>
    decreases |q|
  {
    if q == [] then []
    else
      var last := q[|q| - 1];
      EffectCalls(q[..|q| - 1]) + (if PendingEffect(last) then [RanEffect(last.effectFunc.value)] else [])
  }

  /** `runCleanup` on one slot: a stored cleanup is called and cleared. */
  function AfterCleanup(h: Hook): Hook
  {
    if StoredCleanup(h) then h.(cleanupFunc := None) else h
  }

  function AfterCleanups(q: seq<Hook>): (r: seq<Hook>)
    ensures |r| == |q|
    ensures forall i :: 0 <= i < |q| ==> r[i] == AfterCleanup(q[i])
  {
    seq(|q|, i requires 0 <= i < |q| => AfterCleanup(q[i]))
  }

  /** The cleanups `runCleanup` calls, in queue order. */
  function CleanupCalls(q: seq<Hook>): seq<Call>
    decreases |q|
  {
    if q == [] then []
    else
      var last := q[|q| - 1];
      CleanupCalls(q[..|q| - 1]) + (if StoredCleanup(last) then [RanCleanup(last.cleanupFunc.value)] else [])
  }

  /** Every call `runEffects` makes is of an effect pending in the queue,
      and a queue without pending effects calls nothing. */
  lemma {:induction false} EffectCallsArePending(q: seq<Hook>)
    ensures forall c :: c in EffectCalls(q) ==>
              exists i :: 0 <= i < |q| && PendingEffect(q[i]) && c == RanEffect(q[i].effectFunc.value)
    ensures (forall i :: 0 <= i < |q| ==> !PendingEffect(q[i])) ==> EffectCalls(q) == []
    ensures |EffectCalls(q)| <= |q|
    decreases |q|
  {
    if q != [] {
      var front := q[..|q| - 1];
      EffectCallsArePending(front);
      forall c | c in EffectCalls(q)
        ensures exists i :: 0 <= i < |q| && PendingEffect(q[i]) && c == RanEffect(q[i].effectFunc.value)
      {
        if c in EffectCalls(front) {
          var i :| 0 <= i < |front| && PendingEffect(front[i]) && c == RanEffect(front[i].effectFunc.value);
          assert q[i] == front[i];
        } else {
          assert PendingEffect(q[|q| - 1]);
        }
      }
      if forall i :: 0 <= i < |q| ==> !PendingEffect(q[i]) {
        assert forall i :: 0 <= i < |front| ==> front[i] == q[i];
      }
    }
  }

  /** Every call `runCleanup` makes is of a cleanup stored in the queue,
      and a queue without stored cleanups calls nothing. */
  lemma {:induction false} CleanupCallsAreStored(q: seq<Hook>)
    ensures forall c :: c in CleanupCalls(q) ==>
              exists i :: 0 <= i < |q| && StoredCleanup(q[i]) && c == RanCleanup(q[i].cleanupFunc.value)
    ensures (forall i :: 0 <= i < |q| ==> !StoredCleanup(q[i])) ==> CleanupCalls(q) == []
    ensures |CleanupCalls(q)| <= |q|
    decreases |q|
  {
    if q != [] {
      var front := q[..|q| - 1];
      CleanupCallsAreStored(front);
      forall c | c in CleanupCalls(q)
        ensures exists i :: 0 <= i < |q| && StoredCleanup(q[i]) && c == RanCleanup(q[i].cleanupFunc.value)
      {
        if c in CleanupCalls(front) {
          var i :| 0 <= i < |front| && StoredCleanup(front[i]) && c == RanCleanup(front[i].cleanupFunc.value);
          assert q[i] == front[i];
        } else {
          assert StoredCleanup(q[|q| - 1]);
        }
      }
      if forall i :: 0 <= i < |q| ==> !StoredCleanup(q[i]) {
        assert forall i :: 0 <= i < |front| ==> front[i] == q[i];
      }
    }
  }

  /** After `runEffects` no effect is pending, so running it again calls
      nothing; slot tags never change. */
  lemma RunEffectsTwiceCallsNothing(cbs: Callbacks, q: seq<Hook>)
    ensures forall i :: 0 <= i < |q| ==> !PendingEffect(AfterEffects(cbs, q)[i])
    ensures forall i :: 0 <= i < |q| ==> AfterEffects(cbs, q)[i].Type() == q[i].Type()
    ensures EffectCalls(AfterEffects(cbs, q)) == []
  {
    EffectCallsArePending(AfterEffects(cbs, q));
  }

  /** After `runCleanup` no cleanup is stored, so a second `runCleanup`
      calls nothing. */
  lemma RunCleanupTwiceCallsNothing(q: seq<Hook>)
    ensures forall i :: 0 <= i < |q| ==> !StoredCleanup(AfterCleanups(q)[i])
    ensures forall i :: 0 <= i < |q| ==> AfterCleanups(q)[i].Type() == q[i].Type()
    ensures CleanupCalls(AfterCleanups(q)) == []
  {
    CleanupCallsAreStored(AfterCleanups(q));
  }

  /** The effect loop over a hook queue, shared by `runEffects` here and
      by `run()` in state.ts and restate.ts: the new queue and the calls
      made, in order. */
  method RunEffectsLoop(cbs: Callbacks, queue: seq<Hook>) returns (q: seq<Hook>, made: seq<Call>)
    ensures q == AfterEffects(cbs, queue) && made == EffectCalls(queue)
  {
    q := queue;
    made := [];
    var i := 0;
    while i < |q|
      invariant 0 <= i <= |q| == |queue|
      invariant forall j :: 0 <= j < i ==> q[j] == AfterEffect(cbs, queue[j])
      invariant forall j :: i <= j < |q| ==> q[j] == queue[j]
      invariant made == EffectCalls(queue[..i])
    {
      assert queue[..i + 1][..i] == queue[..i];
      var hook := q[i];
      if hook.EffectHook? && hook.effectFunc.Some? {
        var returned := cbs.EffectResult(hook.effectFunc.value);
        made := made + [RanEffect(hook.effectFunc.value)];
        if returned.Some? {
          hook := hook.(cleanupFunc := returned);
        }
        q := q[i := hook.(effectFunc := None)];
      }
      i := i + 1;
    }
    assert queue[..i] == queue;
  }

  /** The cleanup loop over a hook queue, shared by `runCleanup` here,
      `cleanup()` in state.ts and the transition branch of `run()` in
      restate.ts. */
  method RunCleanupLoop(queue: seq<Hook>) returns (q: seq<Hook>, made: seq<Call>)
    ensures q == AfterCleanups(queue) && made == CleanupCalls(queue)
  {
    q := queue;
    made := [];
    var i := 0;
    while i < |q|
      invariant 0 <= i <= |q| == |queue|
      invariant forall j :: 0 <= j < i ==> q[j] == AfterCleanup(queue[j])
      invariant forall j :: i <= j < |q| ==> q[j] == queue[j]
      invariant made == CleanupCalls(queue[..i])
    {
      assert queue[..i + 1][..i] == queue[..i];
      var hook := q[i];
      if hook.EffectHook? && hook.cleanupFunc.Some? {
        made := made + [RanCleanup(hook.cleanupFunc.value)];
        q := q[i := hook.(cleanupFunc := None)];
      }
      i := i + 1;
    }
    assert queue[..i] == queue;
  }

  // ---------------------------------------------------------------------
  // Subscriptions, as two maps of sets

  function StatesIn(e2s: map<EventRef, set<State>>, r: EventRef): set<State>
  {
    if r in e2s then e2s[r] else {}
  }

  function EventsIn(s2e: map<State, set<EventRef>>, s: State): set<EventRef>
  {
    if s in s2e then s2e[s] else {}
  }

  /** `s` is in the state set of `r` exactly when `r` is in the event set
      of `s`. */
  ghost predicate ConsistentMaps(e2s: map<EventRef, set<State>>, s2e: map<State, set<EventRef>>)
  {
    && (forall r, s :: r in e2s && s in e2s[r] ==> r in EventsIn(s2e, s))
    && (forall s, r :: s in s2e && r in s2e[s] ==> s in StatesIn(e2s, r))
  }

  /** The two-way reading of `ConsistentMaps`. */
  lemma ConsistentIff(e2s: map<EventRef, set<State>>, s2e: map<State, set<EventRef>>)
    ensures ConsistentMaps(e2s, s2e) <==> forall r, s :: s in StatesIn(e2s, r) <==> r in EventsIn(s2e, s)
  {
    if ConsistentMaps(e2s, s2e) {
      forall r, s ensures s in StatesIn(e2s, r) <==> r in EventsIn(s2e, s) {
        if s in StatesIn(e2s, r) { assert r in e2s && s in e2s[r]; }
        if r in EventsIn(s2e, s) { assert s in s2e && r in s2e[s]; }
      }
    }
    if forall r, s :: s in StatesIn(e2s, r) <==> r in EventsIn(s2e, s) {
      forall r, s | r in e2s && s in e2s[r] ensures r in EventsIn(s2e, s) {
        assert s in StatesIn(e2s, r);
      }
      forall s, r | s in s2e && r in s2e[s] ensures s in StatesIn(e2s, r) {
        assert r in EventsIn(s2e, s);
      }
    }
  }

  /** The event-to-states map after `subscribe(event, s)`. */
  function SubscribeE2S(e2s: map<EventRef, set<State>>, r: EventRef, s: State): map<EventRef, set<State>>
  {
    e2s[r := StatesIn(e2s, r) + {s}]
  }

  /** The state-to-events map after `subscribe(event, s)`. */
  function SubscribeS2E(s2e: map<State, set<EventRef>>, r: EventRef, s: State): map<State, set<EventRef>>
  {
    s2e[s := EventsIn(s2e, s) + {r}]
  }

  /** The event-to-states map after `unsubscribe(s)`: `s` leaves the state
      set of every event it was subscribed to (`getStateSet` creates a set
      for an event that had none). */
  function UnsubscribeE2S(e2s: map<EventRef, set<State>>, s2e: map<State, set<EventRef>>, s: State): map<EventRef, set<State>>
  {
    RemoveFrom(e2s, EventsIn(s2e, s), s)
  }

  /** `e2s` with `s` taken out of the state set of every ref in `refs`. */
  function RemoveFrom(e2s: map<EventRef, set<State>>, refs: set<EventRef>, s: State): map<EventRef, set<State>>
  {
    map r | r in e2s.Keys + refs :: if r in refs then StatesIn(e2s, r) - {s} else e2s[r]
  }

  lemma UpdateTwice<K, V>(m: map<K, V>, k: K, a: V, b: V)
    ensures m[k := a][k := b] == m[k := b]
  {
  }

  /** Taking `s` out of one more ref's state set. */
  lemma RemoveFromStep(e2s: map<EventRef, set<State>>, refs: set<EventRef>, r: EventRef, s: State)
    requires r !in refs
    ensures RemoveFrom(e2s, refs + {r}, s) ==
              RemoveFrom(e2s, refs, s)[r := StatesIn(RemoveFrom(e2s, refs, s), r) - {s}]
  {
    var a, b := RemoveFrom(e2s, refs + {r}, s), RemoveFrom(e2s, refs, s)[r := StatesIn(RemoveFrom(e2s, refs, s), r) - {s}];
    assert a.Keys == b.Keys;
    forall k | k in a ensures a[k] == b[k] {
    }
  }

  /** Subscribing records both directions. */
  lemma SubscribeRecordsBoth(e2s: map<EventRef, set<State>>, s2e: map<State, set<EventRef>>, r: EventRef, s: State)
    ensures s in StatesIn(SubscribeE2S(e2s, r, s), r) && r in EventsIn(SubscribeS2E(s2e, r, s), s)
    ensures forall r' :: r' != r ==> StatesIn(SubscribeE2S(e2s, r, s), r') == StatesIn(e2s, r')
    ensures forall s' :: s' != s ==> EventsIn(SubscribeS2E(s2e, r, s), s') == EventsIn(s2e, s')
  {
  }

  /** Subscribing twice is subscribing once. */
  lemma SubscribeIdempotent(e2s: map<EventRef, set<State>>, s2e: map<State, set<EventRef>>, r: EventRef, s: State)
    ensures SubscribeE2S(SubscribeE2S(e2s, r, s), r, s) == SubscribeE2S(e2s, r, s)
    ensures SubscribeS2E(SubscribeS2E(s2e, r, s), r, s) == SubscribeS2E(s2e, r, s)
  {
    assert StatesIn(e2s, r) + {s} + {s} == StatesIn(e2s, r) + {s};
    assert EventsIn(s2e, s) + {r} + {r} == EventsIn(s2e, s) + {r};
  }

  lemma SubscribeKeepsConsistent(e2s: map<EventRef, set<State>>, s2e: map<State, set<EventRef>>, r: EventRef, s: State)
    requires ConsistentMaps(e2s, s2e)
    ensures ConsistentMaps(SubscribeE2S(e2s, r, s), SubscribeS2E(s2e, r, s))
  {
    var e2s', s2e' := SubscribeE2S(e2s, r, s), SubscribeS2E(s2e, r, s);
    ConsistentIff(e2s, s2e);
    forall r', s' ensures s' in StatesIn(e2s', r') <==> r' in EventsIn(s2e', s') {
      assert s' in StatesIn(e2s, r') <==> r' in EventsIn(s2e, s');
    }
    ConsistentIff(e2s', s2e');
  }

  /** After `unsubscribe(s)`, every event's state set is the old one
      without `s`, `s` is listening to no event, and every other state
      listens to the same events as before. */
  lemma UnsubscribeClears(e2s: map<EventRef, set<State>>, s2e: map<State, set<EventRef>>, s: State)
    requires ConsistentMaps(e2s, s2e)
    ensures forall r :: StatesIn(UnsubscribeE2S(e2s, s2e, s), r) == StatesIn(e2s, r) - {s}
    ensures forall r :: s !in StatesIn(UnsubscribeE2S(e2s, s2e, s), r)
    ensures EventsIn(s2e - {s}, s) == {}
    ensures forall t :: t != s ==> EventsIn(s2e - {s}, t) == EventsIn(s2e, t)
  {
    forall r ensures StatesIn(UnsubscribeE2S(e2s, s2e, s), r) == StatesIn(e2s, r) - {s} {
      if r in e2s && r !in EventsIn(s2e, s) {
        assert s !in StatesIn(e2s, r);
      }
    }
  }

  lemma UnsubscribeKeepsConsistent(e2s: map<EventRef, set<State>>, s2e: map<State, set<EventRef>>, s: State)
    requires ConsistentMaps(e2s, s2e)
    ensures ConsistentMaps(UnsubscribeE2S(e2s, s2e, s), s2e - {s})
  {
    UnsubscribeClears(e2s, s2e, s);
    ConsistentIff(e2s, s2e);
    var e2s', s2e' := UnsubscribeE2S(e2s, s2e, s), s2e - {s};
    forall r, t ensures t in StatesIn(e2s', r) <==> r in EventsIn(s2e', t) {
      if t != s {
        assert EventsIn(s2e', t) == EventsIn(s2e, t);
        assert t in StatesIn(e2s, r) <==> r in EventsIn(s2e, t);
      }
    }
    ConsistentIff(e2s', s2e');
  }

  // ---------------------------------------------------------------------
  // Configs and processes

  /** The `StateConfig` of src/state.ts; unlike src/stateConfig.ts its
      label starts out `null`. */
  class StateConfig {
    const stateFunc: StateFunc
    const props: Value
    var ambient: StateConfigs.AmbientBuilder
    var labelName: Option<string>

    ghost predicate Valid()
      reads this
    {
      ambient.Valid()
    }

    constructor (stateFunc: StateFunc, props: Value, ambient: StateConfigs.AmbientBuilder)
      ensures this.stateFunc == stateFunc && this.props == props && this.ambient == ambient
      ensures labelName == None
    {
      this.stateFunc := stateFunc;
      this.props := props;
      this.ambient := ambient;
      labelName := None;
    }

    /** `setLabel(label)`: sets the label and returns the same config. */
    method SetLabel(newLabel: string) returns (c: StateConfig)
      modifies this`labelName
      ensures c == this && labelName == Some(newLabel)
    {
      labelName := Some(newLabel);
      c := this;
    }
  }

  /** `createStateConfig(stateFunc, props, ambient)` of src/state.ts. */
  method CreateStateConfig(stateFunc: StateFunc, props: Value, ambient: StateConfigs.AmbientBuilder)
    returns (c: StateConfig)
    ensures fresh(c) && c.stateFunc == stateFunc && c.props == props && c.ambient == ambient
    ensures c.labelName == None
  {
    c := new StateConfig(stateFunc, props, ambient);
  }

  /** The process record: one running state function and its hook slots. */
  class State {
    const chainId: string
    const stateFunc: StateFunc
    const props: Value
    const labelName: Option<string>
    /** Reassigned by the ambient manager when it re-parents the chain. */
    var ambient: StateConfigs.AmbientBuilder
    var queue: seq<Hook>
    var currentId: int
    const machine: MachineImpl
    var dirty: bool
    var active: bool
    var recordedHookId: Option<int>
    var lifecycle: Lifecycle
    var pendingCancel: bool
    /** Cleanups handed over by `useEffect` through `addCleanup`. */
    var pendingCleanups: seq<Cleanup>
    /** The state this one was nested under, if any. */
    const parentState: State?
    /** Every user callback this process has invoked, oldest first. */
    ghost var calls: seq<Call>
    ghost var warnings: seq<Warning>

    /** The hook index never falls below its reset value, and the slot it
        points at (if any) is filled: the state between two hook calls. */
    ghost predicate Valid()
      reads this
    {
      ambient.Valid() && -1 <= currentId < |queue|
    }

    /** `new State(machine, config, stateKey, ambientState)`; the parent
        link is the one the scheduler passes on to a successor. */
    constructor (machine: MachineImpl, config: StateConfig, stateKey: string,
                 ambientState: State?, parentState: State?)
      requires config.Valid()
      requires ambientState != null ==> ambientState.ambient.Valid()
      ensures this.machine == machine && chainId == stateKey && this.parentState == parentState
      ensures stateFunc == config.stateFunc && props == config.props && labelName == config.labelName
      ensures Valid()
      ensures ambientState == null ==> ambient == config.ambient
      ensures ambientState != null ==>
                ambient.Contents() == ambientState.ambient.Contents() + config.ambient.Contents()
      ensures queue == [] && currentId == -1 && dirty && active && recordedHookId == None
      ensures lifecycle == Idle && !pendingCancel && pendingCleanups == []
      ensures calls == [] && warnings == []
    {
      var chosen := config.ambient;
      if ambientState != null {
        chosen := config.ambient.SetParent(ambientState.ambient);
      }
      this.machine := machine;
      chainId := stateKey;
      stateFunc := config.stateFunc;
      props := config.props;
      labelName := config.labelName;
      ambient := chosen;
      queue := [];
      currentId := -1;
      dirty := true;
      active := true;
      recordedHookId := None;
      lifecycle := Idle;
      pendingCancel := false;
      pendingCleanups := [];
      this.parentState := parentState;
      calls := [];
      warnings := [];
    }

    /** `isHookAdded()`: the slot at the current index is defined. */
    predicate IsHookAdded()
      reads this
    {
      0 <= currentId < |queue|
    }

    /** `setHook(hook)`: writes the slot at the current index, appending
        when the index is one past the end. */
    method SetHook(hook: Hook)
      requires 0 <= currentId <= |queue|
      modifies this`queue
      ensures |queue| == (if old(currentId) < old(|queue|) then old(|queue|) else old(|queue|) + 1)
      ensures queue[currentId] == hook
      ensures forall i :: 0 <= i < old(|queue|) && i != currentId ==> queue[i] == old(queue[i])
    {
      if currentId < |queue| {
        queue := queue[currentId := hook];
      } else {
        queue := queue + [hook];
      }
    }

    method IncrementHookId()
      modifies this`currentId
      ensures currentId == old(currentId) + 1
    {
      currentId := currentId + 1;
    }

    /** `recordOrCompareHookId()`: the first call records the index; every
        call reports whether the index equals the recorded one. */
    method RecordOrCompareHookId() returns (same: bool)
      modifies this`recordedHookId
      ensures old(recordedHookId).None? ==> recordedHookId == Some(currentId) && same
      ensures old(recordedHookId).Some? ==>
                recordedHookId == old(recordedHookId) && (same <==> old(recordedHookId).value == currentId)
    {
      if recordedHookId.None? {
        recordedHookId := Some(currentId);
      }
      same := recordedHookId.value == currentId;
    }

    /** `getHook(hookType)`: the slot at the current index, or the error
        for a missing slot or a slot of another type. */
    function GetHook(t: HookType): (r: Result<Hook>)
      reads this
      ensures r.Ok? <==> IsHookAdded() && queue[currentId].Type() == t
      ensures r.Ok? ==> r.value == queue[currentId]
      ensures !IsHookAdded() ==>
                r == Err(PlainError(MissingHookMessage))
      ensures IsHookAdded() && queue[currentId].Type() != t ==>
                r == Err(PlainError(MismatchedHookMessage))
    {
      if !IsHookAdded() then
        Err(PlainError(MissingHookMessage))
      else if queue[currentId].Type() != t then
        Err(PlainError(MismatchedHookMessage))
      else Ok(queue[currentId])
    }

    /** `maybeTriggerEvent(event, eventData)`: every event slot listening to
        `ref` whose pipeline accepts the data records it and is flagged;
        the process is marked dirty iff some slot matched. */
    method MaybeTriggerEvent(cbs: Callbacks, ref: EventRef, data: Value) returns (triggered: bool)
      modifies this`queue, this`dirty, machine`scheduled
      ensures queue == TriggerAll(cbs, old(queue), ref, data)
      ensures triggered <==> AnyMatches(cbs, old(queue), ref, data)
      ensures dirty == (old(dirty) || triggered)
      ensures machine.scheduled == (old(machine.scheduled) || triggered)
    {
      var q;
      q, triggered := TriggerQueue(cbs, queue, ref, data);
      queue := q;
      if triggered {
        MarkDirty();
      }
    }

    /** The first half of `run()`: the hook index and the dirty flag are
        reset before the state function is called. */
    method BeginRun()
      modifies this`currentId, this`dirty
      ensures currentId == -1 && !dirty
    {
      currentId := -1;
      dirty := false;
    }

    /** `processHookFunc(transitionConfig)`: hands back what the state
        function returned, warning when the state was marked dirty during
        the call or the hook count differs from the recorded one. */
    method ProcessHookFunc(transitionConfig: Option<StateConfig>) returns (r: Option<StateConfig>)
      modifies this`recordedHookId, this`warnings
      ensures r == transitionConfig
      ensures old(recordedHookId).None? ==> recordedHookId == Some(currentId)
      ensures old(recordedHookId).Some? ==> recordedHookId == old(recordedHookId)
      ensures warnings == old(warnings) + (if dirty then [DirtyDuringRun] else [])
                          + (if recordedHookId.value != currentId then [InconsistentHooks] else [])
    {
      if dirty {
        warnings := warnings + [DirtyDuringRun];
      }
      var same := RecordOrCompareHookId();
      if !same {
        warnings := warnings + [InconsistentHooks];
      }
      r := transitionConfig;
    }

    /** `run()` on the non-generator path, for a state function that
        returned `transitionConfig` without calling hooks in between. */
    method Run(transitionConfig: Option<StateConfig>) returns (r: Option<StateConfig>)
      modifies this`currentId, this`dirty, this`recordedHookId, this`warnings
      ensures r == transitionConfig
      ensures currentId == -1 && !dirty
      ensures old(recordedHookId).None? ==> recordedHookId == Some(-1)
      ensures old(recordedHookId).Some? ==> recordedHookId == old(recordedHookId)
      ensures warnings == old(warnings) + (if recordedHookId.value != -1 then [InconsistentHooks] else [])
    {
      BeginRun();
      r := ProcessHookFunc(transitionConfig);
    }

    /** `runEffects()`: every pending effect is called once, in queue order;
        a cleanup it returns is stored and the effect is cleared. */
    method RunEffects(cbs: Callbacks)
      modifies this`queue, this`calls
      ensures queue == AfterEffects(cbs, old(queue))
      ensures calls == old(calls) + EffectCalls(old(queue))
    {
      var q, made := RunEffectsLoop(cbs, queue);
      queue := q;
      calls := calls + made;
    }

    /** `runCleanup()`: every stored cleanup is called once, in queue
        order, and cleared. */
    method RunCleanup()
      modifies this`queue, this`calls
      ensures queue == AfterCleanups(old(queue))
      ensures calls == old(calls) + CleanupCalls(old(queue))
    {
      var q, made := RunCleanupLoop(queue);
      queue := q;
      calls := calls + made;
    }

    /** `addCleanup(cleanup)`, which `useEffect` calls but src/state.ts
        does not define: the cleanup is queued for later. */
    method AddCleanup(cleanup: Cleanup)
      modifies this`pendingCleanups
      ensures pendingCleanups == old(pendingCleanups) + [cleanup]
    {
      pendingCleanups := pendingCleanups + [cleanup];
    }

    method MarkInactive()
      modifies this`active
      ensures !active
    {
      active := false;
    }

    /** `markDirty()`: flags the process and asks its machine for a pass. */
    method MarkDirty()
      modifies this`dirty, machine`scheduled
      ensures dirty && machine.scheduled
    {
      dirty := true;
      machine.Schedule();
    }

    /** `getDebugInfo()`: the hook count is one more than the recorded
        last hook index, and is left out until recorded; so is a `null`
        label. The record is a plain projection of the process's fields,
        so its contract names each field and promises nothing more. */
    function GetDebugInfo(): (info: DebugInfo)
      reads this
      ensures info.chainId == chainId && info.dirty == dirty && info.props == props
      ensures info.hookCount.Some? <==> recordedHookId.Some?
      ensures recordedHookId.Some? ==> info.hookCount.value == recordedHookId.value + 1
      ensures info.labelName == labelName
    {
      DebugInfo(chainId, dirty, props,
                if recordedHookId.Some? then Some(recordedHookId.value + 1) else None,
                labelName)
    }
  }

  /** `StateBuilder`: collects the constructor arguments; `build()` throws
      for a missing machine, config or id. */
  class StateBuilder {
    var machine: MachineImpl?
    var config: StateConfig?
    var id: Option<string>
    var ambientState: State?

    constructor ()
      ensures machine == null && config == null && id == None && ambientState == null
    {
      machine := null;
      config := null;
      id := None;
      ambientState := null;
    }

    /** The error `build()` throws, if any, checking machine, config and id
        in that order. */
    function BuildError(): (r: Option<Error>)
      reads this
      ensures r.None? <==> machine != null && config != null && id.Some?
      ensures machine == null ==> r == Some(PlainError("assert machine to be non-null, but is undefined"))
      ensures machine != null && config == null ==> r == Some(PlainError("assert config to be non-null, but is undefined"))
      ensures machine != null && config != null && id.None? ==> r == Some(PlainError("assert id to be non-null, but is undefined"))
    {
      if machine == null then Some(PlainError("assert machine to be non-null, but is undefined"))
      else if config == null then Some(PlainError("assert config to be non-null, but is undefined"))
      else if id.None? then Some(PlainError("assert id to be non-null, but is undefined"))
      else None
    }

    /** `build()`. */
    method Build() returns (r: Result<State>)
      requires config != null ==> config.Valid()
      requires ambientState != null ==> ambientState.ambient.Valid()
      ensures r.Err? <==> BuildError().Some?
      ensures r.Err? ==> r.error == BuildError().value
      ensures r.Ok? ==> fresh(r.value) && r.value.machine == machine && r.value.chainId == id.value
      ensures r.Ok? ==> r.value.stateFunc == config.stateFunc && r.value.props == config.props
      ensures r.Ok? ==> r.value.Valid()
      ensures r.Ok? && ambientState == null ==> r.value.ambient == config.ambient
      ensures r.Ok? && ambientState != null ==>
                r.value.ambient.Contents() == ambientState.ambient.Contents() + config.ambient.Contents()
      ensures r.Ok? ==> r.value.Valid() && r.value.dirty && r.value.active && r.value.queue == []
    {
      var err := BuildError();
      if err.Some? {
        return Err(err.value);
      }
      var s := new State(machine, config, id.value, ambientState, null);
      r := Ok(s);
    }
  }

  // ---------------------------------------------------------------------
  // The subscription book

  class EventManager {
    var eventToStateMap: map<EventRef, set<State>>
    var stateToEventMap: map<State, set<EventRef>>

    ghost predicate Consistent()
      reads this`eventToStateMap, this`stateToEventMap
    {
      ConsistentMaps(eventToStateMap, stateToEventMap)
    }

    function StatesOf(r: EventRef): set<State>
      reads this
    {
      StatesIn(eventToStateMap, r)
    }

    function EventsOf(s: State): set<EventRef>
      reads this
    {
      EventsIn(stateToEventMap, s)
    }

    constructor ()
      ensures eventToStateMap == map[] && stateToEventMap == map[] && Consistent()
    {
      eventToStateMap := map[];
      stateToEventMap := map[];
    }

    /** `getStateSet(eventRef)`: the states subscribed to `ref`; an unseen
        ref first gets an empty set. */
    method GetStateSet(ref: EventRef) returns (r: set<State>)
      modifies this`eventToStateMap
      ensures r == old(StatesOf(ref))
      ensures ref !in old(eventToStateMap) ==> r == {}
      ensures eventToStateMap == old(eventToStateMap)[ref := r]
      ensures old(Consistent()) ==> Consistent()
    {
      if ref !in eventToStateMap {
        eventToStateMap := eventToStateMap[ref := {}];
      }
      r := eventToStateMap[ref];
      if old(Consistent()) {
        ConsistentIff(old(eventToStateMap), stateToEventMap);
        assert forall r' :: StatesIn(eventToStateMap, r') == StatesIn(old(eventToStateMap), r');
        ConsistentIff(eventToStateMap, stateToEventMap);
      }
    }

    /** `getEventSet(state)`: the events `state` is subscribed to; an unseen
        state first gets an empty set. */
    method GetEventSet(state: State) returns (r: set<EventRef>)
      modifies this`stateToEventMap
      ensures r == old(EventsOf(state))
      ensures state !in old(stateToEventMap) ==> r == {}
      ensures stateToEventMap == old(stateToEventMap)[state := r]
      ensures old(Consistent()) ==> Consistent()
    {
      if state !in stateToEventMap {
        stateToEventMap := stateToEventMap[state := {}];
      }
      r := stateToEventMap[state];
      if old(Consistent()) {
        ConsistentIff(eventToStateMap, old(stateToEventMap));
        assert forall s' :: EventsIn(stateToEventMap, s') == EventsIn(old(stateToEventMap), s');
        ConsistentIff(eventToStateMap, stateToEventMap);
      }
    }

    /** `subscribe(event, state)`: records the subscription in both maps. */
    method Subscribe(event: EventImpl, state: State)
      requires Consistent()
      modifies this
      ensures eventToStateMap == SubscribeE2S(old(eventToStateMap), event.ref, state)
      ensures stateToEventMap == SubscribeS2E(old(stateToEventMap), event.ref, state)
      ensures Consistent()
    {
      var stateSet := GetStateSet(event.ref);
      eventToStateMap := eventToStateMap[event.ref := stateSet + {state}];
      UpdateTwice(old(eventToStateMap), event.ref, stateSet, stateSet + {state});
      var eventSet := GetEventSet(state);
      stateToEventMap := stateToEventMap[state := eventSet + {event.ref}];
      UpdateTwice(old(stateToEventMap), state, eventSet, eventSet + {event.ref});
      SubscribeKeepsConsistent(old(eventToStateMap), old(stateToEventMap), event.ref, state);
    }

    /** `unsubscribe(state)`: removes `state` from the state set of each of
        its events, then drops its event set. */
    method Unsubscribe(state: State)
      requires Consistent()
      modifies this
      ensures eventToStateMap == UnsubscribeE2S(old(eventToStateMap), old(stateToEventMap), state)
      ensures stateToEventMap == old(stateToEventMap) - {state}
      ensures Consistent()
    {
      var eventSet := GetEventSet(state);
      var rest := eventSet;
      ghost var done: set<EventRef> := {};
      assert RemoveFrom(old(eventToStateMap), {}, state) == old(eventToStateMap);
      while rest != {}
        invariant rest + done == eventSet && rest !! done
        invariant eventToStateMap == RemoveFrom(old(eventToStateMap), done, state)
        invariant stateToEventMap == old(stateToEventMap)[state := eventSet]
        decreases rest
      {
        var r :| r in rest;
        RemoveFromStep(old(eventToStateMap), done, r, state);
        ghost var before := eventToStateMap;
        var stateSet := GetStateSet(r);
        eventToStateMap := eventToStateMap[r := stateSet - {state}];
        UpdateTwice(before, r, stateSet, stateSet - {state});
        rest := rest - {r};
        done := done + {r};
      }
      stateToEventMap := stateToEventMap - {state};
      UnsubscribeKeepsConsistent(old(eventToStateMap), old(stateToEventMap), state);
    }

    /** `send(emitter, data)`: offers the data to every state subscribed to
        the emitter's ref and reports whether any of them was triggered.
        `owner` is the machine singleton the subscribed states belong to. */
    method Send(cbs: Callbacks, emitter: Emitter, data: Value, ghost owner: MachineImpl)
      returns (needToSchedule: bool)
      requires Consistent()
      requires forall s :: s in StatesOf(emitter.ref) ==> s.machine == owner
      modifies this`eventToStateMap, StatesOf(emitter.ref)`queue, StatesOf(emitter.ref)`dirty, owner`scheduled
      ensures eventToStateMap == old(eventToStateMap)[emitter.ref := old(StatesOf(emitter.ref))]
      ensures Consistent()
      ensures needToSchedule <==>
                exists s :: s in old(StatesOf(emitter.ref)) && AnyMatches(cbs, old(s.queue), emitter.ref, data)
      ensures forall s :: s in old(StatesOf(emitter.ref)) ==>
                s.queue == TriggerAll(cbs, old(s.queue), emitter.ref, data) &&
                s.dirty == (old(s.dirty) || AnyMatches(cbs, old(s.queue), emitter.ref, data))
      ensures owner.scheduled == (old(owner.scheduled) || needToSchedule)
    {
      var stateSet := GetStateSet(emitter.ref);
      needToSchedule := false;
      var rest := stateSet;
      ghost var visited: set<State> := {};
      while rest != {}
        invariant rest + visited == stateSet && rest !! visited
        invariant eventToStateMap == old(eventToStateMap)[emitter.ref := stateSet]
        invariant needToSchedule <==>
                    exists s :: s in visited && AnyMatches(cbs, old(s.queue), emitter.ref, data)
        invariant forall s :: s in visited ==>
                    s.queue == TriggerAll(cbs, old(s.queue), emitter.ref, data) &&
                    s.dirty == (old(s.dirty) || AnyMatches(cbs, old(s.queue), emitter.ref, data))
        invariant forall s :: s in rest ==> s.queue == old(s.queue) && s.dirty == old(s.dirty)
        invariant owner.scheduled == (old(owner.scheduled) || needToSchedule)
        decreases rest
      {
        var state :| state in rest;
        label Before:
        var triggered := state.MaybeTriggerEvent(cbs, emitter.ref, data);
        forall s | s in visited + rest && s != state
          ensures s.queue == old@Before(s.queue) && s.dirty == old@Before(s.dirty)
        {
        }
        if triggered {
          assert state in visited + {state} && AnyMatches(cbs, old(state.queue), emitter.ref, data);
        }
        needToSchedule := needToSchedule || triggered;
        rest := rest - {state};
        visited := visited + {state};
      }
    }
  }

  // ---------------------------------------------------------------------
  // The scheduler

  /** `order` without its element at `i`. */
  function RemoveAt(order: seq<string>, i: nat): (r: seq<string>)
    requires i < |order|
    ensures |r| == |order| - 1
  {
    order[..i] + order[i + 1..]
  }

  /** No effect slot of `q` holds a cleanup. */
  predicate NoStoredCleanup(q: seq<Hook>)
  {
    forall j :: 0 <= j < |q| ==> !StoredCleanup(q[j])
  }

  predicate NoDuplicates(order: seq<string>)
  {
    forall a, b :: 0 <= a < b < |order| ==> order[a] != order[b]
  }

  /** Removing the element at `i` of a duplicate-free sequence removes
      exactly that id. */
  lemma RemoveAtMembers(order: seq<string>, i: nat)
    requires i < |order| && NoDuplicates(order)
    ensures NoDuplicates(RemoveAt(order, i))
    ensures forall x :: x in RemoveAt(order, i) <==> x in order && x != order[i]
  {
    var r := RemoveAt(order, i);
    forall x ensures x in r <==> x in order && x != order[i] {
      if x in r {
        var k :| 0 <= k < |r| && r[k] == x;
        if k < i { assert order[k] == x; } else { assert order[k + 1] == x; }
      }
      if x in order && x != order[i] {
        var k :| 0 <= k < |order| && order[k] == x;
        if k < i { assert r[k] == x; } else { assert r[k - 1] == x; }
      }
    }
  }

  /** A pass step keeps the ids before position `i` where they were. */
  lemma KeptPrefix(before: seq<string>, after: seq<string>, i: nat)
    requires i < |before| && NoDuplicates(before)
    requires after == before || after == RemoveAt(before, i) || after == RemoveAt(before, i) + [before[i]]
    ensures forall k :: 0 <= k < i ==> k < |after| && after[k] == before[k] && before[k] != before[i]
  {
  }

  lemma NoDuplicatesTail(order: seq<string>)
    requires order != []
    ensures NoDuplicates(order) ==> NoDuplicates(order[1..]) && order[0] !in order[1..]
  {
    if NoDuplicates(order) {
      forall a, b | 0 <= a < b < |order| - 1 ensures order[1..][a] != order[1..][b] {
        assert order[1..][a] == order[a + 1] && order[1..][b] == order[b + 1];
      }
      forall k | 0 <= k < |order| - 1 ensures order[1..][k] != order[0] {
        assert order[1..][k] == order[k + 1];
      }
    }
  }

  /** `order` with every occurrence of `x` dropped. */
  function Without(order: seq<string>, x: string): (r: seq<string>)
    ensures forall y :: y in r <==> y in order && y != x
    ensures NoDuplicates(order) ==> NoDuplicates(r)
    decreases |order|
  {
    if order == [] then []
    else if order[0] == x then Without(order[1..], x)
    else
      var rest := Without(order[1..], x);
      NoDuplicatesTail(order);
      [order[0]] + rest
  }

  class MachineImpl {
    var allocatedStateId: nat
    var currentProcessingState: string
    var states: map<string, State>
    /** The insertion order of `states`, which a JS `Map` iterates in. */
    var order: seq<string>
    /** Whether a pass is pending (the `scheduled` promise is set). */
    var scheduled: bool
    const eventManager: EventManager
    ghost var warnings: seq<Warning>

    /** `order` lists the registered ids once each; every state is
        registered under its own chain id and belongs to this machine. */
    ghost predicate Registry()
      reads this`order, this`states
    {
      && NoDuplicates(order)
      && (forall id :: id in states <==> id in order)
      && (forall id :: id in states ==> states[id].chainId == id && states[id].machine == this)
    }

    /** Every subscribed state belongs to this machine. */
    ghost predicate Owns()
      reads eventManager`eventToStateMap
    {
      forall r, s :: r in eventManager.eventToStateMap && s in eventManager.eventToStateMap[r] ==> s.machine == this
    }

    ghost predicate Valid()
      reads this`order, this`states, eventManager`eventToStateMap, eventManager`stateToEventMap
    {
      Registry() && eventManager.Consistent() && Owns()
    }

    constructor ()
      ensures allocatedStateId == 0 && currentProcessingState == "" && states == map[] && order == []
      ensures !scheduled && fresh(eventManager) && warnings == []
      ensures Valid()
    {
      allocatedStateId := 0;
      currentProcessingState := "";
      states := map[];
      order := [];
      scheduled := false;
      eventManager := new EventManager();
      warnings := [];
    }

    /** `addState(state)`: registers `state` under its chain id, replacing
        an earlier entry in place or appending a new one. */
    method AddState(state: State)
      requires Registry() && state.machine == this
      modifies this`states, this`order
      ensures states == old(states)[state.chainId := state]
      ensures order == if state.chainId in old(states) then old(order) else old(order) + [state.chainId]
      ensures Registry()
    {
      if state.chainId !in states {
        order := order + [state.chainId];
      }
      states := states[state.chainId := state];
    }

    /** `getStateByChainId(id)`. */
    function GetStateByChainId(id: string): (r: Option<State>)
      reads this
      ensures r.Some? <==> id in states
      ensures r.Some? ==> r.value == states[id]
    {
      if id in states then Some(states[id]) else None
    }

    /** `getProcessingState()`: the state registered under the id being
        processed, if it is still registered. */
    function GetProcessingState(): (r: Option<State>)
      reads this
      ensures r == GetStateByChainId(currentProcessingState)
    {
      if currentProcessingState in states then Some(states[currentProcessingState]) else None
    }

    /** `removeState(state)`: marks it inactive and drops its chain id. */
    method RemoveState(state: State)
      requires Registry()
      modifies this`states, this`order, state`active
      ensures !state.active
      ensures states == old(states) - {state.chainId}
      ensures order == Without(old(order), state.chainId)
      ensures Registry()
    {
      state.MarkInactive();
      states := states - {state.chainId};
      order := Without(order, state.chainId);
    }

    /** `schedule()`: requests a pass unless one is already pending. */
    method Schedule()
      modifies this`scheduled
      ensures scheduled
    {
      if scheduled {
        return;
      }
      scheduled := true;
    }

    /** `send(emitter, data)`: offers the data to the subscribed states and
        schedules a pass iff one of them was triggered. */
    method Send(cbs: Callbacks, emitter: Emitter, data: Value)
      requires Valid()
      modifies this`scheduled, eventManager`eventToStateMap
      modifies eventManager.StatesOf(emitter.ref)`queue, eventManager.StatesOf(emitter.ref)`dirty
      ensures Valid()
      ensures scheduled <==>
                old(scheduled) ||
                exists s :: s in old(eventManager.StatesOf(emitter.ref)) && AnyMatches(cbs, old(s.queue), emitter.ref, data)
      ensures forall s :: s in old(eventManager.StatesOf(emitter.ref)) ==>
                s.queue == TriggerAll(cbs, old(s.queue), emitter.ref, data) &&
                s.dirty == (old(s.dirty) || AnyMatches(cbs, old(s.queue), emitter.ref, data))
    {
      var needToSchedule := eventManager.Send(cbs, emitter, data, this);
      if needToSchedule {
        Schedule();
      }
    }

    /** `subscribe(event)`: subscribes the processing state, or warns when
        there is none. */
    method Subscribe(event: EventImpl)
      requires Valid()
      modifies eventManager, this`warnings
      ensures Valid()
      ensures GetProcessingState().Some? ==>
                eventManager.eventToStateMap == SubscribeE2S(old(eventManager.eventToStateMap), event.ref, GetProcessingState().value) &&
                eventManager.stateToEventMap == SubscribeS2E(old(eventManager.stateToEventMap), event.ref, GetProcessingState().value) &&
                warnings == old(warnings)
      ensures GetProcessingState().None? ==>
                eventManager.eventToStateMap == old(eventManager.eventToStateMap) &&
                eventManager.stateToEventMap == old(eventManager.stateToEventMap) &&
                warnings == old(warnings) + [SubscribeOutsideState]
    {
      var current := GetProcessingState();
      if current.Some? {
        eventManager.Subscribe(event, current.value);
      } else {
        warnings := warnings + [SubscribeOutsideState];
      }
    }

    /** `genChainId()`: bumps the counter at least once and past every id
        already registered, and names the first free one. */
    method GenChainId() returns (r: string)
      modifies this`allocatedStateId
      ensures allocatedStateId > old(allocatedStateId)
      ensures r == Key(allocatedStateId) && r !in states
      ensures forall n :: old(allocatedStateId) < n < allocatedStateId ==> Key(n) in states
    {
      allocatedStateId := allocatedStateId + 1;
      ghost var keys := states.Keys;
      ghost var seen: set<string> := {};
      while Key(allocatedStateId) in states
        invariant allocatedStateId > old(allocatedStateId)
        invariant seen <= keys
        invariant forall n :: old(allocatedStateId) < n < allocatedStateId ==> Key(n) in seen
        invariant forall k :: k in seen ==> KeyNumber(k) < allocatedStateId
        decreases |keys - seen|
      {
        KeyNumberOfKey(allocatedStateId);
        assert Key(allocatedStateId) !in seen;
        assert keys - (seen + {Key(allocatedStateId)}) < keys - seen;
        ghost var next := seen + {Key(allocatedStateId)};
        forall n | old(allocatedStateId) < n < allocatedStateId + 1 ensures Key(n) in next {
          if n < allocatedStateId {
            assert Key(n) in seen;
          }
        }
        seen := next;
        allocatedStateId := allocatedStateId + 1;
      }
      r := Key(allocatedStateId);
    }

    /** Whether `s` was nested under a state that is no longer the one
        registered under that state's chain id. */
    predicate ParentTransitioned(s: State)
      reads this
    {
      s.parentState != null &&
      (s.parentState.chainId !in states || states[s.parentState.chainId] != s.parentState)
    }

    /** The deletion branch of a pass step: the state at position `i` is
        marked inactive, unsubscribed and dropped from the registry. */
    method Retire(i: nat, ghost st: State)
      requires Valid() && i < |order| && states[order[i]] == st
      modifies this`states, this`order, eventManager, st`active
      ensures Valid()
      ensures !st.active
      ensures states == old(states) - {st.chainId} && order == RemoveAt(old(order), i)
      ensures st !in eventManager.stateToEventMap
      ensures eventManager.stateToEventMap == old(eventManager.stateToEventMap) - {st}
      ensures eventManager.eventToStateMap ==
                UnsubscribeE2S(old(eventManager.eventToStateMap), old(eventManager.stateToEventMap), st)
    {
      var id := order[i];
      var state := states[id];
      state.MarkInactive();
      eventManager.Unsubscribe(state);
      RemoveAtMembers(order, i);
      states := states - {id};
      order := RemoveAt(order, i);
      assert Owns() by {
        forall r, t | r in eventManager.eventToStateMap && t in eventManager.eventToStateMap[r]
          ensures t.machine == this
        {
          assert t in StatesIn(old(eventManager.eventToStateMap), r);
        }
      }
    }

    /** The first half of a pass step: a dirty state is run as the
        processing state and hands back `outcome`; a clean one is left
        alone. */
    method RunIfDirty(st: State, outcome: Option<StateConfig>) returns (ran: bool, next: Option<StateConfig>)
      modifies this`currentProcessingState, st`currentId, st`dirty, st`recordedHookId, st`warnings
      ensures ran == old(st.dirty) && next == (if ran then outcome else None)
      ensures ran ==> currentProcessingState == st.chainId && st.currentId == -1 && !st.dirty
      ensures !ran ==> unchanged(this) && unchanged(st)
    {
      ran := st.dirty;
      next := None;
      if ran {
        currentProcessingState := st.chainId;
        next := st.Run(outcome);
      }
    }

    /** The second half of a pass step for a state that is leaving: its
        cleanups run, it is retired, and a `successor` config, if given,
        is registered under the same chain id with the same parent. */
    method Replace(i: nat, ghost st: State, successor: Option<StateConfig>)
      requires Valid() && i < |order| && states[order[i]] == st
      requires successor.Some? ==> successor.value.Valid()
      modifies this`states, this`order, eventManager, st`queue, st`calls, st`active
      ensures Valid()
      ensures !st.active && st.queue == AfterCleanups(old(st.queue))
      ensures st.calls == old(st.calls) + CleanupCalls(old(st.queue))
      ensures eventManager.stateToEventMap == old(eventManager.stateToEventMap) - {st}
      ensures eventManager.eventToStateMap ==
                UnsubscribeE2S(old(eventManager.eventToStateMap), old(eventManager.stateToEventMap), st)
      ensures successor.None? ==> states == old(states) - {st.chainId} && order == RemoveAt(old(order), i)
      ensures successor.Some? ==>
                st.chainId in states && fresh(states[st.chainId]) &&
                states == old(states)[st.chainId := states[st.chainId]] &&
                order == RemoveAt(old(order), i) + [st.chainId]
      ensures successor.Some? ==>
                var s := states[st.chainId];
                s.parentState == st.parentState && s.stateFunc == successor.value.stateFunc &&
                s.props == successor.value.props && s.dirty && s.active && s.queue == []
    {
      var state := states[order[i]];
      state.RunCleanup();
      Retire(i, state);
      if successor.Some? {
        Reinstate(state.chainId, state.parentState, successor.value);
      }
    }

    /** Registers a new state for `config` under the free chain id `id`,
        nested under `parentState`; the id goes to the end of the order. */
    method Reinstate(id: string, parentState: State?, config: StateConfig)
      requires Valid() && id !in states && config.Valid()
      modifies this`states, this`order
      ensures Valid()
      ensures id in states && fresh(states[id])
      ensures states == old(states)[id := states[id]] && order == old(order) + [id]
      ensures var s := states[id];
                s.parentState == parentState && s.stateFunc == config.stateFunc &&
                s.props == config.props && s.dirty && s.active && s.queue == []
    {
      var s := new State(this, config, id, null, parentState);
      AddState(s);
    }

    /** One step of the `forEach` in `run()`, on the state `st` at position
        `i` of the iteration order. `outcome` is what its state function
        returns if the state is dirty and runs. A state leaves when it
        returned a config or its parent transitioned; it is replaced only in
        the first case and only if its parent did not transition. */
    method Visit(i: nat, st: State, outcome: Option<StateConfig>) returns (ran: bool, deleted: bool)
      requires Valid() && i < |order| && states[order[i]] == st
      requires outcome.Some? ==> outcome.value.Valid()
      modifies this`currentProcessingState, this`states, this`order, eventManager, st
      ensures Valid()
      ensures ran == old(st.dirty)
      ensures ran ==> currentProcessingState == st.chainId && st.currentId == -1 && !st.dirty
      ensures deleted == (old(ParentTransitioned(st)) || (ran && outcome.Some?))
      ensures !deleted ==> states == old(states) && order == old(order) && st.active == old(st.active) && st.queue == old(st.queue)
      ensures !deleted ==> unchanged(eventManager)
      ensures !ran && !deleted ==> unchanged(st)
      ensures deleted ==> !st.active && st.queue == AfterCleanups(old(st.queue))
      ensures deleted ==> st.calls == old(st.calls) + CleanupCalls(old(st.queue))
      ensures deleted ==> eventManager.stateToEventMap == old(eventManager.stateToEventMap) - {st}
      ensures deleted && !(ran && outcome.Some? && !old(ParentTransitioned(st))) ==>
                states == old(states) - {st.chainId} && order == RemoveAt(old(order), i)
      ensures ran && outcome.Some? && !old(ParentTransitioned(st)) ==>
                st.chainId in states && fresh(states[st.chainId]) &&
                states == old(states)[st.chainId := states[st.chainId]] &&
                order == RemoveAt(old(order), i) + [st.chainId]
      ensures ran && outcome.Some? && !old(ParentTransitioned(st)) ==>
                var s := states[st.chainId];
                s.parentState == st.parentState && s.stateFunc == outcome.value.stateFunc &&
                s.props == outcome.value.props && s.dirty && s.active && s.queue == []
    {
      var parentTransitioned := ParentTransitioned(st);
      var next;
      ran, next := RunIfDirty(st, outcome);
      deleted := parentTransitioned || next.Some?;
      if deleted {
        Replace(i, st, if parentTransitioned then None else next);
      }
    }

    /** A pass step as the pass loop sees it. */
    method Step(i: nat, st: State, outcome: Option<StateConfig>) returns (deleted: bool)
      requires Valid() && i < |order| && states[order[i]] == st
      requires forall k :: 0 <= k < i ==> !states[order[k]].dirty
      requires outcome.Some? ==> outcome.value.Valid()
      modifies this`currentProcessingState, this`states, this`order, eventManager, st
      ensures Valid() && states.Keys <= old(states.Keys)
      ensures (if deleted then i else i + 1) <= |order|
      ensures forall k :: 0 <= k < (if deleted then i else i + 1) ==> !states[order[k]].dirty
      ensures forall id :: id in states ==> (id in old(states) && states[id] == old(states)[id]) || fresh(states[id])
      ensures !deleted ==> order == old(order)
      ensures deleted && !old(st.dirty) ==> |order| < old(|order|)
    {
      var ran;
      ran, deleted := Visit(i, st, outcome);
      if deleted {
        RemoveAtMembers(old(order), i);
      }
      KeptPrefix(old(order), order, i);
      forall k | 0 <= k < i ensures states[order[k]] == old(states[order[k]]) && states[order[k]] != st {
      }
    }

    method RunPass(outcomes: seq<Option<StateConfig>>) returns (exhausted: bool)
      requires Valid()
      requires forall k :: 0 <= k < |outcomes| && outcomes[k].Some? ==> outcomes[k].value.Valid()
      modifies this`scheduled, this`currentProcessingState, this`states, this`order, eventManager
      modifies set id | id in states :: states[id]
      ensures Valid() && !scheduled
      ensures states.Keys <= old(states.Keys)
      ensures !exhausted ==> forall id :: id in states ==> !states[id].dirty
    {
      scheduled := false;
      exhausted := false;
      var i := 0;
      var used := 0;
      while i < |order|
        invariant Valid() && !scheduled && i <= |order| && used <= |outcomes|
        invariant states.Keys <= old(states.Keys)
        invariant forall k :: 0 <= k < i ==> !states[order[k]].dirty
        invariant forall id :: id in states ==> (id in old(states) && states[id] == old(states)[id]) || fresh(states[id])
        decreases |outcomes| - used, |order| - i
      {
        var state := states[order[i]];
        var outcome: Option<StateConfig> := None;
        if state.dirty {
          if used == |outcomes| {
            exhausted := true;
            return;
          }
          outcome := outcomes[used];
          used := used + 1;
        }
        var deleted := Step(i, state, outcome);
        if !deleted {
          i := i + 1;
        }
      }
      forall id | id in states ensures !states[id].dirty {
        var k :| 0 <= k < |order| && order[k] == id;
      }
    }
  }
}

=== FILE: state_config.dfy ===
/**
 * src/stateConfig.ts: the config a state function returns to name its
 * successor, with the ambient identity and value types of src/ambient.ts
 * that its ambient builder is keyed and valued by.
 */
module StateConfigs {
  import opened Values
  import opened ImmutableMaps

  /** `AmbientRef`: the `{ name }` object identifying one ambient. */
  class AmbientRef {
    const name: string

    constructor (name: string)
      ensures this.name == name
    {
      this.name := name;
    }
  }

  /** `AmbientValueRef`: the `{ value }` wrapper stored in ambient maps. */
  datatype AmbientValueRef = AmbientValueRef(value: Value)

  type AmbientBuilder = ImmutableMapBuilder<AmbientRef, AmbientValueRef>

  /** `label ? label : stateFunc.name`: an absent or empty label is falsy
      and falls back to the state function's name. */
  function ChooseLabel(labelArg: Option<string>, stateFunc: StateFunc): (r: string)
    ensures labelArg.Some? && labelArg.value != "" ==> r == labelArg.value
    ensures labelArg.None? || labelArg.value == "" ==> r == stateFunc.name
  {
    if labelArg.Some? && labelArg.value != "" then labelArg.value else stateFunc.name
  }

  /** Re-choosing the label of a config keeps it unless it is the empty
      string and the function has a non-empty name. */
  lemma ChooseLabelKeeps(l: string, stateFunc: StateFunc)
    ensures ChooseLabel(Some(l), stateFunc) == l <==> l != "" || stateFunc.name == ""
  {
  }

  class StateConfig {
    const stateFunc: StateFunc
    const props: Value
    /** Reassigned by the ambient manager when it re-parents the chain. */
    var ambient: AmbientBuilder
    var labelText: string

    ghost predicate Valid()
      reads this, ambient
    {
      ambient.Valid()
    }

    constructor (stateFunc: StateFunc, props: Value, ambient: AmbientBuilder, labelText: string)
      ensures this.stateFunc == stateFunc && this.props == props
      ensures this.ambient == ambient && this.labelText == labelText
    {
      this.stateFunc := stateFunc;
      this.props := props;
      this.ambient := ambient;
      this.labelText := labelText;
    }

    /** `setLabel(label)`: overwrites the label and returns this very
        config. */
    method SetLabel(newLabel: string) returns (c: StateConfig)
      modifies this`labelText
      ensures c == this && labelText == newLabel
    {
      labelText := newLabel;
      c := this;
    }
  }

  /** `createStateConfig(stateFunc, props, ambient, label?)`: stores the
      function, props and ambient as given, and chooses the label. */
  method CreateStateConfig(stateFunc: StateFunc, props: Value, ambient: AmbientBuilder, labelArg: Option<string>)
    returns (c: StateConfig)
    ensures fresh(c)
    ensures c.stateFunc == stateFunc && c.props == props && c.ambient == ambient
    ensures c.labelText == ChooseLabel(labelArg, stateFunc)
  {
    c := new StateConfig(stateFunc, props, ambient, ChooseLabel(labelArg, stateFunc));
  }
}

=== FILE: use_computed.dfy ===
/**
 * src/useComputed.ts: the cache rule of `useMemo` in a `COMPUTED` slot,
 * with a plain `Error` outside a state function.
 */
module UseComputeds {
  import opened Values
  import opened Runtime
  import opened HookSlots
  import opened UseMemos

  const ComputedOutsideMessage := "Cannot call useComputed outside of state machine scope"

  function NewComputedSlot(): Hook
  {
    ComputedHook(Undefined, None)
  }

  /** `useComputed(compute, deps)` in the machine's processing state. */
  method UseComputed(cbs: Callbacks, m: MachineImpl, compute: Callback, deps: Deps) returns (r: Result<Value>)
    requires forall p | p in ProcessingFrame(m) :: p.Valid()
    modifies ProcessingFrame(m)`currentId, ProcessingFrame(m)`queue, ProcessingFrame(m)`calls
    ensures m.GetProcessingState().None? ==> r == Err(PlainError(ComputedOutsideMessage))
    ensures m.GetProcessingState().Some? ==>
              var p := m.GetProcessingState().value;
              && p.Valid() && p.currentId == old(p.currentId) + 1 && 0 <= p.currentId <= old(|p.queue|)
              && var slot := Slot(old(p.queue), p.currentId, NewComputedSlot());
              var grown := Allocate(old(p.queue), p.currentId, NewComputedSlot());
              && (slot.Err? ==> r == Err(slot.error) && p.queue == grown && p.calls == old(p.calls))
              && (slot.Ok? ==> slot.value.ComputedHook?
                               && p.queue == grown[p.currentId := CacheUpdate(cbs, slot.value, compute, deps)]
                               && r == Ok(CacheUpdate(cbs, slot.value, compute, deps).memo)
                               && p.calls == old(p.calls) + ComputeCallsOf(slot.value, compute, deps))
  {
    var current := m.GetProcessingState();
    if current.None? {
      return Err(PlainError(ComputedOutsideMessage));
    }
    r := CachedValue(cbs, current.value, NewComputedSlot(), compute, deps);
  }
}

=== FILE: use_effect.dfy ===
/**
 * src/useEffect.ts: an effect slot. Unchanged dependencies leave the slot
 * alone; changed ones store the new effect and dependencies and hand the
 * old cleanup to the process's `addCleanup` instead of calling it.
 */
module UseEffects {
  import opened Values
  import opened Utils
  import opened Runtime
  import opened HookSlots

  const OutsideMessage := "Cannot call useEffect outside of state machine scope"

  /** The slot a first call creates: the effect pending, no cleanup, and
      `undefined` dependencies, so the first comparison always fails. */
  function NewEffectSlot(effect: Effect): Hook
  {
    EffectHook(Some(effect), None, None)
  }

  /** The slot update `useEffect` and `useSideEffect` share. */
  function EffectSlot(h: Hook, effect: Effect, deps: Deps): Hook
    requires h.EffectHook?
  {
    if UnchangedDeps(h.deps, deps) then h else EffectHook(Some(effect), None, deps)
  }

  /** The cleanup a slot lets go of when its dependencies change. */
  function Released(h: Hook, deps: Deps): seq<Cleanup>
    requires h.EffectHook?
  {
    if !UnchangedDeps(h.deps, deps) && h.cleanupFunc.Some? then [h.cleanupFunc.value] else []
  }

  /** Unchanged dependencies: the slot stays exactly as it was and no
      cleanup is released. */
  lemma UnchangedDepsKeepSlot(h: Hook, effect: Effect, deps: Deps)
    requires h.EffectHook? && UnchangedDeps(h.deps, deps)
    ensures EffectSlot(h, effect, deps) == h && Released(h, deps) == []
  {
  }

  /** Changed dependencies: the new effect is pending with the new
      dependencies, the slot holds no cleanup, and the old cleanup (if any)
      is released exactly once. */
  lemma ChangedDepsReplaceEffect(h: Hook, effect: Effect, deps: Deps)
    requires h.EffectHook? && !UnchangedDeps(h.deps, deps)
    ensures PendingEffect(EffectSlot(h, effect, deps)) && EffectSlot(h, effect, deps).effectFunc == Some(effect)
    ensures !StoredCleanup(EffectSlot(h, effect, deps)) && EffectSlot(h, effect, deps).deps == deps
    ensures Released(h, deps) == if StoredCleanup(h) then [h.cleanupFunc.value] else []
  {
  }

  /** A first call always leaves its effect pending, whatever the
      dependencies, and releases nothing. */
  lemma FirstCallSchedules(effect: Effect, deps: Deps)
    ensures EffectSlot(NewEffectSlot(effect), effect, deps) == EffectHook(Some(effect), None, deps)
    ensures Released(NewEffectSlot(effect), deps) == []
  {
  }

  /** An effect declared with `[]` runs once: after the first run, a
      second call with `[]` leaves nothing pending and releases nothing. */
  lemma EmptyDepsRunOnce(cbs: Callbacks, effect: Effect)
    ensures var first := EffectSlot(NewEffectSlot(effect), effect, Some([]));
            var ran := AfterEffect(cbs, first);
            && EffectCalls([first]) == [RanEffect(effect)]
            && EffectSlot(ran, effect, Some([])) == ran
            && EffectCalls([EffectSlot(ran, effect, Some([]))]) == []
            && Released(ran, Some([])) == []
  {
    var first := EffectSlot(NewEffectSlot(effect), effect, Some([]));
    var ran := AfterEffect(cbs, first);
    assert [first][..0] == [] && [ran][..0] == [];
    UnchangedDepsReflexive(Some([]));
  }

  /** An effect declared with `[d]` runs again when `d` changes, and the
      cleanup its first run returned is released exactly once. */
  lemma ChangedDepRerunsAndReleasesOnce(cbs: Callbacks, effect: Effect, d1: Value, d2: Value)
    requires d1 != d2
    ensures var first := EffectSlot(NewEffectSlot(effect), effect, Some([d1]));
            var ran := AfterEffect(cbs, first);
            var second := EffectSlot(ran, effect, Some([d2]));
            && EffectCalls([second]) == [RanEffect(effect)]
            && Released(ran, Some([d2])) == (if cbs.EffectResult(effect).Some? then [cbs.EffectResult(effect).value] else [])
  {
    var first := EffectSlot(NewEffectSlot(effect), effect, Some([d1]));
    var ran := AfterEffect(cbs, first);
    assert !UnchangedDeps(ran.deps, Some([d2])) by {
      assert ran.deps == Some([d1]);
      assert [d1][0] != [d2][0];
    }
    var second := EffectSlot(ran, effect, Some([d2]));
    assert [second][..0] == [];
  }

  /** `useEffect(effect, deps)` in the machine's processing state. */
  method UseEffect(m: MachineImpl, effect: Effect, deps: Deps) returns (r: Result<()>)
    requires forall p | p in ProcessingFrame(m) :: p.Valid()
    modifies ProcessingFrame(m)`currentId, ProcessingFrame(m)`queue, ProcessingFrame(m)`pendingCleanups
    ensures m.GetProcessingState().None? ==> r == Err(AssertionError(OutsideMessage))
    ensures m.GetProcessingState().Some? ==>
              var p := m.GetProcessingState().value;
              && p.Valid() && p.currentId == old(p.currentId) + 1 && 0 <= p.currentId <= old(|p.queue|)
              && var slot := Slot(old(p.queue), p.currentId, NewEffectSlot(effect));
              var grown := Allocate(old(p.queue), p.currentId, NewEffectSlot(effect));
              && (slot.Err? ==> r == Err(slot.error) && p.queue == grown && p.pendingCleanups == old(p.pendingCleanups))
              && (slot.Ok? ==> slot.value.EffectHook? && r == Ok(())
                               && p.queue == grown[p.currentId := EffectSlot(slot.value, effect, deps)]
                               && p.pendingCleanups == old(p.pendingCleanups) + Released(slot.value, deps))
  {
    var current := m.GetProcessingState();
    if current.None? {
      return Err(AssertionError(OutsideMessage));
    }
    var p := current.value;
    var slot := EnterHook(p, NewEffectSlot(effect));
    if slot.Err? {
      return Err(slot.error);
    }
    var h := slot.value;
    if UnchangedDeps(h.deps, deps) {
      return Ok(());
    }
    if h.cleanupFunc.Some? {
      p.AddCleanup(h.cleanupFunc.value);
    }
    p.queue := p.queue[p.currentId := EffectHook(Some(effect), None, deps)];
    r := Ok(());
  }
}

=== FILE: use_event.dfy ===
/**
 * src/useEvent.ts: an event slot. Every call rebinds the slot to the
 * event it is given and subscribes the processing state; a delivery the
 * slot recorded since the last call is returned once and then cleared.
 */
module UseEvents {
  import opened Values
  import opened Events
  import opened Runtime
  import opened HookSlots

  const EventOutsideMessage := "Cannot useState outside of state machine scope"
  const NotEventImplMessage := "useEvent needs to receive event returned from newEvent"

  /** The argument of `useEvent`: an event made by `newEvent` (or derived
      from one), or any other object shaped like an event. */
  datatype EventArgument = FromNewEvent(event: EventImpl) | OtherEvent

  /** The slot a first call creates: nothing delivered yet. */
  function NewEventSlot(event: EventImpl): Hook
  {
    EventHook(event, Undefined, false)
  }

  /** What a call returns: the recorded data, if the slot was triggered. */
  function Delivered(h: Hook): Option<Value>
    requires h.EventHook?
  {
    if h.eventTriggered then Some(h.eventData) else None
  }

  /** The slot after a call: bound to `event`, with a delivery consumed. */
  function Consumed(h: Hook, event: EventImpl): Hook
    requires h.EventHook?
  {
    if h.eventTriggered then EventHook(event, Undefined, false) else h.(event := event)
  }

  /** A delivery is reported exactly once: a slot that `maybeTriggerEvent`
      accepted returns the processed data on the next call, and a call
      right after returns nothing. */
  lemma DeliveredOnce(cbs: Callbacks, h: Hook, ref: EventRef, data: Value, e1: EventImpl, e2: EventImpl)
    requires h.EventHook? && SlotMatches(cbs, h, ref, data)
    ensures Delivered(TriggerSlot(cbs, h, ref, data)) == Some(ProcessSpec(cbs, h.event.processors, data).1)
    ensures Delivered(Consumed(TriggerSlot(cbs, h, ref, data), e1)) == None
    ensures Delivered(Consumed(Consumed(TriggerSlot(cbs, h, ref, data), e1), e2)) == None
  {
  }

  /** A slot that was not triggered reports nothing and keeps its data;
      every call binds the slot to its argument. */
  lemma UntriggeredReportsNothing(h: Hook, event: EventImpl)
    requires h.EventHook?
    ensures !h.eventTriggered ==> Delivered(h) == None && Consumed(h, event) == h.(event := event)
    ensures Consumed(h, event).event == event && !Consumed(h, event).eventTriggered
  {
  }

  /** `useEvent(event)` in the machine's processing state. */
  method UseEvent(m: MachineImpl, arg: EventArgument) returns (r: Result<Option<Value>>)
    requires m.Valid()
    requires forall p | p in ProcessingFrame(m) :: p.Valid()
    modifies ProcessingFrame(m)`currentId, ProcessingFrame(m)`queue, m.eventManager, m`warnings
    ensures m.Valid()
    ensures m.GetProcessingState().None? ==>
              && r == Err(AssertionError(EventOutsideMessage))
              && m.eventManager.eventToStateMap == old(m.eventManager.eventToStateMap)
              && m.eventManager.stateToEventMap == old(m.eventManager.stateToEventMap)
    ensures m.GetProcessingState().Some? && arg.OtherEvent? ==>
              var p := m.GetProcessingState().value;
              && p.currentId == old(p.currentId) + 1 && p.queue == old(p.queue)
              && r == Err(AssertionError(NotEventImplMessage))
              && m.eventManager.eventToStateMap == old(m.eventManager.eventToStateMap)
              && m.eventManager.stateToEventMap == old(m.eventManager.stateToEventMap)
    ensures m.GetProcessingState().Some? && arg.FromNewEvent? ==>
              var p := m.GetProcessingState().value;
              && p.Valid() && p.currentId == old(p.currentId) + 1 && 0 <= p.currentId <= old(|p.queue|)
              && var slot := Slot(old(p.queue), p.currentId, NewEventSlot(arg.event));
              var grown := Allocate(old(p.queue), p.currentId, NewEventSlot(arg.event));
              && (slot.Err? ==>
                    && r == Err(slot.error) && p.queue == grown
                    && m.eventManager.eventToStateMap == old(m.eventManager.eventToStateMap)
                    && m.eventManager.stateToEventMap == old(m.eventManager.stateToEventMap))
              && (slot.Ok? ==>
                    && slot.value.EventHook?
                    && p.queue == grown[p.currentId := Consumed(slot.value, arg.event)]
                    && r == Ok(Delivered(slot.value))
                    && m.eventManager.eventToStateMap == SubscribeE2S(old(m.eventManager.eventToStateMap), arg.event.ref, p)
                    && m.eventManager.stateToEventMap == SubscribeS2E(old(m.eventManager.stateToEventMap), arg.event.ref, p))
  {
    var current := m.GetProcessingState();
    if current.None? {
      return Err(AssertionError(EventOutsideMessage));
    }
    var p := current.value;
    if arg.OtherEvent? {
      p.IncrementHookId();
      return Err(AssertionError(NotEventImplMessage));
    }
    var event := arg.event;
    var slot := EnterHook(p, NewEventSlot(event));
    if slot.Err? {
      return Err(slot.error);
    }
    var h := slot.value;
    p.queue := p.queue[p.currentId := Consumed(h, event)];
    m.Subscribe(event);
    r := Ok(Delivered(h));
  }
}

=== FILE: use_local_state.dfy ===
/**
 * src/useLocalState.ts: `useState` in a `LOCAL_STATE` slot, with the same
 * lifecycle-gated setter.
 */
module UseLocalStates {
  import opened Values
  import opened Runtime
  import opened HookSlots
  import opened UseStates

  const LocalStateOutsideMessage := "Cannot useLocalState outside of state machine scope"

  /** `useLocalState(initialState)` in the machine's processing state. */
  method UseLocalState(m: MachineImpl, initialState: Value) returns (r: Result<(Value, Setter)>)
    requires forall p | p in ProcessingFrame(m) :: p.Valid()
    modifies ProcessingFrame(m)`currentId, ProcessingFrame(m)`queue
    ensures m.GetProcessingState().None? ==> r == Err(AssertionError(LocalStateOutsideMessage))
    ensures m.GetProcessingState().Some? ==>
              var p := m.GetProcessingState().value;
              && p.Valid() && p.currentId == old(p.currentId) + 1 && 0 <= p.currentId <= old(|p.queue|)
              && p.queue == Allocate(old(p.queue), p.currentId, LocalStateHook(initialState))
              && var slot := Slot(old(p.queue), p.currentId, LocalStateHook(initialState));
              && (slot.Err? ==> r == Err(slot.error))
              && (slot.Ok? ==> slot.value.LocalStateHook? && r == Ok((slot.value.value, Setter(p, p.currentId))))
  {
    var current := m.GetProcessingState();
    if current.None? {
      return Err(AssertionError(LocalStateOutsideMessage));
    }
    r := ValueAndSetter(current.value, LocalStateHook(initialState));
  }
}

=== FILE: use_memo.dfy ===
/**
 * src/useMemo.ts: a cached value recomputed only when the dependencies
 * change. `useComputed` keeps the same rule in a slot of its own type.
 */
module UseMemos {
  import opened Values
  import opened Utils
  import opened Runtime
  import opened HookSlots

  const MemoOutsideMessage := "Cannot call useMemo outside of state machine scope"

  /** A slot holding a cached value and the dependencies it was computed
      from. */
  predicate CacheSlot(h: Hook)
  {
    h.MemoHook? || h.ComputedHook?
  }

  /** The slot a first call creates: `undefined` dependencies guarantee a
      computation on that call. */
  function NewMemoSlot(): Hook
  {
    MemoHook(Undefined, None)
  }

  /** The cache update: kept when the dependencies are unchanged, and
      otherwise refilled with a fresh computation and the new
      dependencies. */
  function CacheUpdate(cbs: Callbacks, h: Hook, calculate: Callback, deps: Deps): Hook
    requires CacheSlot(h)
  {
    if UnchangedDeps(h.deps, deps) then h else h.(memo := cbs.Compute(calculate), deps := deps)
  }

  /** The computation a call makes, if any. */
  function ComputeCallsOf(h: Hook, calculate: Callback, deps: Deps): seq<Call>
    requires CacheSlot(h)
  {
    if UnchangedDeps(h.deps, deps) then [] else [Computed(calculate)]
  }

  /** Unchanged dependencies return the cached value and compute nothing;
      changed ones return and store a fresh value with the new
      dependencies, computing exactly once. */
  lemma CacheRule(cbs: Callbacks, h: Hook, calculate: Callback, deps: Deps)
    requires CacheSlot(h)
    ensures CacheSlot(CacheUpdate(cbs, h, calculate, deps))
    ensures CacheUpdate(cbs, h, calculate, deps).Type() == h.Type()
    ensures UnchangedDeps(h.deps, deps) ==>
              CacheUpdate(cbs, h, calculate, deps) == h && ComputeCallsOf(h, calculate, deps) == []
    ensures !UnchangedDeps(h.deps, deps) ==>
              && CacheUpdate(cbs, h, calculate, deps).memo == cbs.Compute(calculate)
              && CacheUpdate(cbs, h, calculate, deps).deps == deps
              && ComputeCallsOf(h, calculate, deps) == [Computed(calculate)]
  {
  }

  /** A first call, and any call without a dependency list, computes. */
  lemma UndefinedDepsRecompute(cbs: Callbacks, h: Hook, calculate: Callback, deps: Deps)
    requires CacheSlot(h) && (h.deps.None? || deps.None?)
    ensures CacheUpdate(cbs, h, calculate, deps).memo == cbs.Compute(calculate)
    ensures ComputeCallsOf(h, calculate, deps) == [Computed(calculate)]
  {
  }

  /** A sequence of calls with the dependency lists `ds`, starting from the
      slot `h`: the final slot and every computation made. */
  function Replay(cbs: Callbacks, h: Hook, calculate: Callback, ds: seq<Deps>): (r: (Hook, seq<Call>))
    requires CacheSlot(h)
    ensures CacheSlot(r.0)
    decreases |ds|
  {
    if ds == [] then (h, [])
    else
      var (h', calls) := Replay(cbs, h, calculate, ds[..|ds| - 1]);
      (CacheUpdate(cbs, h', calculate, ds[|ds| - 1]), calls + ComputeCallsOf(h', calculate, ds[|ds| - 1]))
  }

  /** How often the dependency list changed along `ds`, the first list
      compared with `first`. */
  function Changes(first: Deps, ds: seq<Deps>): nat
    decreases |ds|
  {
    if ds == [] then 0
    else
      var before := if |ds| == 1 then first else ds[|ds| - 2];
      Changes(first, ds[..|ds| - 1]) + (if UnchangedDeps(before, ds[|ds| - 1]) then 0 else 1)
  }

  /** The computation runs once per change of the dependencies and never
      on a call whose dependencies equal the previous call's; the slot ends
      up holding the last list passed. */
  lemma {:induction false} ComputeOncePerChange(cbs: Callbacks, h: Hook, calculate: Callback, ds: seq<Deps>)
    requires CacheSlot(h)
    ensures Replay(cbs, h, calculate, ds).1 == seq(Changes(h.deps, ds), _ => Computed(calculate))
    ensures ds != [] ==> Replay(cbs, h, calculate, ds).0.deps == ds[|ds| - 1]
    decreases |ds|
  {
    if ds != [] {
      var front := ds[..|ds| - 1];
      ComputeOncePerChange(cbs, h, calculate, front);
      var h' := Replay(cbs, h, calculate, front).0;
      var before := if |ds| == 1 then h.deps else ds[|ds| - 2];
      assert h'.deps == before by {
        if |ds| > 1 {
          assert front[|front| - 1] == ds[|ds| - 2];
        }
      }
      UnchangedDepsIsEquality(before, ds[|ds| - 1]);
      assert front[..|front|] == front;
    }
  }

  /** The shared body of `useMemo` and `useComputed`: the cached value
      after the update, computing through `cbs` when needed. */
  method CachedValue(cbs: Callbacks, p: State, initial: Hook, calculate: Callback, deps: Deps)
    returns (r: Result<Value>)
    requires p.Valid() && CacheSlot(initial)
    modifies p`currentId, p`queue, p`calls
    ensures p.Valid() && p.currentId == old(p.currentId) + 1 && 0 <= p.currentId <= old(|p.queue|)
    ensures var slot := Slot(old(p.queue), p.currentId, initial);
            var grown := Allocate(old(p.queue), p.currentId, initial);
            && (slot.Err? ==> r == Err(slot.error) && p.queue == grown && p.calls == old(p.calls))
            && (slot.Ok? ==> CacheSlot(slot.value)
                             && p.queue == grown[p.currentId := CacheUpdate(cbs, slot.value, calculate, deps)]
                             && r == Ok(CacheUpdate(cbs, slot.value, calculate, deps).memo)
                             && p.calls == old(p.calls) + ComputeCallsOf(slot.value, calculate, deps))
  {
    var slot := EnterHook(p, initial);
    if slot.Err? {
      return Err(slot.error);
    }
    var h := slot.value;
    if !UnchangedDeps(h.deps, deps) {
      var value := cbs.Compute(calculate);
      p.calls := p.calls + [Computed(calculate)];
      h := h.(memo := value, deps := deps);
      p.queue := p.queue[p.currentId := h];
    }
    r := Ok(h.memo);
  }

  /** `useMemo(calculateValue, dependencies)` in the machine's processing
      state. */
  method UseMemo(cbs: Callbacks, m: MachineImpl, calculate: Callback, deps: Deps) returns (r: Result<Value>)
    requires forall p | p in ProcessingFrame(m) :: p.Valid()
    modifies ProcessingFrame(m)`currentId, ProcessingFrame(m)`queue, ProcessingFrame(m)`calls
    ensures m.GetProcessingState().None? ==> r == Err(AssertionError(MemoOutsideMessage))
    ensures m.GetProcessingState().Some? ==>
              var p := m.GetProcessingState().value;
              && p.Valid() && p.currentId == old(p.currentId) + 1 && 0 <= p.currentId <= old(|p.queue|)
              && var slot := Slot(old(p.queue), p.currentId, NewMemoSlot());
              var grown := Allocate(old(p.queue), p.currentId, NewMemoSlot());
              && (slot.Err? ==> r == Err(slot.error) && p.queue == grown && p.calls == old(p.calls))
              && (slot.Ok? ==> slot.value.MemoHook?
                               && p.queue == grown[p.currentId := CacheUpdate(cbs, slot.value, calculate, deps)]
                               && r == Ok(CacheUpdate(cbs, slot.value, calculate, deps).memo)
                               && p.calls == old(p.calls) + ComputeCallsOf(slot.value, calculate, deps))
  {
    var current := m.GetProcessingState();
    if current.None? {
      return Err(AssertionError(MemoOutsideMessage));
    }
    r := CachedValue(cbs, current.value, NewMemoSlot(), calculate, deps);
  }
}

=== FILE: use_ref.dfy ===
/**
 * src/useRef.ts: a `{ current }` cell created on the first call and
 * handed back unchanged on every later call. Writing the cell goes through
 * `Cell.Write`, which changes nothing but the cell, so it never marks the
 * process dirty. `useStored` shares the rule in a slot of its own type.
 */
module UseRefs {
  import opened Values
  import opened Runtime
  import opened HookSlots

  const RefOutsideMessage := "Cannot useState outside of state machine scope"

  /** A slot holding a cell. */
  function CellSlot(t: HookType, c: Cell): Hook
    requires t == REF || t == STORED
  {
    if t == REF then RefHook(c) else StoredHook(c)
  }

  /** The shared body of `useRef` and `useStored`: the slot's cell, a new
      one seeded with `initialValue` on the first call. */
  method SeededCell(p: State, t: HookType, initialValue: Value) returns (r: Result<Cell>)
    requires p.Valid() && (t == REF || t == STORED)
    modifies p`currentId, p`queue
    ensures p.Valid() && p.currentId == old(p.currentId) + 1 && 0 <= p.currentId <= old(|p.queue|)
    ensures p.currentId == old(|p.queue|) ==>
              && r.Ok? && fresh(r.value) && r.value.current == initialValue
              && p.queue == old(p.queue) + [CellSlot(t, r.value)]
    ensures p.currentId < old(|p.queue|) ==>
              && p.queue == old(p.queue)
              && r == if p.queue[p.currentId].Type() == t then Ok(p.queue[p.currentId].ref)
                      else Err(PlainError(MismatchedHookMessage))
  {
    p.IncrementHookId();
    if !p.IsHookAdded() {
      var cell := new Cell(initialValue);
      p.SetHook(CellSlot(t, cell));
    }
    var slot := p.GetHook(t);
    if slot.Err? {
      return Err(slot.error);
    }
    r := Ok(slot.value.ref);
  }

  /** `useRef(initialValue)` in the machine's processing state. */
  method UseRef(m: MachineImpl, initialValue: Value) returns (r: Result<Cell>)
    requires forall p | p in ProcessingFrame(m) :: p.Valid()
    modifies ProcessingFrame(m)`currentId, ProcessingFrame(m)`queue
    ensures m.GetProcessingState().None? ==> r == Err(AssertionError(RefOutsideMessage))
    ensures m.GetProcessingState().Some? ==>
              var p := m.GetProcessingState().value;
              && p.Valid() && p.currentId == old(p.currentId) + 1 && 0 <= p.currentId <= old(|p.queue|)
              && (p.currentId == old(|p.queue|) ==>
                    r.Ok? && fresh(r.value) && r.value.current == initialValue && p.queue == old(p.queue) + [RefHook(r.value)])
              && (p.currentId < old(|p.queue|) ==>
                    p.queue == old(p.queue) &&
                    r == if p.queue[p.currentId].RefHook? then Ok(p.queue[p.currentId].ref)
                         else Err(PlainError(MismatchedHookMessage)))
  {
    var current := m.GetProcessingState();
    if current.None? {
      return Err(AssertionError(RefOutsideMessage));
    }
    r := SeededCell(current.value, REF, initialValue);
  }
}

=== FILE: use_side_effect.dfy ===
/**
 * src/useSideEffect.ts: the same effect slot as `useEffect`, except that
 * the old cleanup is called on the spot when the dependencies change.
 */
module UseSideEffects {
  import opened Values
  import opened Utils
  import opened Runtime
  import opened HookSlots
  import opened UseEffects

  const SideEffectOutsideMessage := "Cannot useState outside of state machine scope"

  /** The cleanups a call makes: the old one, when the dependencies changed. */
  function CleanupCallsOf(h: Hook, deps: Deps): seq<Call>
    requires h.EffectHook?
  {
    if Released(h, deps) == [] then [] else [RanCleanup(Released(h, deps)[0])]
  }

  /** Without a dependency list the effect is pending again after every
      call, and a stored cleanup is called before each rerun. */
  lemma NoDepsAlwaysReruns(h: Hook, effect: Effect)
    requires h.EffectHook?
    ensures EffectSlot(h, effect, None) == EffectHook(Some(effect), None, None)
    ensures CleanupCallsOf(h, None) == if StoredCleanup(h) then [RanCleanup(h.cleanupFunc.value)] else []
  {
  }

  /** A dependency that stays equal causes no rerun and no cleanup call. */
  lemma SameDepNoRerun(h: Hook, effect: Effect, d: Value)
    requires h.EffectHook? && h.deps == Some([d])
    ensures EffectSlot(h, effect, Some([d])) == h && CleanupCallsOf(h, Some([d])) == []
  {
    UnchangedDepsReflexive(Some([d]));
  }

  /** `useSideEffect(effectFunc, deps)` in the machine's processing state. */
  method UseSideEffect(m: MachineImpl, effect: Effect, deps: Deps) returns (r: Result<()>)
    requires forall p | p in ProcessingFrame(m) :: p.Valid()
    modifies ProcessingFrame(m)`currentId, ProcessingFrame(m)`queue, ProcessingFrame(m)`calls
    ensures m.GetProcessingState().None? ==> r == Err(PlainError(SideEffectOutsideMessage))
    ensures m.GetProcessingState().Some? ==>
              var p := m.GetProcessingState().value;
              && p.Valid() && p.currentId == old(p.currentId) + 1 && 0 <= p.currentId <= old(|p.queue|)
              && var slot := Slot(old(p.queue), p.currentId, NewEffectSlot(effect));
              var grown := Allocate(old(p.queue), p.currentId, NewEffectSlot(effect));
              && (slot.Err? ==> r == Err(slot.error) && p.queue == grown && p.calls == old(p.calls))
              && (slot.Ok? ==> slot.value.EffectHook? && r == Ok(())
                               && p.queue == grown[p.currentId := EffectSlot(slot.value, effect, deps)]
                               && p.calls == old(p.calls) + CleanupCallsOf(slot.value, deps))
  {
    var current := m.GetProcessingState();
    if current.None? {
      return Err(PlainError(SideEffectOutsideMessage));
    }
    var p := current.value;
    var slot := EnterHook(p, NewEffectSlot(effect));
    if slot.Err? {
      return Err(slot.error);
    }
    var h := slot.value;
    if UnchangedDeps(h.deps, deps) {
      return Ok(());
    }
    p.queue := p.queue[p.currentId := h.(effectFunc := Some(effect), deps := deps)];
    if h.cleanupFunc.Some? {
      p.calls := p.calls + [RanCleanup(h.cleanupFunc.value)];
    }
    p.queue := p.queue[p.currentId := p.queue[p.currentId].(cleanupFunc := None)];
    r := Ok(());
  }
}

=== FILE: use_state.dfy ===
/**
 * src/useState.ts: a value slot seeded once, and a setter that stores a
 * new value and marks the process dirty only when the value differs and
 * the process's lifecycle lets it. `useLocalState` shares the setter.
 */
module UseStates {
  import opened Values
  import opened Runtime
  import opened HookSlots

  const StateOutsideMessage := "Cannot useState outside of state machine scope"

  /** A slot holding a state value. */
  predicate ValueSlot(h: Hook)
  {
    h.StateHook? || h.LocalStateHook?
  }

  /** The setter closure: it captures the process and its slot, which
      hooks only ever append, so the slot index identifies it. */
  datatype Setter = Setter(state: State, slot: nat)

  /** A setter argument: a value, or a function of the current value. */
  datatype SetArgument = NewValue(v: Value) | Updater(f: Callback)

  /** The setter acts only in the IDLE, SIDE_EFFECT and CLEANING_UP
      lifecycles, and not while a cancellation is pending. */
  predicate SetterEnabled(lifecycle: Lifecycle, pendingCancel: bool)
  {
    (lifecycle == Idle || lifecycle == SideEffect || lifecycle == CleaningUp) && !pendingCancel
  }

  /** The value the setter computes from its argument. */
  function NextValue(cbs: Callbacks, arg: SetArgument, current: Value): Value
  {
    match arg
    case NewValue(v) => v
    case Updater(f) => cbs.Transform(f, current)
  }

  /** One setter call on a slot: the new slot and whether the process was
      marked dirty. */
  function SetResult(cbs: Callbacks, h: Hook, arg: SetArgument, enabled: bool): (Hook, bool)
    requires ValueSlot(h)
  {
    if !enabled then (h, false)
    else
      var v := NextValue(cbs, arg, h.value);
      if v == h.value then (h, false) else (h.(value := v), true)
  }

  /** The process is marked dirty exactly when the setter is enabled and
      the new value differs from the stored one; the slot then holds the
      new value, and otherwise is left as it was. */
  lemma SetterRule(cbs: Callbacks, h: Hook, arg: SetArgument, enabled: bool)
    requires ValueSlot(h)
    ensures SetResult(cbs, h, arg, enabled).1 <==> enabled && NextValue(cbs, arg, h.value) != h.value
    ensures SetResult(cbs, h, arg, enabled).1 ==>
              SetResult(cbs, h, arg, enabled).0 == h.(value := NextValue(cbs, arg, h.value))
    ensures !SetResult(cbs, h, arg, enabled).1 ==> SetResult(cbs, h, arg, enabled).0 == h
  {
  }

  /** Setting the same value twice: the second call changes nothing. */
  lemma SetterIdempotent(cbs: Callbacks, h: Hook, v: Value, enabled: bool)
    requires ValueSlot(h)
    ensures var (h', _) := SetResult(cbs, h, NewValue(v), enabled);
            ValueSlot(h') && SetResult(cbs, h', NewValue(v), enabled) == (h', false)
  {
  }

  /** Calling the setter returned for slot `s.slot` of `s.state`. */
  method SetState(cbs: Callbacks, s: Setter, arg: SetArgument)
    requires s.slot < |s.state.queue| && ValueSlot(s.state.queue[s.slot])
    modifies s.state`queue, s.state`dirty, s.state.machine`scheduled, s.state`calls
    ensures var enabled := SetterEnabled(old(s.state.lifecycle), old(s.state.pendingCancel));
            var (h, dirtied) := SetResult(cbs, old(s.state.queue[s.slot]), arg, enabled);
            && s.state.queue == old(s.state.queue)[s.slot := h]
            && s.state.dirty == (old(s.state.dirty) || dirtied)
            && s.state.machine.scheduled == (old(s.state.machine.scheduled) || dirtied)
            && s.state.calls == old(s.state.calls) + (if enabled && arg.Updater? then [Updated(arg.f)] else [])
  {
    var st := s.state;
    if !SetterEnabled(st.lifecycle, st.pendingCancel) {
      return;
    }
    var h := st.queue[s.slot];
    if arg.Updater? {
      st.calls := st.calls + [Updated(arg.f)];
    }
    var v := NextValue(cbs, arg, h.value);
    if v != h.value {
      st.MarkDirty();
      st.queue := st.queue[s.slot := h.(value := v)];
    }
  }

  /** The shared body of `useState` and `useLocalState`: the stored value
      and the slot's setter. */
  method ValueAndSetter(p: State, initial: Hook) returns (r: Result<(Value, Setter)>)
    requires p.Valid() && ValueSlot(initial)
    modifies p`currentId, p`queue
    ensures p.Valid() && p.currentId == old(p.currentId) + 1 && 0 <= p.currentId <= old(|p.queue|)
    ensures p.queue == Allocate(old(p.queue), p.currentId, initial)
    ensures var slot := Slot(old(p.queue), p.currentId, initial);
            && (slot.Err? ==> r == Err(slot.error))
            && (slot.Ok? ==> ValueSlot(slot.value) && r == Ok((slot.value.value, Setter(p, p.currentId))))
  {
    var slot := EnterHook(p, initial);
    if slot.Err? {
      return Err(slot.error);
    }
    r := Ok((slot.value.value, Setter(p, p.currentId)));
  }

  /** `useState(initialState)` in the machine's processing state. */
  method UseState(m: MachineImpl, initialState: Value) returns (r: Result<(Value, Setter)>)
    requires forall p | p in ProcessingFrame(m) :: p.Valid()
    modifies ProcessingFrame(m)`currentId, ProcessingFrame(m)`queue
    ensures m.GetProcessingState().None? ==> r == Err(AssertionError(StateOutsideMessage))
    ensures m.GetProcessingState().Some? ==>
              var p := m.GetProcessingState().value;
              && p.Valid() && p.currentId == old(p.currentId) + 1 && 0 <= p.currentId <= old(|p.queue|)
              && p.queue == Allocate(old(p.queue), p.currentId, StateHook(initialState))
              && var slot := Slot(old(p.queue), p.currentId, StateHook(initialState));
              && (slot.Err? ==> r == Err(slot.error))
              && (slot.Ok? ==> slot.value.StateHook? && r == Ok((slot.value.value, Setter(p, p.currentId))))
  {
    var current := m.GetProcessingState();
    if current.None? {
      return Err(AssertionError(StateOutsideMessage));
    }
    r := ValueAndSetter(current.value, StateHook(initialState));
  }

  /** The first call returns `initialState`; a later call on the same slot
      returns the stored value and the same setter, whatever its argument. */
  lemma SeededOnce(q: seq<Hook>, initialState: Value, later: Value, id: nat)
    requires id < |q| && q[id].StateHook?
    ensures Slot(q, |q|, StateHook(initialState)) == Ok(StateHook(initialState))
    ensures Slot(q, id, StateHook(later)) == Ok(q[id])
  {
    FirstCallReadsInitial(q, StateHook(initialState));
  }
}

=== FILE: use_stored.dfy ===
/**
 * src/useStored.ts: the seed-once cell of `useRef` in a `STORED` slot,
 * with a plain `Error` outside a state function.
 */
module UseStoreds {
  import opened Values
  import opened Runtime
  import opened HookSlots
  import opened UseRefs

  const StoredOutsideMessage := "Cannot useLocalState outside of state machine scope"

  /** `useStored(initialValue)` in the machine's processing state. */
  method UseStored(m: MachineImpl, initialValue: Value) returns (r: Result<Cell>)
    requires forall p | p in ProcessingFrame(m) :: p.Valid()
    modifies ProcessingFrame(m)`currentId, ProcessingFrame(m)`queue
    ensures m.GetProcessingState().None? ==> r == Err(PlainError(StoredOutsideMessage))
    ensures m.GetProcessingState().Some? ==>
              var p := m.GetProcessingState().value;
              && p.Valid() && p.currentId == old(p.currentId) + 1 && 0 <= p.currentId <= old(|p.queue|)
              && (p.currentId == old(|p.queue|) ==>
                    r.Ok? && fresh(r.value) && r.value.current == initialValue && p.queue == old(p.queue) + [StoredHook(r.value)])
              && (p.currentId < old(|p.queue|) ==>
                    p.queue == old(p.queue) &&
                    r == if p.queue[p.currentId].StoredHook? then Ok(p.queue[p.currentId].ref)
                         else Err(PlainError(MismatchedHookMessage)))
  {
    var current := m.GetProcessingState();
    if current.None? {
      return Err(PlainError(StoredOutsideMessage));
    }
    r := SeededCell(current.value, STORED, initialValue);
  }
}

=== FILE: utils.dfy ===
/**
 * The helpers of src/utils.ts: the two assertion helpers and the
 * dependency-list comparison shared by every memoising hook. The same
 * comparison is repeated verbatim in state.ts and restate.ts; all three
 * generations use this one definition.
 */
module Utils {
  import opened Values

  /** `assert(condition, error)`: throws a plain `Error` carrying `error`
      exactly when the condition is false. */
  function Assert(condition: bool, error: string): (r: Outcome)
    ensures r.Pass? <==> condition
    ensures r.Fail? ==> r.error == PlainError(error)
  {
    if !condition then Fail(PlainError(error)) else Pass
  }

  /** How `${value}` prints the two values `AssertNonNull` rejects. */
  function NullText(value: Value): string
  {
    if value == Null then "null" else "undefined"
  }

  /** `assertNonNull(value, label)`: the value itself, or the error thrown
      by `assert` for `null` and `undefined`. */
  function AssertNonNull(value: Value, labelName: string): (r: Result<Value>)
    ensures r.Ok? <==> value != Undefined && value != Null
    ensures r.Ok? ==> r.value == value
    ensures r.Err? ==> r.error == PlainError("assert " + labelName + " to be non-null, but is " + NullText(value))
  {
    var checked := Assert(value != Undefined && value != Null,
                          "assert " + labelName + " to be non-null, but is " + NullText(value));
    if checked.Fail? then Err(checked.error) else Ok(value)
  }

  /** `oldDeps.every((value, index) => Object.is(value, newDeps[index]))`,
      walked from index `i` on. */
  function EveryFrom(oldDeps: seq<Value>, newDeps: seq<Value>, i: nat): bool
    requires |oldDeps| == |newDeps|
    decreases |oldDeps| - i
  {
    i >= |oldDeps| || (oldDeps[i] == newDeps[i] && EveryFrom(oldDeps, newDeps, i + 1))
  }

  lemma {:induction false} EveryFromIff(oldDeps: seq<Value>, newDeps: seq<Value>, i: nat)
    requires |oldDeps| == |newDeps|
    ensures EveryFrom(oldDeps, newDeps, i) <==>
            forall j :: i <= j < |oldDeps| ==> oldDeps[j] == newDeps[j]
    decreases |oldDeps| - i
  {
    if i < |oldDeps| {
      EveryFromIff(oldDeps, newDeps, i + 1);
    }
  }

  /** `unchangedDeps(oldDeps, newDeps)`: true when the dependencies are
      considered equal, i.e. the hook need not run again. */
  function UnchangedDeps(oldDeps: Deps, newDeps: Deps): (r: bool)
    ensures oldDeps.None? || newDeps.None? ==> !r
    ensures oldDeps.Some? && newDeps.Some? && |oldDeps.value| != |newDeps.value| ==> !r
    ensures oldDeps.Some? && newDeps.Some? && |oldDeps.value| == |newDeps.value| ==>
              (r <==> forall i :: 0 <= i < |oldDeps.value| ==> oldDeps.value[i] == newDeps.value[i])
  {
    if oldDeps.None? || newDeps.None? then false
    else if |newDeps.value| != |oldDeps.value| then false
    else
      EveryFromIff(oldDeps.value, newDeps.value, 0);
      EveryFrom(oldDeps.value, newDeps.value, 0)
  }

  /** Two dependency lists are unchanged exactly when both are defined and
      equal element by element. */
  lemma UnchangedDepsIsEquality(oldDeps: Deps, newDeps: Deps)
    ensures UnchangedDeps(oldDeps, newDeps) <==> oldDeps.Some? && oldDeps == newDeps
  {
    if oldDeps.Some? && newDeps.Some? && |oldDeps.value| == |newDeps.value| &&
       UnchangedDeps(oldDeps, newDeps) {
      assert oldDeps.value == newDeps.value;
    }
  }

  /** Reflexive on defined lists; `undefined` is never unchanged, even
      compared with itself. */
  lemma UnchangedDepsReflexive(deps: Deps)
    ensures UnchangedDeps(deps, deps) <==> deps.Some?
  {
    UnchangedDepsIsEquality(deps, deps);
  }

  lemma UnchangedDepsSymmetric(a: Deps, b: Deps)
    ensures UnchangedDeps(a, b) == UnchangedDeps(b, a)
  {
    UnchangedDepsIsEquality(a, b);
    UnchangedDepsIsEquality(b, a);
  }
}

=== FILE: values.dfy ===
/**
 * Shared vocabulary of the runtime model: the JavaScript values that flow
 * through hooks and events, opaque tokens standing for user callbacks, the
 * errors the runtime throws, and the record of callback invocations.
 */
module Values {

  datatype Option<+T> = None | Some(value: T)

  /** A JavaScript value as far as the runtime looks at it. Objects are
      compared by identity (`Obj(id)`), so Dafny equality on `Value` is
      `Object.is`: reflexive, symmetric and transitive, and no value here is
      NaN or -0. */
  datatype Value =
    | Undefined
    | Null
    | Bool(b: bool)
    | Num(n: int)
    | Str(s: string)
    | Obj(id: nat)

  /** A dependency list as handed to an effect or memo hook; `None` is the
      `undefined` ("depend on the whole closure") list. */
  type Deps = Option<seq<Value>>

  /** Opaque user callbacks: a filter predicate, a map transform, a
      functional state updater or a memo computation. */
  datatype Callback = Callback(id: nat)

  /** An effect function and a cleanup function returned by an effect. */
  datatype Effect = Effect(id: nat)
  datatype Cleanup = Cleanup(id: nat)

  /** A state function; `name` is its JavaScript `Function.name`. */
  datatype StateFunc = StateFunc(id: nat, name: string)

  /** What the opaque callbacks do when the runtime calls them, as tables
      from arguments to results. The model quantifies over every choice of
      these; an argument missing from a table stands for a filter that
      rejects, a map that returns its input, an effect that returns no
      cleanup and a computation that returns `undefined`. */
  datatype Callbacks = Callbacks(
    tests: imap<(Callback, Value), bool>,
    transforms: imap<(Callback, Value), Value>,
    effectResults: imap<Effect, Option<Cleanup>>,
    computes: imap<Callback, Value>
  )
  {
    /** The filter predicate `p` applied to `v`. */
    predicate Test(p: Callback, v: Value)
    {
      (p, v) in tests && tests[(p, v)]
    }

    /** The map transform `t` applied to `v`. */
    function Transform(t: Callback, v: Value): Value
    {
      if (t, v) in transforms then transforms[(t, v)] else v
    }

    /** What the effect function `e` returns. */
    function EffectResult(e: Effect): Option<Cleanup>
    {
      if e in effectResults then effectResults[e] else None
    }

    /** What the computation `c` returns. */
    function Compute(c: Callback): Value
    {
      if c in computes then computes[c] else Undefined
    }
  }

  /** One invocation of a user callback, as recorded in a process's trace. */
  datatype Call =
    | RanEffect(effect: Effect)
    | RanCleanup(cleanup: Cleanup)
    | Computed(computation: Callback)
    | Updated(updater: Callback)

  /** The two kinds of exceptions the core throws. */
  datatype Error =
    | AssertionError(message: string)
    | PlainError(message: string)

  datatype Result<+T> = Ok(value: T) | Err(error: Error)
  {
    predicate IsFailure() { Err? }
    function PropagateFailure<U>(): Result<U>
      requires Err?
    {
      Err(error)
    }
    function Extract(): T
      requires Ok?
    {
      value
    }
  }

  datatype Outcome = Pass | Fail(error: Error)
}
